=== FILE: README.md ===
# Powerlifting log: the pure core in Dafny

This project models the logic of a training-log web application for powerlifters. Once data is
loaded, that logic is sequential and pure. The model is organised by the program's own parts:

- **Volume analytics** (`Volume`): the tolerant cell reader `parseNumber` and `computeVolumeData`.
  The latter walks block → week → day. It finds the exercise, sets, reps and weight columns by
  heading and sums sets × reps × weight per (trimmed exercise, week label). It returns one data
  point per week and a sorted list of exercises.
- **Competition scoring and the competition form** (`Competition`):
  - `computeTotal`, the best good attempt per lift summed over lifts, and its string-draft twin
    `computedTotal`;
  - the draft built from a stored competition, the `JSON.stringify` dirty check, the update payload
    and the Save guard;
  - the good/bad toggle cycle and the 18 attempt keys;
  - the chart series sorted by meet date and the metric toggle.
- **Profile page** (`Profile`): the personal-best draft, its dirty check, the saved metadata and
  the state after a save.
- **Block cache** (`BlockCache`): the client-side cache of a training block. It holds the weeks,
  days by week, columns by day, rows by day and the set of expanded days. Every cache update made
  after a successful database call is a pure function of the old state. The updates cover adding,
  deleting and duplicating weeks, deleting, updating and inserting days, adding, deleting and
  reordering columns, adding, deleting, editing and reordering rows, and toggling a day open.
  `remapCellKeys` is modelled as well.
- **Editors** (`CreateDay`, `BlockDetail`, `InlineEdit`): the column-list editor and creation
  rules of the new-day dialog, week-tab selection after create and delete, and the inline text
  editor's save/revert decision.

Supporting modules:

- `Text` models JavaScript's `trim` white-space set, decimal digits and code-unit string order.
- `NumberParse` models `parseFloat`/`parseInt` as prefix parsers returning exact numbers.
  A stored number is a `Number`: a `Decimal` (sign, integer digits, fraction digits) with no
  trailing zero in the fraction and no negative zero. For these `Render` is `String(x)`, and
  each value has exactly one such decimal (`NumberParse.NumberValueInjective`).
- `Json` models `JSON.stringify` of a flat object of strings, booleans and nulls, with a reader
  that inverts it.
- `Domain` holds the database row types and the `{ data, error }` result of a table call.

The following become parameters:

- database answers: each call's `{ data, error }`, or whether it succeeded;
- `formatDate`, as a function from date text to label;
- `new Date(…).getTime()`, as an integer sort key;
- whether an `onSave` promise resolves or rejects.

## Model

| member | source | states |
|---|---|---|
| Text.Trim | components/inline-edit.tsx:31 | `trim` removes exactly the leading and trailing JavaScript white space; the result is empty iff the text is all white space, and otherwise starts and ends with a non-space character |
| Text.TrimIdempotent | components/inline-edit.tsx:31 | trimming a trimmed text changes nothing |
| Text.SortStrings | components/stats-detail.tsx:107 | the default `sort` of distinct keys returns a permutation of them that is strictly increasing in code-unit order |
| NumberParse.ParseFloat | components/stats-detail.tsx:54 | `parseFloat` yields a number exactly when, after leading white space and an optional sign, the text starts with a digit or with a point followed by a digit |
| NumberParse.RenderRoundTrip | components/competition-detail.tsx:30-32 | reading `String(x)` back with `parseFloat` gives the same value `x` |
| NumberParse.NumberValueInjective | components/competition-detail.tsx:30-32 | two stored numbers are equal iff their values are equal iff their `String` texts are equal, so the form text of a number depends on its value alone |
| NumberParse.RenderThenParseFloat | components/stats-detail.tsx:53-54 | `parseFloat` stops at the first character that cannot continue the numeral, so a number's text followed by such a character reads as that number |
| NumberParse.RenderThenParseInt | components/competition-detail.tsx:24-28 | `parseInt(String(x), 10)` gives `x` truncated toward zero |
| NumberParse.ParseFloatOrNull | components/competition-detail.tsx:18-22 | null exactly for blank input or input without a numeric prefix |
| NumberParse.ParseIntOrNull | components/competition-detail.tsx:24-28 | null exactly for blank input or input whose digits do not start right after the optional sign |
| NumberParse.NumToStr | components/competition-detail.tsx:30-32 | `numToStr` gives "" exactly for null |
| NumberParse.NumToStrRoundTrip | components/profile-page.tsx:11-19 | `parseFloatOrNull(numToStr(x))` gives back `x`: null stays null and a number keeps its value |
| NumberParse.NumToStrIntRoundTrip | components/competition-detail.tsx:24-32 | `parseIntOrNull(numToStr(x))` gives back null, or the number truncated toward zero |
| Json.ParseStringify | components/competition-detail.tsx:91-93 | the `JSON.stringify` text of a draft reads back as the same members |
| Json.StringifyInjective | components/competition-detail.tsx:91-93 | two drafts stringify to the same text iff they are equal member for member |
| Volume.KeepNumeric | components/stats-detail.tsx:53 | removing every character outside `0-9 . , -` keeps only those characters, leaves such a text unchanged and empties a text without them |
| Volume.ReplaceFirstComma | components/stats-detail.tsx:53 | `replace(",", ".")` turns only the first comma into a point and leaves every other character as it was |
| Volume.ParseNumber | components/stats-detail.tsx:51-56 | absent or empty text reads as 0; cleaned text without a numeric prefix reads as 0 instead of NaN; otherwise the result is `parseFloat` of the cleaned text |
| Volume.ParseNumberOfRendered | components/stats-detail.tsx:53-54 | a number's text with any unit or other non-numeric suffix reads as that number |
| Volume.ParseNumberDecimalComma | components/stats-detail.tsx:53-54 | a number written with a decimal comma reads as that number |
| Volume.ParseNumberSecondComma | components/stats-detail.tsx:53-54 | only the first comma becomes a point: "1,5,3" reads as 1.5 |
| Volume.ParseNumberNoNumber | components/stats-detail.tsx:54-55 | a text without any digit reads as 0 |
| Volume.WeekLabelInjective | components/stats-detail.tsx:67 | the label `B{order+1}W{week_number}` determines the block order and week number |
| Volume.BlockLabels | components/stats-detail.tsx:65-68 | one label per week of the block, in the block's week order |
| Volume.FindColumn | components/stats-detail.tsx:71-82 | `find` returns the first column with the heading, and nothing iff no column has it |
| Volume.DayStatColumns | components/stats-detail.tsx:71-84 | a day is read iff all four configured headings are among its columns |
| Volume.RowContribution | components/stats-detail.tsx:86-95 | a row contributes iff its exercise cell is present and not blank after trimming and its sets × reps × weight is positive; a contribution carries the trimmed exercise cell, the week label and exactly that positive sets × reps × weight |
| Volume.DayContributions | components/stats-detail.tsx:84 | a day missing any of the four headings contributes nothing |
| Volume.Contributions | components/stats-detail.tsx:65-102 | every contribution has a non-blank exercise, a positive volume and the label of one of the walked weeks |
| Volume.RowsContributionsSum | components/stats-detail.tsx:86-101 | a day's rows add to the pair (exercise, its week's label) exactly the sum of sets × reps × weight over the rows whose trimmed exercise cell is that exercise and whose product is positive, and nothing to other labels |
| Volume.ContributionsSum | components/stats-detail.tsx:65-102 | for every exercise and label, the contributions of the whole program add up to the volume read straight off the hierarchy: the rows of the weeks with that label, in days that have all four columns, whose trimmed exercise is that exercise and whose product is positive |
| Volume.ContributionsMention | components/stats-detail.tsx:95-101 | a pair gets a table entry iff its volume read off the hierarchy is positive |
| Volume.AccumulateKeys | components/stats-detail.tsx:97-101 | the volume table has an exercise iff some contribution names it, and an (exercise, label) entry iff some contribution is for that pair |
| Volume.AccumulateSums | components/stats-detail.tsx:100-101 | each table entry is the sum of the volumes of the contributions for its exercise and label |
| Volume.SumForPositive | components/stats-detail.tsx:95-101 | a pair with at least one contribution has a positive sum |
| Volume.Summarise | components/stats-detail.tsx:107-118 | one point per label, in order; the exercise list is sorted, duplicate-free and names exactly the contributing exercises; a point holds an exercise iff it has a contribution that week, and then holds its positive sum |
| Volume.ComputeVolumeData | components/stats-detail.tsx:58-121 | one point per week in block-then-week order with that week's label; the exercise list is sorted and holds exactly the exercises with positive volume in some week; each point holds exactly the exercises with positive volume that week, each with the sum of sets × reps × weight over that week's counted rows of the exercise (with the label kept separate from the exercises) |
| Volume.TwoSquatRows | components/stats-detail.tsx:86-101 | two Squat rows of 3 sets × 5 reps × 100 in week B1W1 (one name padded with spaces) chart as the single exercise "Squat" with volume 3000 in the single point B1W1 |
| Volume.PointObject | components/stats-detail.tsx:109-117 | the data-point object holds each exercise with volume for the label; its `label` property is the week label unless an exercise is itself called "label" |
| Volume.AsWrittenLabelClobbered | components/stats-detail.tsx:110-114 | an exercise named "label" overwrites the week label in the data point |
| Volume.LabelClobberedExample | components/stats-detail.tsx:107-114 | for a lone 3 kg entry of an exercise called "label" in week B1W1, that week's point holds the number 3 under `label` |
| Volume.AsWrittenAgreesElsewhere | components/stats-detail.tsx:109-118 | apart from the "label" key, the data points built as written agree with the corrected model |
| Competition.BestOf | components/competition-stats.tsx:39-50 | the best attempt of a lift is absent iff no attempt has a weight and a good verdict; otherwise it is the weight of such an attempt and no such attempt is heavier |
| Competition.TotalOf | components/competition-stats.tsx:51-57 | the total is null iff no lift has a best attempt, and otherwise is the sum of the lifts' bests |
| Competition.TotalOfLifts | components/competition-stats.tsx:34-58 | null iff no attempt of any lift counts; otherwise the sum over lifts of each lift's best good weight |
| Competition.ComputeTotal | components/competition-stats.tsx:34-58 | `computeTotal` of a stored competition: null iff no attempt has a weight with verdict good, otherwise the sum of the per-lift bests; attempts judged bad or not judged never count |
| Competition.ComputedTotal | components/competition-detail.tsx:120-144 | the form's total reads each weight with `parseFloatOrNull` and follows the same rule |
| Competition.ComputedTotalOfBuildDraft | components/competition-detail.tsx:62-89 | the form's total of a freshly loaded draft equals the stored competition's total |
| Competition.Cycle | components/attempts-table.tsx:28-32 | the toggle never keeps its value, and it becomes good exactly from not judged |
| Competition.CycleThrice | components/attempts-table.tsx:28-32 | three clicks return to the start, and the three states reached are all different |
| Competition.AttemptKeyInjective | components/attempts-table.tsx:13-14 | a `{lift}_{attempt}_{kg or good}` key determines its lift, attempt and field |
| Competition.AttemptDraftKeysDistinct | components/attempts-table.tsx:16-20 | the attempt draft's 18 keys are pairwise different |
| Competition.AttemptDraftKeysCover | components/attempts-table.tsx:16-20 | every lift, attempt and field has its key in the attempt draft |
| Competition.BuildDraft | components/competition-detail.tsx:62-89 | the meet name and date are copied; weight class and notes are the stored text or ""; body weight and rank are "" exactly when null and otherwise written with `String`; every attempt keeps its verdict and has its weight written with `String` ("" when null) |
| Competition.DraftsEqualIff | components/competition-detail.tsx:91-93 | the `JSON.stringify` comparison of two drafts holds iff the drafts are equal |
| Competition.NonBlank | components/competition-detail.tsx:161 | `trim() || null` is null iff the text is all white space, and otherwise the trimmed text |
| Competition.UpdateOfBuildDraft | components/competition-detail.tsx:158-183 | saving an unedited form writes back the same weights and verdicts; the meet name and texts are trimmed, with blank texts as null; the rank is cut to an integer |
| Competition.SaveEnabledIff | components/competition-detail.tsx:314 | Save is enabled iff not saving, the draft differs from the original, the meet name is not blank and the date is not empty |
| Competition.Load | components/competition-detail.tsx:106-109 | a freshly mounted form holds the draft built from the competition, is clean, idle and shows no message |
| Competition.Switch | components/competition-detail.tsx:111-116 | switching to another competition rebuilds the draft and the original from it, so the form is clean, clears the message and leaves a save in flight as it was |
| Competition.AfterSave | components/competition-detail.tsx:189-197 | a save fails iff the error is a non-empty text or no row came back; the message is then the error, or "Failed to save" when the error is null; after success the form is dirty iff the draft differs from the draft built from the returned row |
| Competition.MetricNamesDistinct | components/competition-stats.tsx:11-32 | the eleven series names are pairwise different and the default selection is among them |
| Competition.PointValues | components/competition-stats.tsx:92-107 | "Bodyweight", each attempt series and "Total" are present iff the stored body weight, that attempt's weight (good or not) and `computeTotal` are not null, each holding that number; no other series appears |
| Competition.CompetitionPoint | components/competition-stats.tsx:88-90 | a point's label is the formatted meet date and it holds only known series |
| Competition.SortByDate | components/competition-stats.tsx:77-84 | the chart order is a permutation of the competitions, ascending by date key |
| Competition.SortByDateSorted | components/competition-stats.tsx:77-84 | competitions already in date order keep their order |
| Competition.SortByDateStable | components/competition-stats.tsx:77-84 | the sort is stable: for every date, the competitions on that date come out in their input order |
| Competition.ChartData | components/competition-stats.tsx:86-111 | one point per competition, the i-th point built from the i-th competition in date order |
| Competition.ToggleMetric | components/competition-stats.tsx:113-119 | toggling flips whether the metric is selected and leaves every other metric as it was; a hidden metric is appended last, after the selection in its order; a duplicate-free selection stays duplicate-free |
| Competition.RemoveCounts | components/competition-stats.tsx:115-116 | hiding a metric keeps every other metric exactly as often as before and drops that metric entirely |
| Competition.RemoveKeepsOrder | components/competition-stats.tsx:115-116 | in a duplicate-free selection, hiding the metric at position i gives the selection without position i, the rest in order |
| Competition.ToggleTwiceHidden | components/competition-stats.tsx:113-119 | showing a hidden metric and hiding it again restores the selection |
| Profile.BuildDraft | components/profile-page.tsx:44-54 | the draft keeps the display name, and a personal-best field is "" exactly when that best is null |
| Profile.SavedOfBuildDraft | components/profile-page.tsx:81-89 | saving an unedited page writes back the same personal bests and the trimmed display name |
| Profile.DraftsEqualIff | components/profile-page.tsx:56-58 | the `JSON.stringify` comparison of two drafts holds iff the drafts are equal |
| Profile.SaveEnabledIff | components/profile-page.tsx:189 | Save is enabled iff not saving and the draft differs from the original |
| Profile.Open | components/profile-page.tsx:66-71 | on opening, the draft equals the original, so Save is disabled |
| Profile.AfterSaveAsWritten | components/profile-page.tsx:94-101 | after a save the draft and the original are both kept, and the message is the error or "Saved" |
| Profile.AsWrittenDirtyAfterSave | components/profile-page.tsx:67 | after a successful save of an edited draft, Save is still enabled |
| Profile.AfterSave | components/profile-page.tsx:94-101 | corrected: after a successful save the original follows the draft, so Save is disabled; a failure keeps the original and shows the error |
| BlockCache.Filter | lib/contexts/block-cache-context.tsx:236 | `filter` keeps exactly the elements the test accepts, and keeps everything when all are accepted |
| BlockCache.AddWeek | lib/contexts/block-cache-context.tsx:210-215 | the new week goes last with an empty day list, and nothing else changes |
| BlockCache.DeleteWeek | lib/contexts/block-cache-context.tsx:231-248 | the week, its day list and the column and row lists of exactly its days are removed; every other entry is unchanged; deleting an id no week has leaves the week list as it was |
| BlockCache.DeleteWeekKeepsOrder | lib/contexts/block-cache-context.tsx:233 | `filter` keeps each other week exactly as often as before; with distinct ids the list loses exactly the deleted week's position and keeps the rest in order |
| BlockCache.DeleteAddedWeek | lib/contexts/block-cache-context.tsx:198-248 | deleting a week just added restores the cache |
| BlockCache.DuplicateWeekRequest | lib/contexts/block-cache-context.tsx:262-265 | the copy is requested in the source's block with week number = number of weeks + 1 |
| BlockCache.DayRequestFor | lib/contexts/block-cache-context.tsx:291-297 | a copied day keeps the source day's number, name and weekday, under the new week |
| BlockCache.ColumnRequests | lib/contexts/block-cache-context.tsx:302-310 | one request per source column, with its heading and order, under the new day |
| BlockCache.ColumnIdMap | lib/contexts/block-cache-context.tsx:302-314 | the map's keys are exactly the source column ids |
| BlockCache.ColumnIdMapAt | lib/contexts/block-cache-context.tsx:312-314 | the i-th source column's id maps to the i-th created column's id when no later source column repeats that id (`Map.set`: the last write wins) |
| BlockCache.RemapCellKeys | lib/contexts/block-cache-context.tsx:68-78 | each cell whose column maps to a non-empty new id moves under that id with its value; no other cell survives |
| BlockCache.RowRequests | lib/contexts/block-cache-context.tsx:322-331 | one request per source row, with its order and remapped cells, under the new day |
| BlockCache.DistinctCreatedInjective | lib/contexts/block-cache-context.tsx:312-314 | when the created column ids are distinct, the id map never sends two cells to the same key |
| BlockCache.RemapFollowsColumns | lib/contexts/block-cache-context.tsx:312-329 | a cloned row holds the i-th source column's value under the i-th created column's id, and only created column ids |
| BlockCache.CopyDay | lib/contexts/block-cache-context.tsx:291-336 | a day is skipped iff its insert failed; the copy throws iff fewer columns came back than were sent; a failed or empty column or row insert gives an empty list |
| BlockCache.CopyDays | lib/contexts/block-cache-context.tsx:285-336 | copying throws iff some day's copy throws; otherwise one copied day per day that was inserted |
| BlockCache.SetCopiedColumns | lib/contexts/block-cache-context.tsx:345-351 | the column map gains exactly the copied day ids; entries of other days are unchanged |
| BlockCache.SetCopiedColumnsAt | lib/contexts/block-cache-context.tsx:345-351 | a copied day's entry holds that copy's columns when no later copy has the same day id |
| BlockCache.SetCopiedRows | lib/contexts/block-cache-context.tsx:352-358 | the row map gains exactly the copied day ids; entries of other days are unchanged |
| BlockCache.SetCopiedRowsAt | lib/contexts/block-cache-context.tsx:352-358 | a copied day's entry holds that copy's rows when no later copy has the same day id |
| BlockCache.DuplicateWeek | lib/contexts/block-cache-context.tsx:254-363 | a failed week insert changes nothing; the call throws iff some column insert comes back short; otherwise the week goes last with one day per inserted copy, and other weeks keep their days |
| BlockCache.DuplicateWeekCopies | lib/contexts/block-cache-context.tsx:338-358 | when every insert succeeds, the i-th new day is the i-th copy, holding the created columns and rows when the source had any |
| BlockCache.DeleteDay | lib/contexts/block-cache-context.tsx:378-399 | the day leaves the day lists and its columns and rows are dropped; weeks without it are unchanged |
| BlockCache.DeleteDayKeepsOrder | lib/contexts/block-cache-context.tsx:380-386 | in each week, `filter` keeps each other day exactly as often as before; with distinct ids the week's list loses exactly the deleted day's position and keeps the rest in order |
| BlockCache.FindDay | lib/contexts/block-cache-context.tsx:417-420 | `findIndex` returns the first day with the id, and nothing iff no day has it |
| BlockCache.ReplaceDay | lib/contexts/block-cache-context.tsx:417-428 | the first day with the id is replaced and every other day is kept |
| BlockCache.UpdateDay | lib/contexts/block-cache-context.tsx:405-432 | the day is replaced in the lists holding it, and nothing else changes |
| BlockCache.ReplaceDayUndo | lib/contexts/block-cache-context.tsx:417-428 | when the stored row keeps the day's id, replacing the day and then writing back the day it replaced restores the list |
| BlockCache.UpdateDayUndo | lib/contexts/block-cache-context.tsx:405-432 | updating a day and then updating it back with the row it had restores the whole cache |
| BlockCache.CacheInsertDay | lib/contexts/block-cache-context.tsx:434-454 | the day goes last in its week with the given columns and no rows; nothing else changes |
| BlockCache.DeleteInsertedDay | lib/contexts/block-cache-context.tsx:367-454 | deleting a day just inserted restores the cache |
| BlockCache.AddColumn | lib/contexts/block-cache-context.tsx:470-477 | the column goes last in its day's list, and nothing else changes |
| BlockCache.DeleteColumn | lib/contexts/block-cache-context.tsx:505-527 | the column leaves its day's list; every row of that day loses exactly that key and keeps its other cells, id and order; deleting an id the day lacks leaves its column list as it was; other days and weeks are unchanged |
| BlockCache.DeleteColumnKeepsOrder | lib/contexts/block-cache-context.tsx:507-512 | `filter` keeps each other column exactly as often as before; with distinct ids the day's list loses exactly the deleted column's position and keeps the rest in order |
| BlockCache.CellUpdates | lib/contexts/block-cache-context.tsx:495-503 | exactly the rows holding the column are persisted, each with its cells minus that key |
| BlockCache.DeleteColumnKeepsCellsValid | lib/contexts/block-cache-context.tsx:505-527 | if every cell names an existing column of its day, that stays so after a column delete |
| BlockCache.DeleteAddedColumn | lib/contexts/block-cache-context.tsx:458-527 | deleting a column just added restores the cache |
| BlockCache.ReorderColumns | lib/contexts/block-cache-context.tsx:536-540 | the day's column list becomes the given list, and nothing else changes |
| BlockCache.ReorderColumnsKeepsCellsValid | lib/contexts/block-cache-context.tsx:536-540 | a reorder that keeps every column keeps every cell pointing at an existing column |
| BlockCache.OrderUpdates | lib/contexts/block-cache-context.tsx:544-547 | the persisted orders give each element its position 0..n-1 |
| BlockCache.ReorderRowsPersistsOrder | lib/contexts/block-cache-context.tsx:650-669 | the persisted orders are strictly increasing along the new list, and rows keep their ids and cells |
| BlockCache.AddRow | lib/contexts/block-cache-context.tsx:558-578 | the row goes last in its day's list, and nothing else changes |
| BlockCache.DeleteRow | lib/contexts/block-cache-context.tsx:580-603 | exactly the rows with that id leave the day's list; deleting an id the day lacks leaves the list as it was; other days and the rest of the cache are unchanged |
| BlockCache.DeleteRowKeepsOrder | lib/contexts/block-cache-context.tsx:593-598 | `filter` keeps each other row exactly as often as before; with distinct ids the day's list loses exactly the deleted row's position and keeps the rest in order |
| BlockCache.DeleteAddedRow | lib/contexts/block-cache-context.tsx:558-603 | deleting a row just added restores the cache |
| BlockCache.UpdateRowCells | lib/contexts/block-cache-context.tsx:615-628 | only the row with the id gets the new cells; the row count and every other row are unchanged |
| BlockCache.UpdateRowCellsKeepsCellsValid | lib/contexts/block-cache-context.tsx:615-628 | saving cells whose keys name columns of the day keeps every cell pointing at an existing column |
| BlockCache.UpdateRowCellsSame | lib/contexts/block-cache-context.tsx:615-628 | with row ids unique in the day, saving a row's own cells back leaves the cache unchanged |
| BlockCache.ReorderRows | lib/contexts/block-cache-context.tsx:650-669 | the day's row list becomes the given list, and nothing else changes |
| BlockCache.ToggleDay | lib/contexts/block-cache-context.tsx:638-648 | exactly that day's membership in the expanded set flips |
| BlockCache.ToggleDayTwice | lib/contexts/block-cache-context.tsx:638-648 | toggling the same day twice restores the cache |
| CreateDay.Close | components/create-day-dialog.tsx:46-55 | closing empties the name, new-column text and error, sets the weekday back to "__none__" and restores the suggested columns; only the save flag is kept |
| CreateDay.CloseForgetsEdits | components/create-day-dialog.tsx:38-55 | two closed dialogs are equal iff their save flags are; closing twice is closing once; a closed idle dialog is the dialog's starting state |
| CreateDay.AddColumn | components/create-day-dialog.tsx:57-62 | blank input changes nothing; otherwise the trimmed heading goes last and the input clears |
| CreateDay.RemoveColumn | components/create-day-dialog.tsx:64-66 | exactly the element at the index goes, the rest keep their order; an index out of range changes nothing |
| CreateDay.RemoveAddedColumn | components/create-day-dialog.tsx:57-66 | removing the column just added restores the list |
| CreateDay.MoveColumn | components/create-day-dialog.tsx:68-76 | a move swaps the column with its neighbour and keeps every other position; a move past either end changes nothing; length and contents are kept |
| CreateDay.MoveDownThenUp | components/create-day-dialog.tsx:68-76 | moving a column down and then back up restores the list |
| CreateDay.DayName | components/create-day-dialog.tsx:101 | `trim() || null` is null iff the name is blank, and otherwise the trimmed name |
| CreateDay.WeekDayIndex | components/create-day-dialog.tsx:102 | "__none__" gives null, any other choice `parseInt(…, 10)` |
| CreateDay.WeekDayIndexOfChoice | components/create-day-dialog.tsx:102 | a chosen weekday number reads back as itself |
| CreateDay.DayInsert | components/create-day-dialog.tsx:98-103 | the day is requested in the week with the next day number, the trimmed name and the chosen weekday |
| CreateDay.ColumnInserts | components/create-day-dialog.tsx:111-115 | one request per heading, in list order, in the new day, each with its list position as `order` |
| CreateDay.HandleCreate | components/create-day-dialog.tsx:85-129 | an empty column list is refused with "Add at least one column." and no insert is sent; the day insert carries the week, the next day number, the trimmed name or null for a blank one, and null for "__none__" or else `parseInt` of the weekday; the column inserts are sent iff the day insert succeeded, one per listed heading in order under the new day's id with `order` its position; a failed day or column insert shows its error or the fallback text; the day and columns are delivered iff both inserts succeed, and the dialog then closes and resets |
| CreateDay.DeliveredFollowsList | components/create-day-dialog.tsx:97-129 | when a day is delivered, it was requested in the given week with the given number, and its column requests are the listed headings in list order under the delivered day's id, each with its position as `order` |
| BlockDetail.AutoSelect | components/block-detail.tsx:42-44 | the first week is selected once loading is done, weeks exist and nothing is selected; otherwise the selection stays |
| BlockDetail.AutoSelectSettles | components/block-detail.tsx:42-44 | the render-time selection is stable after one step, and any selection it makes names a listed week |
| BlockDetail.NewWeekRequest | components/block-detail.tsx:48-51 | a new week is requested with week number = number of weeks + 1 |
| BlockDetail.CreateAndDuplicateNumberAlike | components/block-detail.tsx:46-57 | creating and duplicating a week request the same week number |
| BlockDetail.SelectCreated | components/block-detail.tsx:53-55 | a created week becomes selected; a failed create keeps the selection |
| BlockDetail.NextSelection | components/block-detail.tsx:80-84 | the new selection is a surviving week when one exists, and "" when none does |
| BlockDetail.NextSelectionNeighbour | components/block-detail.tsx:80-84 | with distinct ids, deleting the selected week selects the week after it, or the one before if it was last |
| BlockDetail.AfterDeleteWeek | components/block-detail.tsx:65-89 | no target changes nothing; a failure keeps the selection and shows "Failed to delete week"; a success closes the dialog, clears the error, keeps any other selection, and moves a deleted selection to `NextSelection` of the weeks shown |
| BlockDetail.SelectionSurvivesDelete | components/block-detail.tsx:79-85 | after deleting the selected week, the selection is "" or a week still in the cache |
| InlineEdit.HandleSave | components/inline-edit.tsx:30-46 | `onSave` is called iff the trimmed draft is non-empty and differs from the value, and then once with the trimmed draft; otherwise the draft reverts; a rejection reverts the draft; editing always ends |
| InlineEdit.HandleKeyDown | components/inline-edit.tsx:48-56 | Enter saves; Escape restores the draft and leaves editing without a call; other keys change nothing |
| InlineEdit.EscapeThenSave | components/inline-edit.tsx:30-56 | after Escape, a save calls `onSave` iff the value is non-blank and not already trimmed; for a trimmed value it changes nothing |
| InlineEdit.ValueChanged | components/inline-edit.tsx:19-21 | a new value resets the draft to it |
| InlineEdit.SaveThenEchoIsIdle | components/inline-edit.tsx:19-46 | after a successful save is echoed back as the new value, saving again makes no call |

## Left out

- Network and database I/O are replaced by their answers, passed as parameters. This covers the
  table classes, `Promise.all`, the fetch rounds and the stale-fetch guard of the block cache,
  and `loadData`/`handleSaveSettings` of the statistics page. Console logging and the
  `setTimeout` that clears a success message are left out too.
- Cache updates after a failed call (a null answer) leave the cache as it is. The model shows
  only the update made on success.
- IEEE floating point: numbers are exact reals. `parseFloat("Infinity")`, exponent forms of
  `String(x)`, `-0` and NaN dates are not modelled. Stored numbers are plain decimals.
- JavaScript objects used as dictionaries: keys such as `__proto__` or `constructor` behave
  like any other key in the model.
- String order is by Unicode scalar value, which equals UTF-16 code-unit order outside the
  surrogate range.
- `formatDate` and `new Date(…).getTime()` are parameters. Date parsing and locale formatting
  are not modelled.
- The competition form's `handleFieldChange`/`handleAttemptChange` (arbitrary field edits) are
  not modelled separately. Every form property is stated for an arbitrary draft.
- The inline editor's focus effect and the dialog open/close plumbing are UI effects.
- Fatigue scoring, the RPE calculator and the day grid's drag-and-drop are not part of this model.
- `Day.weekDayIndex` is kept because the cache and the new-day dialog write `week_day_index`,
  although the `Day` row type does not list it.
- BlockCache.DeleteDay: removes the day from every week listing it. The source stops at the first
  such week in map order. The two agree when day ids are unique.
- BlockCache.UpdateDay: replaces the day in every week listing it. The source stops at the first
  such week. The two agree when day ids are unique.
- BlockCache.RemapCellKeys: requires that no two cells map to the same non-empty new id. When two
  do, the source's result depends on entry order. `DuplicateWeek` meets this requirement because
  created ids are distinct (`BlockCache.DistinctCreatedInjective`).
- BlockCache.DuplicateWeek: a short column insert, where `newCols[i].id` reads past the end, is
  modelled as a thrown call that leaves the cache as it was. It states the day count and the
  other weeks. Per-day contents are stated separately under unique created day ids
  (`BlockCache.DuplicateWeekCopies`).
- BlockCache.ReorderColumns, BlockCache.ReorderRows: the cache takes the given list as it is.
  The `order = i` numbering goes only to the persisted updates (`BlockCache.OrderUpdates`), which
  is what the source does.
- CreateDay.MoveColumn: requires an index inside the list. The dialog only calls it with one.

## Findings

| source | as written | input that shows it | evidently intended | confidence | as-written member | corrected member |
|---|---|---|---|---|---|---|
| components/stats-detail.tsx:110-114 | the data point object starts as `{ label }` and then gets one property per exercise | a row whose exercise cell is "label" with positive volume in week B1W1: that point's `label` becomes the volume number (`Volume.LabelClobberedExample`: 3 kg gives 3) | the week label and the exercise volumes never collide | not executed | Volume.AsWrittenLabelClobbered | Volume.ComputeVolumeData |
| components/profile-page.tsx:67 | `originalDraft` has no setter, so it never changes after a save | edit the display name and save successfully: the draft still differs from the original, so Save stays enabled | a successful save makes the saved draft the new original, as the competition form does | not executed | Profile.AsWrittenDirtyAfterSave | Profile.AfterSave |

=== FILE: block_cache.dfy ===
/**
 * The client-side cache of one training block (lib/contexts/block-cache-context.tsx):
 * its weeks, each week's days, each day's columns and rows, and which days are expanded.
 * Every mutation is modelled as the pure state change the source applies once its
 * database call has succeeded; the database's answers are parameters.
 */
module BlockCache {
  import opened Wrappers
  import opened Text
  import opened Domain

  datatype Cache = Cache(
    weeks: seq<Week>,
    daysByWeek: map<string, seq<Day>>,
    columnsByDay: map<string, seq<Column>>,
    rowsByDay: map<string, seq<Row>>,
    expanded: set<string>)

  // ---------------------------------------------------------------------------
  // Getters and list helpers

  /** `getDays`: a week's days, none when the week is not cached. */
  function GetDays(c: Cache, weekId: string): seq<Day> {
    if weekId in c.daysByWeek then c.daysByWeek[weekId] else []
  }

  function GetColumns(c: Cache, dayId: string): seq<Column> {
    if dayId in c.columnsByDay then c.columnsByDay[dayId] else []
  }

  function GetRows(c: Cache, dayId: string): seq<Row> {
    if dayId in c.rowsByDay then c.rowsByDay[dayId] else []
  }

  /** `filter`: the elements that `keep` accepts, in their order. */
  function Filter<T(!new)>(s: seq<T>, keep: T -> bool): (r: seq<T>)
    ensures |r| <= |s|
    ensures forall x :: x in r <==> x in s && keep(x)
    ensures (forall i :: 0 <= i < |s| ==> keep(s[i])) ==> r == s
  {
    if |s| == 0 then []
    else
      var rest := Filter(s[1..], keep);
      if keep(s[0]) then [s[0]] + rest else rest
  }

  /** An accepted element is kept as many times as it occurs; a rejected one never. */
  lemma {:induction false} FilterCounts<T(!new)>(s: seq<T>, keep: T -> bool)
    ensures forall x :: multiset(Filter(s, keep))[x] == if keep(x) then multiset(s)[x] else 0
  {
    if |s| > 0 {
      FilterCounts(s[1..], keep);
      assert s == [s[0]] + s[1..];
    }
  }

  lemma {:induction false} FilterAppend<T(!new)>(a: seq<T>, b: seq<T>, keep: T -> bool)
    ensures Filter(a + b, keep) == Filter(a, keep) + Filter(b, keep)
  {
    if |a| == 0 {
      assert a + b == b;
    } else {
      assert (a + b)[0] == a[0] && (a + b)[1..] == a[1..] + b;
      FilterAppend(a[1..], b, keep);
    }
  }

  /** Filtering out an element appended to a list the filter keeps whole gives back the list. */
  lemma FilterDropsAppended<T(!new)>(s: seq<T>, x: T, keep: T -> bool)
    requires forall y :: y in s ==> keep(y)
    requires !keep(x)
    ensures Filter(s + [x], keep) == s
  {
    FilterAppend(s, [x], keep);
    assert forall i :: 0 <= i < |s| ==> keep(s[i]) by {
      forall i | 0 <= i < |s| ensures keep(s[i]) {
        assert s[i] in s;
      }
    }
    assert s + [] == s;
  }

  /** Filtering out the single rejected element removes exactly that position. */
  lemma {:induction false} FilterDropsOne<T(!new)>(s: seq<T>, i: nat, keep: T -> bool)
    requires i < |s| && !keep(s[i])
    requires forall j :: 0 <= j < |s| && j != i ==> keep(s[j])
    ensures Filter(s, keep) == s[..i] + s[i + 1..]
  {
    if i == 0 {
      assert forall j :: 0 <= j < |s[1..]| ==> keep(s[1..][j]);
    } else {
      assert forall j :: 0 <= j < |s[1..]| && j != i - 1 ==> keep(s[1..][j]);
      FilterDropsOne(s[1..], i - 1, keep);
      assert Filter(s, keep) == [s[0]] + Filter(s[1..], keep);
      ConsSlices(s, i);
    }
  }

  /** With distinct ids, a filter that rejects exactly the id at `i` keeps every other position. */
  lemma OthersKept<T(!new)>(s: seq<T>, i: nat, keep: T -> bool, id: T -> string)
    requires i < |s|
    requires forall j, k :: 0 <= j < k < |s| ==> id(s[j]) != id(s[k])
    requires forall x :: keep(x) <==> id(x) != id(s[i])
    ensures forall j :: 0 <= j < |s| && j != i ==> keep(s[j])
  {
    forall j | 0 <= j < |s| && j != i ensures keep(s[j]) {
      if j < i { assert id(s[j]) != id(s[i]); } else { assert id(s[i]) != id(s[j]); }
    }
  }

  lemma ConsSlices<T>(s: seq<T>, i: nat)
    requires 0 < i < |s|
    ensures [s[0]] + (s[1..][..i - 1] + s[1..][i..]) == s[..i] + s[i + 1..]
  {
    assert s[1..][..i - 1] == s[1..i] && s[1..][i..] == s[i + 1..];
    assert [s[0]] + s[1..i] == s[..i];
  }

  /** The filters the cache deletes with: everything whose id differs from the deleted one. */
  function OtherWeek(id: string): Week -> bool { (w: Week) => w.id != id }
  function OtherDay(id: string): Day -> bool { (d: Day) => d.id != id }
  function OtherColumn(id: string): Column -> bool { (x: Column) => x.id != id }
  function OtherRow(id: string): Row -> bool { (x: Row) => x.id != id }

  function DayIds(days: seq<Day>): set<string> {
    set d | d in days :: d.id
  }

  // ---------------------------------------------------------------------------
  // Weeks

  /** `addWeek`: the created week goes last, with an empty day list. */
  function AddWeek(c: Cache, w: Week): (r: Cache)
    ensures r.weeks == c.weeks + [w]
    ensures GetDays(r, w.id) == [] && w.id in r.daysByWeek
    ensures forall k :: k != w.id ==> GetDays(r, k) == GetDays(c, k)
    ensures r.columnsByDay == c.columnsByDay && r.rowsByDay == c.rowsByDay && r.expanded == c.expanded
  {
    c.(weeks := c.weeks + [w], daysByWeek := c.daysByWeek[w.id := []])
  }

  /** `deleteWeek`: the week, its day list, and the columns and rows of exactly its days go. */
  function DeleteWeek(c: Cache, weekId: string): (r: Cache)
    ensures forall w :: w in r.weeks <==> w in c.weeks && w.id != weekId
    ensures (forall w :: w in c.weeks ==> w.id != weekId) ==> r.weeks == c.weeks
    ensures r.daysByWeek.Keys == c.daysByWeek.Keys - {weekId}
    ensures forall k :: k in r.daysByWeek ==> r.daysByWeek[k] == c.daysByWeek[k]
    ensures r.columnsByDay.Keys == c.columnsByDay.Keys - DayIds(GetDays(c, weekId))
    ensures r.rowsByDay.Keys == c.rowsByDay.Keys - DayIds(GetDays(c, weekId))
    ensures forall d :: d in r.columnsByDay ==> r.columnsByDay[d] == c.columnsByDay[d]
    ensures forall d :: d in r.rowsByDay ==> r.rowsByDay[d] == c.rowsByDay[d]
    ensures r.expanded == c.expanded
  {
    var gone := DayIds(GetDays(c, weekId));
    Cache(Filter(c.weeks, OtherWeek(weekId)),
          c.daysByWeek - {weekId},
          c.columnsByDay - gone,
          c.rowsByDay - gone,
          c.expanded)
  }

  /**
   * `filter` keeps the surviving weeks in order, each as often as before; with distinct ids,
   * deleting the week at position `i` cuts out exactly that position.
   */
  lemma DeleteWeekKeepsOrder(c: Cache, weekId: string)
    ensures forall w :: multiset(DeleteWeek(c, weekId).weeks)[w] == if w.id != weekId then multiset(c.weeks)[w] else 0
    ensures (forall j, k :: 0 <= j < k < |c.weeks| ==> c.weeks[j].id != c.weeks[k].id) ==>
              forall i :: 0 <= i < |c.weeks| && c.weeks[i].id == weekId ==>
                DeleteWeek(c, weekId).weeks == c.weeks[..i] + c.weeks[i + 1..]
  {
    FilterCounts(c.weeks, OtherWeek(weekId));
    if forall j, k :: 0 <= j < k < |c.weeks| ==> c.weeks[j].id != c.weeks[k].id {
      forall i | 0 <= i < |c.weeks| && c.weeks[i].id == weekId
        ensures DeleteWeek(c, weekId).weeks == c.weeks[..i] + c.weeks[i + 1..]
      {
        OthersKept(c.weeks, i, OtherWeek(weekId), (w: Week) => w.id);
        FilterDropsOne(c.weeks, i, OtherWeek(weekId));
      }
    }
  }

  /** Deleting a week that was just added (under a fresh id) restores the cache. */
  lemma DeleteAddedWeek(c: Cache, w: Week)
    requires forall x :: x in c.weeks ==> x.id != w.id
    requires w.id !in c.daysByWeek
    ensures DeleteWeek(AddWeek(c, w), w.id) == c
  {
    var a := AddWeek(c, w);
    var r := DeleteWeek(a, w.id);
    assert r.weeks == c.weeks by {
      FilterDropsAppended(c.weeks, w, OtherWeek(w.id));
    }
    assert r.daysByWeek == c.daysByWeek by {
      assert a.daysByWeek - {w.id} == c.daysByWeek;
    }
    assert r.columnsByDay == c.columnsByDay && r.rowsByDay == c.rowsByDay by {
      assert DayIds(GetDays(a, w.id)) == {};
    }
  }

  // ---------------------------------------------------------------------------
  // Duplicating a week

  /** The week insert `duplicateWeek` sends: same block, numbered after the cached weeks. */
  datatype WeekRequest = WeekRequest(blockId: string, weekNumber: int)

  function DuplicateWeekRequest(c: Cache, source: Week): (r: WeekRequest)
    ensures r.blockId == source.blockId && r.weekNumber == |c.weeks| + 1
  {
    WeekRequest(source.blockId, |c.weeks| + 1)
  }

  /** A day insert: the copy keeps number, name and weekday, and belongs to the new week. */
  datatype DayRequest = DayRequest(weekId: string, dayNumber: int, name: Option<string>, weekDayIndex: Option<int>)

  function DayRequestFor(weekId: string, d: Day): (r: DayRequest)
    ensures r.weekId == weekId && r.dayNumber == d.dayNumber
    ensures r.name == d.name && r.weekDayIndex == d.weekDayIndex
  {
    DayRequest(weekId, d.dayNumber, d.name, d.weekDayIndex)
  }

  /** A column insert: the copy keeps label and order, and belongs to the new day. */
  datatype ColumnRequest = ColumnRequest(dayId: string, heading: string, order: int)

  function ColumnRequests(src: seq<Column>, dayId: string): (r: seq<ColumnRequest>)
    ensures |r| == |src|
    ensures forall i :: 0 <= i < |src| ==> r[i] == ColumnRequest(dayId, src[i].heading, src[i].order)
  {
    seq(|src|, i requires 0 <= i < |src| => ColumnRequest(dayId, src[i].heading, src[i].order))
  }

  /**
   * `columnIdMap`: each source column's id to the id of the column created at the same
   * position; a later source column with the same id wins, as `Map.set` does.
   */
  function ColumnIdMap(src: seq<Column>, created: seq<Column>): (r: map<string, string>)
    requires |src| <= |created|
    ensures r.Keys == set x | x in src :: x.id
  {
    if |src| == 0 then map[]
    else
      var n := |src| - 1;
      assert forall x :: x in src <==> x in src[..n] || x == src[n] by {
        assert src == src[..n] + [src[n]];
      }
      ColumnIdMap(src[..n], created)[src[n].id := created[n].id]
  }

  /** The last column holding an id decides where that id maps: to the column created in its place. */
  lemma {:induction false} ColumnIdMapAt(src: seq<Column>, created: seq<Column>, i: nat)
    requires |src| <= |created|
    requires i < |src| && forall j :: i < j < |src| ==> src[j].id != src[i].id
    ensures src[i].id in ColumnIdMap(src, created) && ColumnIdMap(src, created)[src[i].id] == created[i].id
  {
    var n := |src| - 1;
    assert ColumnIdMap(src, created) == ColumnIdMap(src[..n], created)[src[n].id := created[n].id];
    if i < n {
      assert src[..n][i] == src[i] && src[n].id != src[i].id;
      ColumnIdMapAt(src[..n], created, i);
    }
  }

  /** No two kept cells would land on the same new column id. */
  predicate RemapInjective(cells: map<string, string>, idMap: map<string, string>) {
    forall a, b :: a in cells && b in cells && a in idMap && b in idMap && idMap[a] == idMap[b] && idMap[a] != "" ==> a == b
  }

  /**
   * `remapCellKeys`: each cell whose column has a non-empty new id moves under that id with
   * its value; cells of columns that were not copied are dropped.
   */
  function RemapCellKeys(cells: map<string, string>, idMap: map<string, string>): (r: map<string, string>)
    requires RemapInjective(cells, idMap)
    ensures forall k :: k in cells && k in idMap && idMap[k] != "" ==> idMap[k] in r && r[idMap[k]] == cells[k]
    ensures forall n :: n in r ==> exists k :: k in cells && k in idMap && idMap[k] == n && n != ""
  {
    map k | k in cells && k in idMap && idMap[k] != "" :: idMap[k] := cells[k]
  }

  /** A row insert: the copy keeps its order and carries the remapped cells. */
  datatype RowRequest = RowRequest(dayId: string, order: int, cells: map<string, string>)

  function RowRequests(src: seq<Row>, dayId: string, idMap: map<string, string>): (r: seq<RowRequest>)
    requires forall i :: 0 <= i < |src| ==> RemapInjective(src[i].cells, idMap)
    ensures |r| == |src|
    ensures forall i :: 0 <= i < |src| ==>
              r[i].dayId == dayId && r[i].order == src[i].order && r[i].cells == RemapCellKeys(src[i].cells, idMap)
  {
    seq(|src|, i requires 0 <= i < |src| => RowRequest(dayId, src[i].order, RemapCellKeys(src[i].cells, idMap)))
  }

  /** Column ids distinct within a list, as the database's primary keys are. */
  predicate DistinctIds(cols: seq<Column>) {
    forall i, j :: 0 <= i < j < |cols| ==> cols[i].id != cols[j].id
  }

  lemma DistinctCreatedInjective(cells: map<string, string>, src: seq<Column>, created: seq<Column>)
    requires |src| <= |created| && DistinctIds(created)
    ensures RemapInjective(cells, ColumnIdMap(src, created))
  {
    var m := ColumnIdMap(src, created);
    forall a, b | a in cells && b in cells && a in m && b in m && m[a] == m[b] && m[a] != "" ensures a == b {
      var i := LastIndexOf(src, a);
      var j := LastIndexOf(src, b);
      ColumnIdMapAt(src, created, i);
      ColumnIdMapAt(src, created, j);
      assert i == j;
    }
  }

  /** The last position holding a column with this id. */
  function LastIndexOf(src: seq<Column>, id: string): (i: nat)
    requires exists x :: x in src && x.id == id
    ensures i < |src| && src[i].id == id
    ensures forall j :: i < j < |src| ==> src[j].id != id
  {
    var n := |src| - 1;
    if src[n].id == id then n
    else
      assert exists x :: x in src[..n] && x.id == id by {
        var x :| x in src && x.id == id;
        assert src == src[..n] + [src[n]];
        assert x in src[..n];
      }
      LastIndexOf(src[..n], id)
  }

  /**
   * Copied cells land under the copies of their columns: when the source columns have
   * distinct ids, the cell of source column `i` is found, with its value, under the id of
   * created column `i`, and every copied cell is under the id of a created column.
   */
  lemma {:induction false} RemapFollowsColumns(cells: map<string, string>, src: seq<Column>, created: seq<Column>)
    requires |src| <= |created| && DistinctIds(src) && DistinctIds(created)
    ensures RemapInjective(cells, ColumnIdMap(src, created))
    ensures var r := RemapCellKeys(cells, ColumnIdMap(src, created));
            (forall i :: 0 <= i < |src| && src[i].id in cells && created[i].id != "" ==>
               created[i].id in r && r[created[i].id] == cells[src[i].id]) &&
            (forall n :: n in r ==> exists i :: 0 <= i < |src| && created[i].id == n)
  {
    DistinctCreatedInjective(cells, src, created);
    var m := ColumnIdMap(src, created);
    forall i | 0 <= i < |src| ensures src[i].id in m && m[src[i].id] == created[i].id {
      ColumnIdMapAt(src, created, i);
    }
    var r := RemapCellKeys(cells, m);
    forall n | n in r ensures exists i :: 0 <= i < |src| && created[i].id == n {
      var k :| k in cells && k in m && m[k] == n && n != "";
      var i := LastIndexOf(src, k);
      ColumnIdMapAt(src, created, i);
    }
  }

  /** What the database answered for one source day: the day, its columns, its rows. */
  datatype DayCopy = DayCopy(day: Option<Day>, columns: Option<seq<Column>>, rows: Option<seq<Row>>)

  /** How many day inserts came back with a day. */
  function CreatedCount(copies: seq<DayCopy>): (r: nat)
    ensures r <= |copies|
    ensures r == |copies| <==> forall i :: 0 <= i < |copies| ==> copies[i].day.Some?
  {
    if |copies| == 0 then 0
    else
      var n := |copies| - 1;
      CreatedCount(copies[..n]) + (if copies[n].day.Some? then 1 else 0)
  }

  lemma CreatedCountLast(copies: seq<DayCopy>)
    requires |copies| > 0
    ensures var n := |copies| - 1;
            CreatedCount(copies) == CreatedCount(copies[..n]) + (if copies[n].day.Some? then 1 else 0)
  {
  }

  /** How one source day's copy ended. */
  datatype CopyOutcome =
    | Skipped                                            // the day insert returned nothing
    | Crashed                                            // fewer columns came back than were sent
    | Copied(day: Day, columns: seq<Column>, rows: seq<Row>)

  /**
   * One pass of the loop: a missing day is skipped; columns are inserted only when the source
   * day has some, rows likewise; a failed column or row insert leaves the copy empty; fewer
   * columns back than sent makes `newCols[i].id` throw.
   */
  function CopyDay(c: Cache, srcDay: Day, copy: DayCopy): (r: CopyOutcome)
    ensures r.Skipped? <==> copy.day.None?
    ensures r.Crashed? <==> copy.day.Some? && 0 < |GetColumns(c, srcDay.id)| && copy.columns.Some? &&
                            |copy.columns.value| < |GetColumns(c, srcDay.id)|
    ensures r.Copied? ==> r.day == copy.day.value
    ensures r.Copied? ==> (r.columns == [] <==> GetColumns(c, srcDay.id) == [] || copy.columns.None? || copy.columns.value == [])
    ensures r.Copied? ==> (r.rows == [] <==> GetRows(c, srcDay.id) == [] || copy.rows.None? || copy.rows.value == [])
  {
    var srcCols, srcRows := GetColumns(c, srcDay.id), GetRows(c, srcDay.id);
    if copy.day.None? then Skipped
    else if |srcCols| > 0 && copy.columns.Some? && |copy.columns.value| < |srcCols| then Crashed
    else
      var cols := if |srcCols| > 0 && copy.columns.Some? then copy.columns.value else [];
      var rows := if |srcRows| > 0 && copy.rows.Some? then copy.rows.value else [];
      Copied(copy.day.value, cols, rows)
  }

  /**
   * The loop over the source days, in order: the copies that succeeded, or None when one
   * of them threw (which abandons the whole duplication).
   */
  function CopyDays(c: Cache, srcDays: seq<Day>, copies: seq<DayCopy>): (r: Option<seq<CopyOutcome>>)
    requires |copies| == |srcDays|
    ensures r.None? <==> SomeCrashed(c, srcDays, copies)
    ensures r.Some? ==> forall o :: o in r.value ==> o.Copied?
    ensures r.Some? ==> |r.value| == CreatedCount(copies)
  {
    if |srcDays| == 0 then Some([])
    else
      var n := |srcDays| - 1;
      var o := CopyDay(c, srcDays[n], copies[n]);
      var sofar := CopyDays(c, srcDays[..n], copies[..n]);
      CrashedLast(c, srcDays, copies);
      CreatedCountLast(copies);
      if sofar.None? || o.Crashed? then None
      else if o.Skipped? then sofar
      else
        assert forall x :: x in sofar.value + [o] ==> x in sofar.value || x == o;
        Some(sofar.value + [o])
  }

  predicate SomeCrashed(c: Cache, srcDays: seq<Day>, copies: seq<DayCopy>)
    requires |copies| == |srcDays|
  {
    exists i :: 0 <= i < |srcDays| && CopyDay(c, srcDays[i], copies[i]).Crashed?
  }

  /** A copy crashed in the whole loop exactly when one crashed before the last or the last did. */
  lemma CrashedLast(c: Cache, srcDays: seq<Day>, copies: seq<DayCopy>)
    requires |copies| == |srcDays| > 0
    ensures var n := |srcDays| - 1;
            SomeCrashed(c, srcDays, copies) <==>
            SomeCrashed(c, srcDays[..n], copies[..n]) || CopyDay(c, srcDays[n], copies[n]).Crashed?
  {
    var n := |srcDays| - 1;
    if SomeCrashed(c, srcDays, copies) {
      var i :| 0 <= i < |srcDays| && CopyDay(c, srcDays[i], copies[i]).Crashed?;
      if i < n {
        assert srcDays[..n][i] == srcDays[i] && copies[..n][i] == copies[i];
      }
    }
    if SomeCrashed(c, srcDays[..n], copies[..n]) {
      var i :| 0 <= i < n && CopyDay(c, srcDays[..n][i], copies[..n][i]).Crashed?;
      assert srcDays[..n][i] == srcDays[i] && copies[..n][i] == copies[i];
    }
  }

  function CopiedDays(os: seq<CopyOutcome>): (r: seq<Day>)
    requires forall o :: o in os ==> o.Copied?
    ensures |r| == |os| && forall i :: 0 <= i < |os| ==> r[i] == os[i].day
  {
    seq(|os|, i requires 0 <= i < |os| => os[i].day)
  }

  /** The cached columns once every copy's entry has been set, later copies winning. */
  function SetCopiedColumns(m: map<string, seq<Column>>, os: seq<CopyOutcome>): (r: map<string, seq<Column>>)
    requires forall o :: o in os ==> o.Copied?
    ensures r.Keys == m.Keys + set o | o in os :: o.day.id
    ensures forall d :: d in m && (forall o :: o in os ==> o.day.id != d) ==> r[d] == m[d]
  {
    if |os| == 0 then m
    else
      var n := |os| - 1;
      assert forall o :: o in os <==> o in os[..n] || o == os[n] by {
        assert os == os[..n] + [os[n]];
      }
      SetCopiedColumns(m, os[..n])[os[n].day.id := os[n].columns]
  }

  function SetCopiedRows(m: map<string, seq<Row>>, os: seq<CopyOutcome>): (r: map<string, seq<Row>>)
    requires forall o :: o in os ==> o.Copied?
    ensures r.Keys == m.Keys + set o | o in os :: o.day.id
    ensures forall d :: d in m && (forall o :: o in os ==> o.day.id != d) ==> r[d] == m[d]
  {
    if |os| == 0 then m
    else
      var n := |os| - 1;
      assert forall o :: o in os <==> o in os[..n] || o == os[n] by {
        assert os == os[..n] + [os[n]];
      }
      SetCopiedRows(m, os[..n])[os[n].day.id := os[n].rows]
  }

  /** The last copy of a day id decides that day's cached columns. */
  lemma {:induction false} SetCopiedColumnsAt(m: map<string, seq<Column>>, os: seq<CopyOutcome>, i: nat)
    requires forall o :: o in os ==> o.Copied?
    requires i < |os| && forall j :: i < j < |os| ==> os[j].day.id != os[i].day.id
    ensures os[i].day.id in SetCopiedColumns(m, os) && SetCopiedColumns(m, os)[os[i].day.id] == os[i].columns
  {
    var n := |os| - 1;
    assert SetCopiedColumns(m, os) == SetCopiedColumns(m, os[..n])[os[n].day.id := os[n].columns];
    if i < n {
      assert os[..n][i] == os[i] && os[n].day.id != os[i].day.id;
      assert forall o :: o in os[..n] ==> o.Copied?;
      SetCopiedColumnsAt(m, os[..n], i);
    }
  }

  /** The last copy of a day id decides that day's cached rows. */
  lemma {:induction false} SetCopiedRowsAt(m: map<string, seq<Row>>, os: seq<CopyOutcome>, i: nat)
    requires forall o :: o in os ==> o.Copied?
    requires i < |os| && forall j :: i < j < |os| ==> os[j].day.id != os[i].day.id
    ensures os[i].day.id in SetCopiedRows(m, os) && SetCopiedRows(m, os)[os[i].day.id] == os[i].rows
  {
    var n := |os| - 1;
    assert SetCopiedRows(m, os) == SetCopiedRows(m, os[..n])[os[n].day.id := os[n].rows];
    if i < n {
      assert os[..n][i] == os[i] && os[n].day.id != os[i].day.id;
      assert forall o :: o in os[..n] ==> o.Copied?;
      SetCopiedRowsAt(m, os[..n], i);
    }
  }

  /** How `duplicateWeek` ended: it returned (the new week, or null), or it threw. */
  datatype Duplication = Returned(cache: Cache, week: Option<Week>) | Threw

  /**
   * `duplicateWeek`: the database's answers are parameters. A failed week insert returns
   * null and changes nothing; a copy that throws changes nothing in the cache; otherwise the
   * new week goes last, its days are the copies that were created, in order, and each new
   * day gets its copied columns and rows.
   */
  function DuplicateWeek(c: Cache, source: Week, created: Option<Week>, copies: seq<DayCopy>): (r: Duplication)
    requires |copies| == |GetDays(c, source.id)|
    ensures created.None? ==> r == Returned(c, None)
    ensures r.Threw? <==> created.Some? && exists i :: 0 <= i < |copies| && CopyDay(c, GetDays(c, source.id)[i], copies[i]).Crashed?
    ensures r.Returned? && created.Some? ==>
              var w, after := created.value, r.cache;
              r.week == Some(w) && after.weeks == c.weeks + [w] && after.expanded == c.expanded &&
              |GetDays(after, w.id)| == CreatedCount(copies) &&
              (forall k :: k != w.id ==> GetDays(after, k) == GetDays(c, k))
  {
    var srcDays := GetDays(c, source.id);
    if created.None? then Returned(c, None)
    else
      var w := created.value;
      match CopyDays(c, srcDays, copies)
      case None => Threw
      case Some(os) =>
        Returned(Cache(c.weeks + [w],
                       c.daysByWeek[w.id := CopiedDays(os)],
                       SetCopiedColumns(c.columnsByDay, os),
                       SetCopiedRows(c.rowsByDay, os),
                       c.expanded),
                 Some(w))
  }

  /** Every insert for the source days succeeded, with as many columns back as were sent. */
  predicate AllInsertsSucceed(c: Cache, srcDays: seq<Day>, copies: seq<DayCopy>)
    requires |copies| == |srcDays|
  {
    forall k :: 0 <= k < |copies| ==>
      copies[k].day.Some? && copies[k].columns.Some? && copies[k].rows.Some? &&
      |copies[k].columns.value| == |GetColumns(c, srcDays[k].id)|
  }

  /** The outcome of a copy whose inserts all succeeded. */
  function Complete(c: Cache, srcDay: Day, copy: DayCopy): (r: CopyOutcome)
    requires copy.day.Some? && copy.columns.Some? && copy.rows.Some?
    ensures r.Copied? && r.day == copy.day.value
  {
    Copied(copy.day.value,
           if GetColumns(c, srcDay.id) == [] then [] else copy.columns.value,
           if GetRows(c, srcDay.id) == [] then [] else copy.rows.value)
  }

  lemma SnocAt<T>(a: seq<T>, x: T, k: nat)
    requires k <= |a|
    ensures (a + [x])[k] == if k < |a| then a[k] else x
  {
  }

  /** When every insert succeeds, the loop yields one complete copy per source day, in order. */
  lemma {:induction false} AllCopied(c: Cache, srcDays: seq<Day>, copies: seq<DayCopy>)
    requires |copies| == |srcDays| && AllInsertsSucceed(c, srcDays, copies)
    ensures CopyDays(c, srcDays, copies).Some?
    ensures var os := CopyDays(c, srcDays, copies).value;
            |os| == |srcDays| &&
            forall k :: 0 <= k < |os| ==> os[k] == Complete(c, srcDays[k], copies[k])
  {
    if |srcDays| > 0 {
      var n := |srcDays| - 1;
      assert AllInsertsSucceed(c, srcDays[..n], copies[..n]);
      AllCopied(c, srcDays[..n], copies[..n]);
      var sofar := CopyDays(c, srcDays[..n], copies[..n]).value;
      var o := CopyDay(c, srcDays[n], copies[n]);
      assert o == Complete(c, srcDays[n], copies[n]);
      assert CopyDays(c, srcDays, copies) == Some(sofar + [o]);
      forall k | 0 <= k < |srcDays| ensures (sofar + [o])[k] == Complete(c, srcDays[k], copies[k]) {
        SnocAt(sofar, o, k);
        if k < n {
          assert sofar[k] == Complete(c, srcDays[..n][k], copies[..n][k]);
          assert srcDays[..n][k] == srcDays[k] && copies[..n][k] == copies[k];
        }
      }
    }
  }

  /**
   * The copied days keep their source's columns and rows: when every insert succeeds and
   * the day ids that come back are distinct, the new week lists the copies in source order,
   * and each new day's cached columns and rows are what the database returned for it.
   */
  lemma DuplicateWeekCopies(c: Cache, source: Week, w: Week, copies: seq<DayCopy>, i: nat)
    requires |copies| == |GetDays(c, source.id)| && AllInsertsSucceed(c, GetDays(c, source.id), copies)
    requires forall k, l :: 0 <= k < l < |copies| ==> copies[k].day.value.id != copies[l].day.value.id
    requires i < |copies|
    ensures DuplicateWeek(c, source, Some(w), copies).Returned?
    ensures var after := DuplicateWeek(c, source, Some(w), copies).cache;
            var src, d := GetDays(c, source.id)[i], copies[i].day.value;
            GetDays(after, w.id)[i] == d &&
            (GetColumns(c, src.id) != [] ==> GetColumns(after, d.id) == copies[i].columns.value) &&
            (GetRows(c, src.id) != [] ==> GetRows(after, d.id) == copies[i].rows.value)
  {
    var srcDays := GetDays(c, source.id);
    AllCopied(c, srcDays, copies);
    var os := CopyDays(c, srcDays, copies).value;
    assert os[i] == Complete(c, srcDays[i], copies[i]);
    CopiedIdsDistinct(c, srcDays, copies, os, i);
    SetCopiedColumnsAt(c.columnsByDay, os, i);
    SetCopiedRowsAt(c.rowsByDay, os, i);
    DuplicatedCache(c, source, w, copies);
  }

  lemma CopiedIdsDistinct(c: Cache, srcDays: seq<Day>, copies: seq<DayCopy>, os: seq<CopyOutcome>, i: nat)
    requires |copies| == |srcDays| && AllInsertsSucceed(c, srcDays, copies)
    requires forall k, l :: 0 <= k < l < |copies| ==> copies[k].day.value.id != copies[l].day.value.id
    requires |os| == |srcDays| && forall k :: 0 <= k < |os| ==> os[k].Copied? && os[k] == Complete(c, srcDays[k], copies[k])
    requires i < |os|
    ensures forall j :: i < j < |os| ==> os[j].day.id != os[i].day.id
  {
    forall j | i < j < |os| ensures os[j].day.id != os[i].day.id {
      assert os[j] == Complete(c, srcDays[j], copies[j]);
      assert os[i] == Complete(c, srcDays[i], copies[i]);
    }
  }

  /** The cache `duplicateWeek` leaves when no copy threw. */
  lemma DuplicatedCache(c: Cache, source: Week, w: Week, copies: seq<DayCopy>)
    requires |copies| == |GetDays(c, source.id)|
    requires CopyDays(c, GetDays(c, source.id), copies).Some?
    ensures var os := CopyDays(c, GetDays(c, source.id), copies).value;
            DuplicateWeek(c, source, Some(w), copies) ==
            Returned(Cache(c.weeks + [w], c.daysByWeek[w.id := CopiedDays(os)],
                           SetCopiedColumns(c.columnsByDay, os), SetCopiedRows(c.rowsByDay, os), c.expanded),
                     Some(w))
  {
  }

  // ---------------------------------------------------------------------------
  // Days

  /** `deleteDay`: the day leaves every week's list, and its columns and rows go. */
  function DeleteDay(c: Cache, dayId: string): (r: Cache)
    ensures r.weeks == c.weeks && r.expanded == c.expanded
    ensures r.daysByWeek.Keys == c.daysByWeek.Keys
    ensures forall k, d :: k in r.daysByWeek ==> (d in r.daysByWeek[k] <==> d in c.daysByWeek[k] && d.id != dayId)
    ensures forall k :: k in c.daysByWeek && dayId !in DayIds(c.daysByWeek[k]) ==> r.daysByWeek[k] == c.daysByWeek[k]
    ensures r.columnsByDay == c.columnsByDay - {dayId} && r.rowsByDay == c.rowsByDay - {dayId}
  {
    var days := map k | k in c.daysByWeek :: Filter(c.daysByWeek[k], OtherDay(dayId));
    c.(daysByWeek := days, columnsByDay := c.columnsByDay - {dayId}, rowsByDay := c.rowsByDay - {dayId})
  }

  /**
   * `filter` keeps the surviving days of each week in order, each as often as before; with
   * distinct ids in a week, deleting its day at position `i` cuts out exactly that position.
   */
  lemma DeleteDayKeepsOrder(c: Cache, dayId: string, weekId: string)
    requires weekId in c.daysByWeek
    ensures var s, t := c.daysByWeek[weekId], DeleteDay(c, dayId).daysByWeek[weekId];
            forall d: Day :: multiset(t)[d] == if d.id != dayId then multiset(s)[d] else 0
    ensures var s, t := c.daysByWeek[weekId], DeleteDay(c, dayId).daysByWeek[weekId];
            (forall j, k :: 0 <= j < k < |s| ==> s[j].id != s[k].id) ==>
              forall i :: 0 <= i < |s| && s[i].id == dayId ==> t == s[..i] + s[i + 1..]
  {
    DeleteDayList(c, dayId, weekId);
    DaysDropOne(c.daysByWeek[weekId], dayId);
  }

  /** The list-level half of `DeleteDayKeepsOrder`, stated on the filter itself. */
  lemma DaysDropOne(s: seq<Day>, dayId: string)
    ensures forall d: Day :: multiset(Filter(s, OtherDay(dayId)))[d] == if d.id != dayId then multiset(s)[d] else 0
    ensures (forall j, k :: 0 <= j < k < |s| ==> s[j].id != s[k].id) ==>
              forall i :: 0 <= i < |s| && s[i].id == dayId ==> Filter(s, OtherDay(dayId)) == s[..i] + s[i + 1..]
  {
    FilterCounts(s, OtherDay(dayId));
    if forall j, k :: 0 <= j < k < |s| ==> s[j].id != s[k].id {
      forall i | 0 <= i < |s| && s[i].id == dayId
        ensures Filter(s, OtherDay(dayId)) == s[..i] + s[i + 1..]
      {
        OthersKept(s, i, OtherDay(dayId), (d: Day) => d.id);
        FilterDropsOne(s, i, OtherDay(dayId));
      }
    }
  }

  lemma DeleteDayList(c: Cache, dayId: string, weekId: string)
    requires weekId in c.daysByWeek
    ensures DeleteDay(c, dayId).daysByWeek[weekId] == Filter(c.daysByWeek[weekId], OtherDay(dayId))
  {
  }

  /** The position of the first day with this id. */
  function FindDay(days: seq<Day>, dayId: string): (r: Option<nat>)
    ensures r.None? <==> dayId !in DayIds(days)
    ensures r.Some? ==> r.value < |days| && days[r.value].id == dayId
    ensures r.Some? ==> forall j :: 0 <= j < r.value ==> days[j].id != dayId
  {
    if |days| == 0 then None
    else if days[0].id == dayId then Some(0)
    else
      assert DayIds(days) == {days[0].id} + DayIds(days[1..]) by {
        assert days == [days[0]] + days[1..];
      }
      match FindDay(days[1..], dayId)
      case None => None
      case Some(k) => Some(k + 1)
  }

  /** `updateDay` within one list: the first day with the id is replaced by the stored row. */
  function ReplaceDay(days: seq<Day>, dayId: string, data: Day): (r: seq<Day>)
    ensures |r| == |days|
    ensures dayId !in DayIds(days) ==> r == days
    ensures FindDay(days, dayId).Some? ==>
              var k := FindDay(days, dayId).value;
              r[k] == data && forall j :: 0 <= j < |days| && j != k ==> r[j] == days[j]
  {
    match FindDay(days, dayId)
    case None => days
    case Some(k) => days[k := data]
  }

  /** `updateDay`: the stored row replaces the day where it is listed; nothing else changes. */
  function UpdateDay(c: Cache, dayId: string, data: Day): (r: Cache)
    ensures r.weeks == c.weeks && r.columnsByDay == c.columnsByDay && r.rowsByDay == c.rowsByDay
    ensures r.expanded == c.expanded && r.daysByWeek.Keys == c.daysByWeek.Keys
    ensures forall k :: k in c.daysByWeek ==> r.daysByWeek[k] == ReplaceDay(c.daysByWeek[k], dayId, data)
  {
    c.(daysByWeek := map k | k in c.daysByWeek :: ReplaceDay(c.daysByWeek[k], dayId, data))
  }

  /**
   * Writing back the day an update replaced restores the list: the stored row keeps the
   * day's id, so the second update finds it at the same place.
   */
  lemma ReplaceDayUndo(days: seq<Day>, dayId: string, data: Day)
    requires data.id == dayId
    ensures var k := FindDay(days, dayId);
            k.Some? ==> ReplaceDay(ReplaceDay(days, dayId, data), dayId, days[k.value]) == days
  {
    var k := FindDay(days, dayId);
    if k.Some? {
      var r := ReplaceDay(days, dayId, data);
      assert FindDay(r, dayId) == k by {
        var f := FindDay(r, dayId);
        assert r[k.value].id == dayId;
        assert forall j :: 0 <= j < k.value ==> r[j].id != dayId;
      }
    }
  }

  /**
   * Updating a day and then updating it back with the row it had restores the cache, when
   * every week listing the id lists that row first.
   */
  lemma UpdateDayUndo(c: Cache, dayId: string, data: Day, before: Day)
    requires data.id == dayId
    requires forall k :: k in c.daysByWeek && FindDay(c.daysByWeek[k], dayId).Some? ==>
               c.daysByWeek[k][FindDay(c.daysByWeek[k], dayId).value] == before
    ensures UpdateDay(UpdateDay(c, dayId, data), dayId, before) == c
  {
    var r := UpdateDay(UpdateDay(c, dayId, data), dayId, before);
    forall k | k in c.daysByWeek ensures r.daysByWeek[k] == c.daysByWeek[k] {
      ReplaceDayUndo(c.daysByWeek[k], dayId, data);
    }
  }

  /** `cacheInsertDay`: the day goes last in its week, with the given columns and no rows. */
  function CacheInsertDay(c: Cache, weekId: string, day: Day, columns: seq<Column>): (r: Cache)
    ensures GetDays(r, weekId) == GetDays(c, weekId) + [day]
    ensures GetColumns(r, day.id) == columns && GetRows(r, day.id) == []
    ensures forall k :: k != weekId ==> GetDays(r, k) == GetDays(c, k)
    ensures forall d :: d != day.id ==> GetColumns(r, d) == GetColumns(c, d) && GetRows(r, d) == GetRows(c, d)
    ensures r.weeks == c.weeks && r.expanded == c.expanded
  {
    c.(daysByWeek := c.daysByWeek[weekId := GetDays(c, weekId) + [day]],
       columnsByDay := c.columnsByDay[day.id := columns],
       rowsByDay := c.rowsByDay[day.id := []])
  }

  /** Dropping a freshly appended day from every week's list restores the lists. */
  lemma DropInsertedDay(days: map<string, seq<Day>>, weekId: string, day: Day)
    requires weekId in days
    requires forall k :: k in days ==> day.id !in DayIds(days[k])
    ensures var grown := days[weekId := days[weekId] + [day]];
            (map k | k in grown :: Filter(grown[k], OtherDay(day.id))) == days
  {
    var grown := days[weekId := days[weekId] + [day]];
    var keep := OtherDay(day.id);
    var r := map k | k in grown :: Filter(grown[k], keep);
    forall k | k in days ensures r[k] == days[k] {
      DropInsertedDayAt(days, weekId, day, k);
    }
  }

  lemma DropInsertedDayAt(days: map<string, seq<Day>>, weekId: string, day: Day, k: string)
    requires weekId in days && k in days
    requires day.id !in DayIds(days[k])
    ensures Filter(days[weekId := days[weekId] + [day]][k], OtherDay(day.id)) == days[k]
  {
    var keep := OtherDay(day.id);
    assert forall y :: y in days[k] ==> keep(y);
    if k == weekId {
      FilterDropsAppended(days[k], day, keep);
    } else {
      assert forall i :: 0 <= i < |days[k]| ==> keep(days[k][i]);
    }
  }

  /** Deleting a day that was just inserted (under a fresh id, into a cached week) restores the cache. */
  lemma DeleteInsertedDay(c: Cache, weekId: string, day: Day, columns: seq<Column>)
    requires weekId in c.daysByWeek
    requires forall k :: k in c.daysByWeek ==> day.id !in DayIds(c.daysByWeek[k])
    requires day.id !in c.columnsByDay && day.id !in c.rowsByDay
    ensures DeleteDay(CacheInsertDay(c, weekId, day, columns), day.id) == c
  {
    var r := DeleteDay(CacheInsertDay(c, weekId, day, columns), day.id);
    DeleteInsertedDayLists(c, weekId, day, columns);
    assert r.columnsByDay == c.columnsByDay && r.rowsByDay == c.rowsByDay;
  }

  lemma DeleteInsertedDayLists(c: Cache, weekId: string, day: Day, columns: seq<Column>)
    requires weekId in c.daysByWeek
    requires forall k :: k in c.daysByWeek ==> day.id !in DayIds(c.daysByWeek[k])
    ensures DeleteDay(CacheInsertDay(c, weekId, day, columns), day.id).daysByWeek == c.daysByWeek
  {
    var grown := c.daysByWeek[weekId := c.daysByWeek[weekId] + [day]];
    var a := CacheInsertDay(c, weekId, day, columns);
    assert a.daysByWeek == grown;
    DropInsertedDay(c.daysByWeek, weekId, day);
  }

  // ---------------------------------------------------------------------------
  // Columns

  /** `addColumn`: the created column goes last in its day. */
  function AddColumn(c: Cache, dayId: string, col: Column): (r: Cache)
    ensures GetColumns(r, dayId) == GetColumns(c, dayId) + [col]
    ensures forall d :: d != dayId ==> GetColumns(r, d) == GetColumns(c, d)
    ensures r.weeks == c.weeks && r.daysByWeek == c.daysByWeek && r.rowsByDay == c.rowsByDay
    ensures r.expanded == c.expanded
  {
    c.(columnsByDay := c.columnsByDay[dayId := GetColumns(c, dayId) + [col]])
  }

  /** A row without the deleted column's cell; rows without one are kept as they are. */
  function DropCell(r: Row, colId: string): (s: Row)
    ensures s.id == r.id && s.dayId == r.dayId && s.order == r.order
    ensures s.cells.Keys == r.cells.Keys - {colId}
    ensures forall k :: k in s.cells ==> s.cells[k] == r.cells[k]
  {
    if colId !in r.cells then r else r.(cells := r.cells - {colId})
  }

  function DropCells(rows: seq<Row>, colId: string): (r: seq<Row>)
    ensures |r| == |rows|
    ensures forall i :: 0 <= i < |rows| ==> r[i] == DropCell(rows[i], colId)
  {
    seq(|rows|, i requires 0 <= i < |rows| => DropCell(rows[i], colId))
  }

  /**
   * `deleteColumn`: the column leaves its day, and its cell leaves every row of that day;
   * other cells, other rows and other days stay as they were.
   */
  function DeleteColumn(c: Cache, dayId: string, colId: string): (r: Cache)
    ensures forall x :: x in GetColumns(r, dayId) <==> x in GetColumns(c, dayId) && x.id != colId
    ensures (forall x :: x in GetColumns(c, dayId) ==> x.id != colId) ==> GetColumns(r, dayId) == GetColumns(c, dayId)
    ensures |GetRows(r, dayId)| == |GetRows(c, dayId)|
    ensures forall i :: 0 <= i < |GetRows(r, dayId)| ==>
              var before, after := GetRows(c, dayId)[i], GetRows(r, dayId)[i];
              after.id == before.id && after.order == before.order &&
              after.cells.Keys == before.cells.Keys - {colId} &&
              forall k :: k in after.cells ==> after.cells[k] == before.cells[k]
    ensures forall d :: d != dayId ==> GetColumns(r, d) == GetColumns(c, d) && GetRows(r, d) == GetRows(c, d)
    ensures r.weeks == c.weeks && r.daysByWeek == c.daysByWeek && r.expanded == c.expanded
  {
    c.(columnsByDay := c.columnsByDay[dayId := Filter(GetColumns(c, dayId), OtherColumn(colId))],
       rowsByDay := c.rowsByDay[dayId := DropCells(GetRows(c, dayId), colId)])
  }

  /** The cell updates `deleteColumn` sends: each row that had the cell, without it. */
  function CellUpdates(rows: seq<Row>, colId: string): (r: seq<(string, map<string, string>)>)
    ensures |r| <= |rows|
    ensures forall u :: u in r ==> colId !in u.1
    ensures forall x :: x in rows && colId in x.cells ==> (x.id, x.cells - {colId}) in r
    ensures forall u :: u in r ==> exists x :: x in rows && colId in x.cells && u == (x.id, x.cells - {colId})
  {
    if |rows| == 0 then []
    else
      var rest := CellUpdates(rows[1..], colId);
      assert forall x :: x in rows <==> x == rows[0] || x in rows[1..];
      if colId in rows[0].cells then [(rows[0].id, rows[0].cells - {colId})] + rest else rest
  }

  /** Every cell of every row of a day is keyed by one of that day's columns. */
  predicate CellsReferenceColumns(c: Cache) {
    forall d, i, k :: d in c.rowsByDay && 0 <= i < |c.rowsByDay[d]| && k in c.rowsByDay[d][i].cells ==>
      exists x :: x in GetColumns(c, d) && x.id == k
  }

  /** Deleting a column keeps every cell pointing at an existing column. */
  lemma DeleteColumnKeepsCellsValid(c: Cache, dayId: string, colId: string)
    requires CellsReferenceColumns(c)
    ensures CellsReferenceColumns(DeleteColumn(c, dayId, colId))
  {
    var r := DeleteColumn(c, dayId, colId);
    forall d, i, k | d in r.rowsByDay && 0 <= i < |r.rowsByDay[d]| && k in r.rowsByDay[d][i].cells
      ensures exists x :: x in GetColumns(r, d) && x.id == k
    {
      if d == dayId {
        assert GetRows(r, d) == r.rowsByDay[d];
        var before := GetRows(c, d)[i];
        assert k in before.cells && k != colId;
        assert d in c.rowsByDay;
        var x :| x in GetColumns(c, d) && x.id == k;
        assert x in GetColumns(r, d);
      } else {
        assert GetRows(r, d) == GetRows(c, d);
        assert d in c.rowsByDay;
        var x :| x in GetColumns(c, d) && x.id == k;
        assert x in GetColumns(r, d);
      }
    }
  }

  /** Deleting a column that was just added, with no cell under it, restores the cache. */
  lemma DeleteAddedColumn(c: Cache, dayId: string, col: Column)
    requires dayId in c.columnsByDay && dayId in c.rowsByDay
    requires forall x :: x in c.columnsByDay[dayId] ==> x.id != col.id
    requires forall i :: 0 <= i < |c.rowsByDay[dayId]| ==> col.id !in c.rowsByDay[dayId][i].cells
    ensures DeleteColumn(AddColumn(c, dayId, col), dayId, col.id) == c
  {
    DeleteAddedColumnMaps(c, dayId, col);
  }

  lemma DeleteAddedColumnMaps(c: Cache, dayId: string, col: Column)
    requires dayId in c.columnsByDay && dayId in c.rowsByDay
    requires forall x :: x in c.columnsByDay[dayId] ==> x.id != col.id
    requires forall i :: 0 <= i < |c.rowsByDay[dayId]| ==> col.id !in c.rowsByDay[dayId][i].cells
    ensures var r := DeleteColumn(AddColumn(c, dayId, col), dayId, col.id);
            r.columnsByDay == c.columnsByDay && r.rowsByDay == c.rowsByDay
  {
    var a := AddColumn(c, dayId, col);
    var r := DeleteColumn(a, dayId, col.id);
    assert r.columnsByDay == c.columnsByDay by {
      var keep := Filter(GetColumns(a, dayId), OtherColumn(col.id));
      assert GetColumns(a, dayId) == c.columnsByDay[dayId] + [col];
      FilterDropsAppended(c.columnsByDay[dayId], col, OtherColumn(col.id));
      MapSetSame(c.columnsByDay, dayId, keep);
    }
    assert r.rowsByDay == c.rowsByDay by {
      DropAbsentCells(c.rowsByDay[dayId], col.id);
      MapSetSame(c.rowsByDay, dayId, DropCells(GetRows(a, dayId), col.id));
    }
  }

  /** Setting a key to the value it already has changes nothing. */
  lemma MapSetSame<V>(m: map<string, V>, k: string, v: V)
    requires k in m && m[k] == v
    ensures m[k := v] == m
  {
  }

  /** Rows without the column's cell keep their cells when it is dropped. */
  lemma DropAbsentCells(rows: seq<Row>, colId: string)
    requires forall i :: 0 <= i < |rows| ==> colId !in rows[i].cells
    ensures DropCells(rows, colId) == rows
  {
    forall i | 0 <= i < |rows| ensures DropCells(rows, colId)[i] == rows[i] {
      assert DropCell(rows[i], colId).cells == rows[i].cells;
    }
  }

  /** `reorderColumns`, in the cache: the day's columns become the given list as it is. */
  function ReorderColumns(c: Cache, dayId: string, reordered: seq<Column>): (r: Cache)
    ensures GetColumns(r, dayId) == reordered
    ensures forall d :: d != dayId ==> GetColumns(r, d) == GetColumns(c, d)
    ensures r.weeks == c.weeks && r.daysByWeek == c.daysByWeek && r.rowsByDay == c.rowsByDay
    ensures r.expanded == c.expanded
  {
    c.(columnsByDay := c.columnsByDay[dayId := reordered])
  }

  /** Reordering a day's columns among themselves keeps every cell pointing at an existing column. */
  lemma ReorderColumnsKeepsCellsValid(c: Cache, dayId: string, reordered: seq<Column>)
    requires CellsReferenceColumns(c)
    requires forall x :: x in GetColumns(c, dayId) ==> x in reordered
    ensures CellsReferenceColumns(ReorderColumns(c, dayId, reordered))
  {
    var r := ReorderColumns(c, dayId, reordered);
    forall d, i, k | d in r.rowsByDay && 0 <= i < |r.rowsByDay[d]| && k in r.rowsByDay[d][i].cells
      ensures exists x :: x in GetColumns(r, d) && x.id == k
    {
      var x :| x in GetColumns(c, d) && x.id == k;
      assert x in GetColumns(r, d);
    }
  }

  // ---------------------------------------------------------------------------
  // Persisted order

  /** An `order` update sent to the database. */
  datatype OrderUpdate = OrderUpdate(id: string, order: int)

  /**
   * `filter` keeps the day's surviving columns in order, each as often as before; with
   * distinct ids, deleting the column at position `i` cuts out exactly that position.
   */
  lemma DeleteColumnKeepsOrder(c: Cache, dayId: string, colId: string)
    ensures var s, t := GetColumns(c, dayId), GetColumns(DeleteColumn(c, dayId, colId), dayId);
            forall x :: multiset(t)[x] == if x.id != colId then multiset(s)[x] else 0
    ensures var s, t := GetColumns(c, dayId), GetColumns(DeleteColumn(c, dayId, colId), dayId);
            (forall j, k :: 0 <= j < k < |s| ==> s[j].id != s[k].id) ==>
              forall i :: 0 <= i < |s| && s[i].id == colId ==> t == s[..i] + s[i + 1..]
  {
    var s := GetColumns(c, dayId);
    FilterCounts(s, OtherColumn(colId));
    if forall j, k :: 0 <= j < k < |s| ==> s[j].id != s[k].id {
      forall i | 0 <= i < |s| && s[i].id == colId
        ensures GetColumns(DeleteColumn(c, dayId, colId), dayId) == s[..i] + s[i + 1..]
      {
        OthersKept(s, i, OtherColumn(colId), (x: Column) => x.id);
        FilterDropsOne(s, i, OtherColumn(colId));
      }
    }
  }

  /** The updates of `reorderColumns` and `reorderRows`: each id with its new position. */
  function OrderUpdates(ids: seq<string>): (r: seq<OrderUpdate>)
    ensures |r| == |ids|
    ensures forall i :: 0 <= i < |r| ==> r[i].id == ids[i] && r[i].order == i
  {
    seq(|ids|, i requires 0 <= i < |ids| => OrderUpdate(ids[i], i))
  }

  function RowIds(rows: seq<Row>): (r: seq<string>)
    ensures |r| == |rows| && forall i :: 0 <= i < |rows| ==> r[i] == rows[i].id
  {
    seq(|rows|, i requires 0 <= i < |rows| => rows[i].id)
  }

  /** The rows as stored once every update has been written (ids distinct). */
  function ApplyRowOrders(rows: seq<Row>, updates: seq<OrderUpdate>): (r: seq<Row>)
    requires |updates| == |rows| && forall i :: 0 <= i < |rows| ==> updates[i].id == rows[i].id
    ensures |r| == |rows|
    ensures forall i :: 0 <= i < |rows| ==> r[i] == rows[i].(order := updates[i].order)
  {
    seq(|rows|, i requires 0 <= i < |rows| => rows[i].(order := updates[i].order))
  }

  /**
   * Once the updates of `reorderRows` are stored, the rows' orders strictly increase along
   * the new list, so a fetch sorted by `order` returns the rows in the order shown.
   */
  lemma ReorderRowsPersistsOrder(rows: seq<Row>)
    ensures var stored := ApplyRowOrders(rows, OrderUpdates(RowIds(rows)));
            forall i, j :: 0 <= i < j < |stored| ==> stored[i].order < stored[j].order
    ensures var stored := ApplyRowOrders(rows, OrderUpdates(RowIds(rows)));
            forall i :: 0 <= i < |stored| ==> stored[i].id == rows[i].id && stored[i].cells == rows[i].cells
  {
  }

  // ---------------------------------------------------------------------------
  // Rows

  /** `addRow`: the created row goes last in its day. */
  function AddRow(c: Cache, dayId: string, row: Row): (r: Cache)
    ensures GetRows(r, dayId) == GetRows(c, dayId) + [row]
    ensures forall d :: d != dayId ==> GetRows(r, d) == GetRows(c, d)
    ensures r.weeks == c.weeks && r.daysByWeek == c.daysByWeek && r.columnsByDay == c.columnsByDay
    ensures r.expanded == c.expanded
  {
    c.(rowsByDay := c.rowsByDay[dayId := GetRows(c, dayId) + [row]])
  }

  /** `deleteRow`: rows with the id leave the day's list; nothing else changes. */
  function DeleteRow(c: Cache, dayId: string, rowId: string): (r: Cache)
    ensures forall x :: x in GetRows(r, dayId) <==> x in GetRows(c, dayId) && x.id != rowId
    ensures (forall x :: x in GetRows(c, dayId) ==> x.id != rowId) ==> GetRows(r, dayId) == GetRows(c, dayId)
    ensures forall d :: d != dayId ==> GetRows(r, d) == GetRows(c, d)
    ensures r.weeks == c.weeks && r.daysByWeek == c.daysByWeek && r.columnsByDay == c.columnsByDay
    ensures r.expanded == c.expanded
  {
    c.(rowsByDay := c.rowsByDay[dayId := Filter(GetRows(c, dayId), OtherRow(rowId))])
  }

  /**
   * `filter` keeps the day's surviving rows in order, each as often as before; with distinct
   * ids, deleting the row at position `i` cuts out exactly that position.
   */
  lemma DeleteRowKeepsOrder(c: Cache, dayId: string, rowId: string)
    ensures var s, t := GetRows(c, dayId), GetRows(DeleteRow(c, dayId, rowId), dayId);
            forall x :: multiset(t)[x] == if x.id != rowId then multiset(s)[x] else 0
    ensures var s, t := GetRows(c, dayId), GetRows(DeleteRow(c, dayId, rowId), dayId);
            (forall j, k :: 0 <= j < k < |s| ==> s[j].id != s[k].id) ==>
              forall i :: 0 <= i < |s| && s[i].id == rowId ==> t == s[..i] + s[i + 1..]
  {
    var s := GetRows(c, dayId);
    FilterCounts(s, OtherRow(rowId));
    if forall j, k :: 0 <= j < k < |s| ==> s[j].id != s[k].id {
      forall i | 0 <= i < |s| && s[i].id == rowId
        ensures GetRows(DeleteRow(c, dayId, rowId), dayId) == s[..i] + s[i + 1..]
      {
        OthersKept(s, i, OtherRow(rowId), (x: Row) => x.id);
        FilterDropsOne(s, i, OtherRow(rowId));
      }
    }
  }

  /** Deleting a row that was just added under a fresh id restores the cache. */
  lemma DeleteAddedRow(c: Cache, dayId: string, row: Row)
    requires dayId in c.rowsByDay
    requires forall x :: x in c.rowsByDay[dayId] ==> x.id != row.id
    ensures DeleteRow(AddRow(c, dayId, row), dayId, row.id) == c
  {
    var r := DeleteRow(AddRow(c, dayId, row), dayId, row.id);
    assert r.rowsByDay[dayId] == c.rowsByDay[dayId] by {
      FilterDropsAppended(c.rowsByDay[dayId], row, OtherRow(row.id));
    }
    assert r.rowsByDay == c.rowsByDay by {
      assert c.rowsByDay[dayId := c.rowsByDay[dayId]] == c.rowsByDay;
    }
  }

  /** `updateRowCells`: the rows with the id get the new cells; row count and other rows are unchanged. */
  function UpdateRowCells(c: Cache, dayId: string, rowId: string, cells: map<string, string>): (r: Cache)
    ensures |GetRows(r, dayId)| == |GetRows(c, dayId)|
    ensures forall i :: 0 <= i < |GetRows(c, dayId)| ==>
              GetRows(r, dayId)[i] ==
              (if GetRows(c, dayId)[i].id == rowId then GetRows(c, dayId)[i].(cells := cells) else GetRows(c, dayId)[i])
    ensures forall d :: d != dayId ==> GetRows(r, d) == GetRows(c, d)
    ensures r.weeks == c.weeks && r.daysByWeek == c.daysByWeek && r.columnsByDay == c.columnsByDay
    ensures r.expanded == c.expanded
  {
    var rows := GetRows(c, dayId);
    c.(rowsByDay := c.rowsByDay[dayId := seq(|rows|, i requires 0 <= i < |rows| =>
                                         if rows[i].id == rowId then rows[i].(cells := cells) else rows[i])])
  }

  /** Saving cells that name columns of their day keeps every cell pointing at an existing column. */
  lemma UpdateRowCellsKeepsCellsValid(c: Cache, dayId: string, rowId: string, cells: map<string, string>)
    requires CellsReferenceColumns(c)
    requires forall k :: k in cells ==> exists x :: x in GetColumns(c, dayId) && x.id == k
    ensures CellsReferenceColumns(UpdateRowCells(c, dayId, rowId, cells))
  {
    var r := UpdateRowCells(c, dayId, rowId, cells);
    forall d, i, k | d in r.rowsByDay && 0 <= i < |r.rowsByDay[d]| && k in r.rowsByDay[d][i].cells
      ensures exists x :: x in GetColumns(r, d) && x.id == k
    {
      assert GetRows(r, d) == r.rowsByDay[d];
      assert GetColumns(r, d) == GetColumns(c, d);
      if d == dayId {
        var before := GetRows(c, d)[i];
        if before.id != rowId {
          assert GetRows(r, d)[i] == before && d in c.rowsByDay;
          assert GetRows(c, d) == c.rowsByDay[d];
        }
      } else {
        assert GetRows(r, d) == GetRows(c, d) && d in c.rowsByDay;
      }
    }
  }

  /** Saving a row's own cells back changes nothing, once the day has a row list. */
  lemma UpdateRowCellsSame(c: Cache, dayId: string, i: nat)
    requires dayId in c.rowsByDay && i < |c.rowsByDay[dayId]|
    requires forall j :: 0 <= j < |c.rowsByDay[dayId]| && c.rowsByDay[dayId][j].id == c.rowsByDay[dayId][i].id ==> j == i
    ensures UpdateRowCells(c, dayId, c.rowsByDay[dayId][i].id, c.rowsByDay[dayId][i].cells) == c
  {
    var row := c.rowsByDay[dayId][i];
    var r := UpdateRowCells(c, dayId, row.id, row.cells);
    assert GetRows(r, dayId) == GetRows(c, dayId);
    assert r.rowsByDay == c.rowsByDay;
  }

  /** `reorderRows`, in the cache: the day's rows become the given list as it is. */
  function ReorderRows(c: Cache, dayId: string, reordered: seq<Row>): (r: Cache)
    ensures GetRows(r, dayId) == reordered
    ensures forall d :: d != dayId ==> GetRows(r, d) == GetRows(c, d)
    ensures r.weeks == c.weeks && r.daysByWeek == c.daysByWeek && r.columnsByDay == c.columnsByDay
    ensures r.expanded == c.expanded
  {
    c.(rowsByDay := c.rowsByDay[dayId := reordered])
  }

  // ---------------------------------------------------------------------------
  // Expanded days

  /** `toggleDay`: flips whether one day is expanded. */
  function ToggleDay(c: Cache, dayId: string): (r: Cache)
    ensures dayId in r.expanded <==> dayId !in c.expanded
    ensures forall d :: d != dayId ==> (d in r.expanded <==> d in c.expanded)
    ensures r.weeks == c.weeks && r.daysByWeek == c.daysByWeek
    ensures r.columnsByDay == c.columnsByDay && r.rowsByDay == c.rowsByDay
  {
    c.(expanded := if dayId in c.expanded then c.expanded - {dayId} else c.expanded + {dayId})
  }

  lemma ToggleDayTwice(c: Cache, dayId: string)
    ensures ToggleDay(ToggleDay(c, dayId), dayId) == c
  {
    var r := ToggleDay(ToggleDay(c, dayId), dayId);
    assert r.expanded == c.expanded;
  }
}

=== FILE: block_detail.dfy ===
/**
 * The block page's week tabs (components/block-detail.tsx): which week is selected as
 * weeks are loaded, created, deleted and duplicated. The empty string means no selection.
 */
module BlockDetail {
  import opened Wrappers
  import opened Domain
  import BlockCache

  /** Auto-selection on render: once loaded, with weeks and nothing selected, the first week. */
  function AutoSelect(loading: bool, weeks: seq<Week>, selected: string): (r: string)
    ensures !loading && |weeks| > 0 && selected == "" ==> r == weeks[0].id
    ensures loading || |weeks| == 0 || selected != "" ==> r == selected
  {
    if !loading && |weeks| > 0 && selected == "" then weeks[0].id else selected
  }

  /**
   * The render-time selection settles after one step: applying it to its own result changes
   * nothing, and it never invents a week: a result that is not the old selection is a listed week.
   */
  lemma AutoSelectSettles(loading: bool, weeks: seq<Week>, selected: string)
    ensures var r := AutoSelect(loading, weeks, selected);
            AutoSelect(loading, weeks, r) == r &&
            (r != selected ==> exists w :: w in weeks && w.id == r)
  {
    var r := AutoSelect(loading, weeks, selected);
    if r != selected {
      assert weeks[0] in weeks;
    }
  }

  /** The week `handleCreateWeek` asks for: this block, numbered after the weeks shown. */
  function NewWeekRequest(block: Block, weeks: seq<Week>): (r: BlockCache.WeekRequest)
    ensures r.blockId == block.id && r.weekNumber == |weeks| + 1
  {
    BlockCache.WeekRequest(block.id, |weeks| + 1)
  }

  /** Creating and duplicating number the new week alike: one past the cached weeks. */
  lemma CreateAndDuplicateNumberAlike(c: BlockCache.Cache, block: Block, source: Week)
    requires source.blockId == block.id
    ensures NewWeekRequest(block, c.weeks) == BlockCache.DuplicateWeekRequest(c, source)
  {
  }

  /** After creating or duplicating: the new week is selected when there is one. */
  function SelectCreated(selected: string, created: Option<Week>): (r: string)
    ensures created.Some? ==> r == created.value.id
    ensures created.None? ==> r == selected
  {
    match created
    case Some(w) => w.id
    case None => selected
  }

  /** `findIndex`: the first position with the id, or -1. */
  function WeekIndex(weeks: seq<Week>, id: string): (r: int)
    ensures -1 <= r < |weeks|
    ensures r == -1 <==> forall w :: w in weeks ==> w.id != id
    ensures r >= 0 ==> weeks[r].id == id && forall j :: 0 <= j < r ==> weeks[j].id != id
  {
    if |weeks| == 0 then -1
    else if weeks[0].id == id then 0
    else
      var k := WeekIndex(weeks[1..], id);
      assert forall w :: w in weeks <==> w == weeks[0] || w in weeks[1..];
      if k == -1 then -1 else k + 1
  }

  /**
   * The tab chosen after the selected week is deleted: in the list without it,
   * `filtered[Math.min(idx, filtered.length - 1)]`, or none when that position is empty.
   */
  function NextSelection(weeks: seq<Week>, deletedId: string): (r: string)
    ensures r != "" ==> exists w :: w in weeks && w.id == r && w.id != deletedId
    ensures WeekIndex(weeks, deletedId) >= 0 && (exists w :: w in weeks && w.id != deletedId) ==>
              exists w :: w in weeks && w.id != deletedId && w.id == r
    ensures WeekIndex(weeks, deletedId) == -1 ==> r == ""
  {
    var idx := WeekIndex(weeks, deletedId);
    var filtered := BlockCache.Filter(weeks, BlockCache.OtherWeek(deletedId));
    var k := if idx < |filtered| - 1 then idx else |filtered| - 1;
    if 0 <= k < |filtered| then
      assert filtered[k] in filtered;
      filtered[k].id
    else
      ""
  }

  /** With week ids distinct, the week after the deleted one is chosen, or the one before when it was last. */
  lemma NextSelectionNeighbour(weeks: seq<Week>, i: nat)
    requires i < |weeks| && |weeks| > 1
    requires forall j, k :: 0 <= j < k < |weeks| ==> weeks[j].id != weeks[k].id
    ensures NextSelection(weeks, weeks[i].id) == (if i + 1 < |weeks| then weeks[i + 1].id else weeks[i - 1].id)
  {
    var id := weeks[i].id;
    var keep := BlockCache.OtherWeek(id);
    assert forall j :: 0 <= j < |weeks| && j != i ==> keep(weeks[j]);
    BlockCache.FilterDropsOne(weeks, i, keep);
    var f := weeks[..i] + weeks[i + 1..];
    assert WeekIndex(weeks, id) == i;
    NextSelectionFrom(weeks, id, i, f);
    PickNeighbour(weeks, i, f);
  }

  /** `NextSelection` reads the filtered list at the deleted week's position, or its last entry. */
  lemma NextSelectionFrom(weeks: seq<Week>, deletedId: string, idx: int, f: seq<Week>)
    requires WeekIndex(weeks, deletedId) == idx && BlockCache.Filter(weeks, BlockCache.OtherWeek(deletedId)) == f
    ensures var k := if idx < |f| - 1 then idx else |f| - 1;
            NextSelection(weeks, deletedId) == if 0 <= k < |f| then f[k].id else ""
  {
  }

  /** Where the pick lands once the deleted week is cut out of the list. */
  lemma PickNeighbour(weeks: seq<Week>, i: nat, f: seq<Week>)
    requires i < |weeks| && |weeks| > 1 && f == weeks[..i] + weeks[i + 1..]
    ensures var k := if i < |f| - 1 then i else |f| - 1;
            0 <= k < |f| && f[k].id == (if i + 1 < |weeks| then weeks[i + 1].id else weeks[i - 1].id)
  {
    if i + 1 < |weeks| {
      assert f[i] == weeks[i + 1];
    } else {
      assert f[i - 1] == weeks[i - 1];
    }
  }

  /** The delete-week dialog. */
  datatype DeleteDialog = DeleteDialog(open: bool, target: Option<Week>, isDeleting: bool, error: Option<string>)

  datatype Tabs = Tabs(selected: string, dialog: DeleteDialog)

  /**
   * `handleDeleteWeek`, given whether `deleteWeek` succeeded and the weeks shown when it
   * was called: with no target nothing happens; on failure the dialog stays open with
   * "Failed to delete week"; on success it closes, and if the deleted week was selected
   * the selection moves to a remaining week, never to the deleted one.
   */
  function AfterDeleteWeek(t: Tabs, weeks: seq<Week>, success: bool): (r: Tabs)
    ensures t.dialog.target.None? ==> r == t
    ensures t.dialog.target.Some? && !success ==>
              r.selected == t.selected && r.dialog.open == t.dialog.open &&
              !r.dialog.isDeleting && r.dialog.error == Some("Failed to delete week")
    ensures t.dialog.target.Some? && success ==> !r.dialog.open && !r.dialog.isDeleting && r.dialog.error.None?
    ensures t.dialog.target.Some? && success && t.selected != t.dialog.target.value.id ==> r.selected == t.selected
    ensures t.dialog.target.Some? && success && t.selected == t.dialog.target.value.id ==>
              r.selected == NextSelection(weeks, t.selected) &&
              (r.selected == "" || r.selected != t.dialog.target.value.id)
  {
    match t.dialog.target
    case None => t
    case Some(target) =>
      if !success then
        t.(dialog := t.dialog.(isDeleting := false, error := Some("Failed to delete week")))
      else
        var selected := if t.selected == target.id then NextSelection(weeks, target.id) else t.selected;
        Tabs(selected, t.dialog.(open := false, isDeleting := false, error := None))
  }

  /**
   * The selection after a deletion names a week that is still cached: whatever
   * `AfterDeleteWeek` picks from the weeks shown is in the week list `deleteWeek` leaves.
   */
  lemma SelectionSurvivesDelete(c: BlockCache.Cache, t: Tabs)
    requires t.dialog.target.Some? && t.selected == t.dialog.target.value.id
    ensures var r := AfterDeleteWeek(t, c.weeks, true);
            r.selected != "" ==>
              exists w :: w in BlockCache.DeleteWeek(c, t.selected).weeks && w.id == r.selected
  {
    var r := AfterDeleteWeek(t, c.weeks, true);
    if r.selected != "" {
      var w :| w in c.weeks && w.id == r.selected && w.id != t.selected;
      assert w in BlockCache.DeleteWeek(c, t.selected).weeks;
    }
  }
}

=== FILE: competition.dfy ===
/**
 * Competitions: the three attempts at squat, bench and deadlift with their good/no-lift
 * verdicts, the meet total, the edit form (components/competition-detail.tsx and
 * components/attempts-table.tsx) and the progress chart's series
 * (components/competition-stats.tsx).
 */
module Competition {
  import opened Wrappers
  import opened Text
  import opened NumberParse
  import opened Domain
  import Json

  datatype Lift = Squat | Bench | Deadlift

  /** The lifts in the order the screens walk them. */
  const Lifts: seq<Lift> := [Squat, Bench, Deadlift]

  function LiftKey(l: Lift): string {
    match l
    case Squat => "squat"
    case Bench => "bench"
    case Deadlift => "deadlift"
  }

  /** First, second and third attempt. */
  datatype Triple<T> = Triple(first: T, second: T, third: T) {
    function Items(): seq<T> {
      [first, second, third]
    }
    function Map<U>(f: T -> U): Triple<U> {
      Triple(f(first), f(second), f(third))
    }
  }

  datatype PerLift<T> = PerLift(squat: T, bench: T, deadlift: T) {
    function Of(l: Lift): T {
      match l
      case Squat => squat
      case Bench => bench
      case Deadlift => deadlift
    }
    function Map<U>(f: T -> U): PerLift<U> {
      PerLift(f(squat), f(bench), f(deadlift))
    }
  }

  /** One stored attempt: the weight (null when not entered) and the verdict (null when not judged). */
  datatype Attempt = Attempt(kg: Option<Number>, good: Option<bool>)

  /** A stored competition; owner and timestamps are left out. */
  datatype Competition = Competition(
    id: string, meetName: string, meetDate: string, weightClass: Option<string>,
    bodyweightKg: Option<Number>, attempts: PerLift<Triple<Attempt>>,
    placingRank: Option<Number>, notes: Option<string>)

  // ---------------------------------------------------------------------------
  // The total

  /** An attempt as the total reads it: a weight, when there is one, and the verdict. */
  datatype Scored = Scored(kg: Option<real>, good: Option<bool>)

  /** Only attempts with a weight and a good verdict count. */
  predicate Counts(a: Scored) {
    a.kg.Some? && a.good == Some(true)
  }

  /** The heaviest counting attempt, scanning the attempts in order. */
  function BestOf(attempts: seq<Scored>): (r: Option<real>)
    ensures r.None? <==> forall i :: 0 <= i < |attempts| ==> !Counts(attempts[i])
    ensures r.Some? ==> exists i :: 0 <= i < |attempts| && Counts(attempts[i]) && attempts[i].kg.value == r.value
    ensures r.Some? ==> forall i :: 0 <= i < |attempts| && Counts(attempts[i]) ==> attempts[i].kg.value <= r.value
    decreases |attempts|
  {
    if |attempts| == 0 then None
    else
      var prefix := attempts[..|attempts| - 1];
      var a := attempts[|attempts| - 1];
      var best := BestOf(prefix);
      assert forall i :: 0 <= i < |prefix| ==> prefix[i] == attempts[i];
      if Counts(a) && (best.None? || a.kg.value > best.value) then a.kg
      else best
  }

  /** Reference sum of the lifts that have a best attempt. */
  function SumPresent(bests: seq<Option<real>>): real {
    if |bests| == 0 then 0.0 else bests[0].GetOr(0.0) + SumPresent(bests[1..])
  }

  lemma {:induction false} SumPresentLast(bests: seq<Option<real>>)
    requires |bests| > 0
    ensures SumPresent(bests) == SumPresent(bests[..|bests| - 1]) + bests[|bests| - 1].GetOr(0.0)
  {
    if |bests| > 1 {
      assert bests[1..][..|bests[1..]| - 1] == bests[..|bests| - 1][1..];
      SumPresentLast(bests[1..]);
    }
  }

  /** The loop of `computeTotal` over the lifts: the running total, or null when no lift had a best. */
  function TotalOf(bests: seq<Option<real>>): (r: Option<real>)
    ensures r.None? <==> forall i :: 0 <= i < |bests| ==> bests[i].None?
    ensures r.Some? ==> r.value == SumPresent(bests)
    decreases |bests|
  {
    if |bests| == 0 then None
    else
      var prefix := bests[..|bests| - 1];
      var b := bests[|bests| - 1];
      var t := TotalOf(prefix);
      SumPresentLast(bests);
      assert forall i :: 0 <= i < |prefix| ==> prefix[i] == bests[i];
      assert t.None? ==> SumPresent(prefix) == 0.0 by {
        if t.None? { SumPresentNone(prefix); }
      }
      if b.None? then t
      else Some(t.GetOr(0.0) + b.value)
  }

  lemma {:induction false} SumPresentNone(bests: seq<Option<real>>)
    requires forall i :: 0 <= i < |bests| ==> bests[i].None?
    ensures SumPresent(bests) == 0.0
  {
    if |bests| > 0 {
      SumPresentNone(bests[1..]);
    }
  }

  /** No attempt of any lift is both weighed and judged good. */
  predicate NothingCounts(lifts: seq<seq<Scored>>) {
    forall k, n :: 0 <= k < |lifts| && 0 <= n < |lifts[k]| ==> !Counts(lifts[k][n])
  }

  /** Each lift's best counting weight. */
  function Bests(lifts: seq<seq<Scored>>): (r: seq<Option<real>>)
    ensures |r| == |lifts| && forall k :: 0 <= k < |lifts| ==> r[k] == BestOf(lifts[k])
  {
    seq(|lifts|, k requires 0 <= k < |lifts| => BestOf(lifts[k]))
  }

  /**
   * The lift loop of `computeTotal`, given each lift's attempts: the sum of every lift's
   * best counting attempt, or null when no attempt of any lift counts.
   */
  function TotalOfLifts(lifts: seq<seq<Scored>>): (r: Option<real>)
    ensures r.None? <==> NothingCounts(lifts)
    ensures r.Some? ==> r.value == SumPresent(Bests(lifts))
  {
    var bests := Bests(lifts);
    assert forall k :: 0 <= k < |lifts| ==>
      (bests[k].None? <==> forall n :: 0 <= n < |lifts[k]| ==> !Counts(lifts[k][n]));
    TotalOf(bests)
  }

  function StoredScore(a: Attempt): Scored {
    Scored(if a.kg.Some? then Some(Value(a.kg.value)) else None, a.good)
  }

  /** Each lift's attempts, squat, bench, deadlift, as the total reads them. */
  function StoredScores(c: Competition): (r: seq<seq<Scored>>)
    ensures |r| == 3 && forall k :: 0 <= k < 3 ==> |r[k]| == 3
  {
    seq(3, k requires 0 <= k < 3 => c.attempts.Of(Lifts[k]).Map(StoredScore).Items())
  }

  /**
   * `computeTotal`: the sum over the lifts of each lift's best good attempt, or null when
   * no attempt of any lift is both weighed and good.
   */
  function ComputeTotal(c: Competition): (r: Option<real>)
    ensures r.None? <==> NothingCounts(StoredScores(c))
    ensures r.Some? ==> r.value == SumPresent(Bests(StoredScores(c)))
  {
    TotalOfLifts(StoredScores(c))
  }

  // ---------------------------------------------------------------------------
  // The good / no-lift / unjudged toggle

  /** The verdict button: unjudged, then good, then no lift, then unjudged again. */
  function Cycle(v: Option<bool>): (r: Option<bool>)
    ensures r != v
    ensures v.None? <==> r == Some(true)
  {
    match v
    case None => Some(true)
    case Some(true) => Some(false)
    case Some(false) => None
  }

  /** Three presses bring every verdict back, passing through the two others. */
  lemma CycleThrice(v: Option<bool>)
    ensures Cycle(Cycle(Cycle(v))) == v
    ensures Cycle(Cycle(v)) != v && Cycle(Cycle(v)) != Cycle(v)
  {
  }

  // ---------------------------------------------------------------------------
  // The edit form

  datatype AttemptDraft = AttemptDraft(kg: string, good: Option<bool>)

  /** The form's text fields, and the attempts as the attempts table edits them. */
  datatype Draft = Draft(
    meetName: string, meetDate: string, weightClass: string, bodyweightKg: string,
    placingRank: string, notes: string, attempts: PerLift<Triple<AttemptDraft>>)

  function AttemptToDraft(a: Attempt): AttemptDraft {
    AttemptDraft(NumToStr(a.kg), a.good)
  }

  function TripleToDraft(t: Triple<Attempt>): Triple<AttemptDraft> {
    t.Map(AttemptToDraft)
  }

  /** `buildDraft`: absent texts become "", numbers are written with `String`. */
  function BuildDraft(c: Competition): (d: Draft)
    ensures d.meetName == c.meetName && d.meetDate == c.meetDate
    ensures d.weightClass == c.weightClass.GetOr("") && d.notes == c.notes.GetOr("")
    ensures d.weightClass == "" <==> c.weightClass.None? || c.weightClass == Some("")
    ensures d.bodyweightKg == "" <==> c.bodyweightKg.None?
    ensures d.placingRank == "" <==> c.placingRank.None?
    ensures c.bodyweightKg.Some? ==> d.bodyweightKg == Render(c.bodyweightKg.value)
    ensures c.placingRank.Some? ==> d.placingRank == Render(c.placingRank.value)
    ensures forall l: Lift, i :: 0 <= i < 3 ==> d.attempts.Of(l).Items()[i] == AttemptToDraft(c.attempts.Of(l).Items()[i])
  {
    AttemptsToDraft(c.attempts);
    EmptyOrAbsent(c.weightClass);
    Draft(c.meetName, c.meetDate, c.weightClass.GetOr(""), NumToStr(c.bodyweightKg),
          NumToStr(c.placingRank), c.notes.GetOr(""),
          c.attempts.Map(TripleToDraft))
  }

  lemma EmptyOrAbsent(o: Option<string>)
    ensures o.GetOr("") == "" <==> o.None? || o == Some("")
  {
    if o.Some? {
      assert o.GetOr("") == o.value;
    }
  }

  /** Each attempt of each lift is written into the form at its own place. */
  lemma AttemptsToDraft(p: PerLift<Triple<Attempt>>)
    ensures forall l: Lift, i :: 0 <= i < 3 ==> p.Map(TripleToDraft).Of(l).Items()[i] == AttemptToDraft(p.Of(l).Items()[i])
  {
    forall l: Lift, i | 0 <= i < 3
      ensures p.Map(TripleToDraft).Of(l).Items()[i] == AttemptToDraft(p.Of(l).Items()[i])
    {
      assert p.Map(TripleToDraft).Of(l) == TripleToDraft(p.Of(l));
    }
  }

  function DraftScore(a: AttemptDraft): Scored {
    Scored(ParseFloatOrNull(a.kg), a.good)
  }

  function DraftScores(d: Draft): (r: seq<seq<Scored>>)
    ensures |r| == 3 && forall k :: 0 <= k < 3 ==> |r[k]| == 3
  {
    seq(3, k requires 0 <= k < 3 => d.attempts.Of(Lifts[k]).Map(DraftScore).Items())
  }

  /** `computedTotal`: the live total of the form, reading each weight with `parseFloatOrNull`. */
  function ComputedTotal(d: Draft): (r: Option<real>)
    ensures r.None? <==> NothingCounts(DraftScores(d))
    ensures r.Some? ==> r.value == SumPresent(Bests(DraftScores(d)))
  {
    TotalOfLifts(DraftScores(d))
  }

  lemma DraftScoreOfStored(a: Attempt)
    ensures DraftScore(AttemptToDraft(a)) == StoredScore(a)
  {
    NumToStrRoundTrip(a.kg);
  }

  lemma TripleRoundTrip(t: Triple<Attempt>)
    ensures t.Map(AttemptToDraft).Map(DraftScore) == t.Map(StoredScore)
  {
    DraftScoreOfStored(t.first);
    DraftScoreOfStored(t.second);
    DraftScoreOfStored(t.third);
  }

  /** The form's live total of an unedited competition is the chart's total of it. */
  lemma ComputedTotalOfBuildDraft(c: Competition)
    ensures ComputedTotal(BuildDraft(c)) == ComputeTotal(c)
  {
    var d := BuildDraft(c);
    forall k | 0 <= k < 3 ensures DraftScores(d)[k] == StoredScores(c)[k] {
      var l := Lifts[k];
      assert d.attempts.Of(l) == c.attempts.Of(l).Map(AttemptToDraft);
      TripleRoundTrip(c.attempts.Of(l));
    }
    assert DraftScores(d) == StoredScores(c);
  }

  // ---------------------------------------------------------------------------
  // Dirty tracking through JSON text

  function TextValue(s: string): Json.Value {
    Json.Str(s)
  }

  function VerdictValue(v: Option<bool>): Json.Value {
    match v
    case None => Json.Null
    case Some(b) => Json.Bool(b)
  }

  function AttemptKey(l: Lift, n: string, field: string): string {
    LiftKey(l) + "_" + n + "_" + field
  }

  /** Attempt numbers and per-attempt fields, as the key template spells them. */
  const AttemptNumbers: seq<string> := ["1", "2", "3"]
  const AttemptFields: seq<string> := ["kg", "good"]

  /** Different lift, attempt or field always gives a different key. */
  lemma AttemptKeyInjective(l1: Lift, n1: nat, f1: nat, l2: Lift, n2: nat, f2: nat)
    requires n1 < 3 && n2 < 3 && f1 < 2 && f2 < 2
    requires AttemptKey(l1, AttemptNumbers[n1], AttemptFields[f1]) == AttemptKey(l2, AttemptNumbers[n2], AttemptFields[f2])
    ensures l1 == l2 && n1 == n2 && f1 == f2
  {
    var k1 := AttemptKey(l1, AttemptNumbers[n1], AttemptFields[f1]);
    var k2 := AttemptKey(l2, AttemptNumbers[n2], AttemptFields[f2]);
    assert k1[0] == LiftKey(l1)[0] && k2[0] == LiftKey(l2)[0];
    assert l1 == l2;
    var p := |LiftKey(l1)|;
    assert k1[p + 1] == AttemptNumbers[n1][0] && k2[p + 1] == AttemptNumbers[n2][0];
    assert k1[p + 3] == AttemptFields[f1][0] && k2[p + 3] == AttemptFields[f2][0];
  }

  /** The key space of `AttemptDraft`: a kg and a good key for each lift and attempt. */
  function AttemptDraftKeys(): (r: seq<string>)
    ensures |r| == 18
    ensures forall i :: 0 <= i < 18 ==> r[i] == AttemptKey(Lifts[i / 6], AttemptNumbers[i / 2 % 3], AttemptFields[i % 2])
  {
    seq(18, i requires 0 <= i < 18 => AttemptKey(Lifts[i / 6], AttemptNumbers[i / 2 % 3], AttemptFields[i % 2]))
  }

  /** The 18 keys are pairwise different. */
  lemma AttemptDraftKeysDistinct()
    ensures Distinct(AttemptDraftKeys())
  {
    var ks := AttemptDraftKeys();
    forall i, j | 0 <= i < j < 18 ensures ks[i] != ks[j] {
      KeyPositionsDiffer(i, j);
    }
  }

  lemma KeyPositionsDiffer(i: nat, j: nat)
    requires i < j < 18
    ensures AttemptDraftKeys()[i] != AttemptDraftKeys()[j]
  {
    var ks := AttemptDraftKeys();
    PositionParts(i);
    PositionParts(j);
    if ks[i] == ks[j] {
      AttemptKeyInjective(Lifts[i / 6], i / 2 % 3, i % 2, Lifts[j / 6], j / 2 % 3, j % 2);
      assert false;
    }
  }

  /** A position among the 18 keys is its lift, attempt and field index. */
  lemma PositionParts(i: nat)
    requires i < 18
    ensures i / 6 < 3 && i / 2 % 3 < 3 && i % 2 < 2
    ensures i == 6 * (i / 6) + 2 * (i / 2 % 3) + i % 2
  {
  }

  /** Every lift, attempt number and field has its key among the 18. */
  lemma AttemptDraftKeysCover(l: Lift, ni: nat, fi: nat)
    requires ni < 3 && fi < 2
    ensures AttemptKey(l, AttemptNumbers[ni], AttemptFields[fi]) in AttemptDraftKeys()
  {
    var li := match l case Squat => 0 case Bench => 1 case Deadlift => 2;
    var i := 6 * li + 2 * ni + fi;
    assert i / 6 == li && i / 2 % 3 == ni && i % 2 == fi;
    assert AttemptDraftKeys()[i] == AttemptKey(l, AttemptNumbers[ni], AttemptFields[fi]);
  }

  /** The six properties of one lift's attempts, in declaration order. */
  function AttemptMembers(l: Lift, t: Triple<AttemptDraft>): (ms: seq<Json.Member>)
    ensures |ms| == 6
  {
    [Json.Member(AttemptKey(l, "1", "kg"), TextValue(t.first.kg)),
     Json.Member(AttemptKey(l, "1", "good"), VerdictValue(t.first.good)),
     Json.Member(AttemptKey(l, "2", "kg"), TextValue(t.second.kg)),
     Json.Member(AttemptKey(l, "2", "good"), VerdictValue(t.second.good)),
     Json.Member(AttemptKey(l, "3", "kg"), TextValue(t.third.kg)),
     Json.Member(AttemptKey(l, "3", "good"), VerdictValue(t.third.good))]
  }

  /** The draft object as `JSON.stringify` walks it: the text fields, then the attempts. */
  function DraftMembers(d: Draft): (ms: seq<Json.Member>)
    ensures |ms| == 24
  {
    [Json.Member("meet_name", TextValue(d.meetName)),
     Json.Member("meet_date", TextValue(d.meetDate)),
     Json.Member("weight_class", TextValue(d.weightClass)),
     Json.Member("bodyweight_kg", TextValue(d.bodyweightKg)),
     Json.Member("placing_rank", TextValue(d.placingRank)),
     Json.Member("notes", TextValue(d.notes))]
    + AttemptMembers(Squat, d.attempts.squat)
    + AttemptMembers(Bench, d.attempts.bench)
    + AttemptMembers(Deadlift, d.attempts.deadlift)
  }

  /** `draftsEqual`: the two drafts serialise to the same JSON text. */
  function DraftsEqual(a: Draft, b: Draft): bool {
    Json.Stringify(DraftMembers(a)) == Json.Stringify(DraftMembers(b))
  }

  lemma AttemptMembersInjective(l: Lift, a: Triple<AttemptDraft>, b: Triple<AttemptDraft>)
    requires AttemptMembers(l, a) == AttemptMembers(l, b)
    ensures a == b
  {
    var x, y := AttemptMembers(l, a), AttemptMembers(l, b);
    assert x[0] == y[0] && x[1] == y[1] && x[2] == y[2];
    assert x[3] == y[3] && x[4] == y[4] && x[5] == y[5];
    assert a.first.good == b.first.good by {
      assert VerdictValue(a.first.good) == VerdictValue(b.first.good);
    }
    assert a.second.good == b.second.good by {
      assert VerdictValue(a.second.good) == VerdictValue(b.second.good);
    }
    assert a.third.good == b.third.good by {
      assert VerdictValue(a.third.good) == VerdictValue(b.third.good);
    }
  }

  lemma DraftMembersInjective(a: Draft, b: Draft)
    requires DraftMembers(a) == DraftMembers(b)
    ensures a == b
  {
    var x, y := DraftMembers(a), DraftMembers(b);
    assert x[0] == y[0] && x[1] == y[1] && x[2] == y[2];
    assert x[3] == y[3] && x[4] == y[4] && x[5] == y[5];
    assert x[6..12] == AttemptMembers(Squat, a.attempts.squat);
    assert y[6..12] == AttemptMembers(Squat, b.attempts.squat);
    assert x[12..18] == AttemptMembers(Bench, a.attempts.bench);
    assert y[12..18] == AttemptMembers(Bench, b.attempts.bench);
    assert x[18..24] == AttemptMembers(Deadlift, a.attempts.deadlift);
    assert y[18..24] == AttemptMembers(Deadlift, b.attempts.deadlift);
    AttemptMembersInjective(Squat, a.attempts.squat, b.attempts.squat);
    AttemptMembersInjective(Bench, a.attempts.bench, b.attempts.bench);
    AttemptMembersInjective(Deadlift, a.attempts.deadlift, b.attempts.deadlift);
  }

  /** Comparing the JSON texts is exactly comparing the drafts field by field. */
  lemma DraftsEqualIff(a: Draft, b: Draft)
    ensures DraftsEqual(a, b) <==> a == b
  {
    Json.StringifyInjective(DraftMembers(a), DraftMembers(b));
    if DraftsEqual(a, b) {
      DraftMembersInjective(a, b);
    }
  }

  // ---------------------------------------------------------------------------
  // Saving

  /** `s.trim() || null`. */
  function NonBlank(s: string): (r: Option<string>)
    ensures r.None? <==> AllSpace(s)
    ensures r.Some? ==> r.value == Trim(s) && r.value != ""
  {
    var t := Trim(s);
    if t == "" then None else Some(t)
  }

  /** The update sent on save: one field per column, attempts read with `parseFloatOrNull`. */
  datatype Update = Update(
    meetName: string, meetDate: string, weightClass: Option<string>, bodyweightKg: Option<real>,
    placingRank: Option<int>, notes: Option<string>, attempts: PerLift<Triple<Scored>>)

  function UpdateOf(d: Draft): Update {
    Update(Trim(d.meetName), d.meetDate, NonBlank(d.weightClass), ParseFloatOrNull(d.bodyweightKg),
           ParseIntOrNull(d.placingRank), NonBlank(d.notes),
           d.attempts.Map((t: Triple<AttemptDraft>) => t.Map(DraftScore)))
  }

  function Lower(x: Option<Number>): Option<real> {
    if x.Some? then Some(Value(x.value)) else None
  }

  /**
   * Saving an unedited form writes back what was loaded: the same numbers and verdicts,
   * the rank cut to an integer, and the texts trimmed (blank texts as null).
   */
  lemma UpdateOfBuildDraft(c: Competition)
    ensures var u := UpdateOf(BuildDraft(c));
            u.meetName == Trim(c.meetName) && u.meetDate == c.meetDate &&
            u.weightClass == NonBlank(c.weightClass.GetOr("")) &&
            u.bodyweightKg == Lower(c.bodyweightKg) &&
            u.placingRank == (if c.placingRank.Some? then Some(Truncate(c.placingRank.value)) else None) &&
            u.notes == NonBlank(c.notes.GetOr("")) &&
            u.attempts == c.attempts.Map((t: Triple<Attempt>) => t.Map(StoredScore))
  {
    NumToStrRoundTrip(c.bodyweightKg);
    NumToStrIntRoundTrip(c.placingRank);
    var d := BuildDraft(c);
    TripleRoundTrip(c.attempts.squat);
    TripleRoundTrip(c.attempts.bench);
    TripleRoundTrip(c.attempts.deadlift);
  }

  /** `isDirty`. */
  predicate IsDirty(draft: Draft, original: Draft) {
    !DraftsEqual(draft, original)
  }

  /** Save is offered when not saving, something changed, and the meet has a name and a date. */
  predicate SaveEnabled(isSaving: bool, draft: Draft, original: Draft) {
    !(isSaving || !IsDirty(draft, original) || Trim(draft.meetName) == "" || draft.meetDate == "")
  }

  lemma SaveEnabledIff(isSaving: bool, draft: Draft, original: Draft)
    ensures SaveEnabled(isSaving, draft, original) <==>
            !isSaving && draft != original && !AllSpace(draft.meetName) && draft.meetDate != ""
  {
    DraftsEqualIff(draft, original);
  }

  datatype Message = Success(text: string) | Failure(text: string)

  datatype Form = Form(draft: Draft, original: Draft, isSaving: bool, message: Option<Message>)

  /** Opening a competition: the form starts clean and idle. */
  function Load(c: Competition): (f: Form)
    ensures !IsDirty(f.draft, f.original) && !f.isSaving && f.message.None?
    ensures f.draft == BuildDraft(c)
  {
    DraftsEqualIff(BuildDraft(c), BuildDraft(c));
    Form(BuildDraft(c), BuildDraft(c), false, None)
  }

  /**
   * Switching the open form to another competition: the draft and the original are rebuilt
   * from it and the message cleared, while a save in flight stays in flight.
   */
  function Switch(f: Form, c: Competition): (g: Form)
    ensures !IsDirty(g.draft, g.original) && g.message.None?
    ensures g.draft == BuildDraft(c)
    ensures g.isSaving == f.isSaving
  {
    DraftsEqualIff(BuildDraft(c), BuildDraft(c));
    f.(draft := BuildDraft(c), original := BuildDraft(c), message := None)
  }

  /** Switching an idle form gives the form a fresh load gives. */
  lemma SwitchIdleIsLoad(f: Form, c: Competition)
    requires !f.isSaving
    ensures Switch(f, c) == Load(c)
  {
  }

  /**
   * The end of `handleSave`. A failure keeps both drafts and reports the error text (or
   * "Failed to save"); a success takes the stored row as the new original.
   */
  function AfterSave(f: Form, r: DbResult<Competition>): (g: Form)
    ensures !g.isSaving && g.draft == f.draft
    ensures g.message.Some? && (g.message.value.Failure? <==> Failed(r))
    ensures g.message.value.Failure? ==>
              g.original == f.original && g.message.value.text == (if r.error.Some? then r.error.value else "Failed to save")
    ensures g.message.value.Success? ==>
              g.message.value.text == "Saved" &&
              (IsDirty(g.draft, g.original) <==> f.draft != BuildDraft(r.data.value))
  {
    if Failed(r) then
      Form(f.draft, f.original, false, Some(Failure(Reason(r, "Failed to save"))))
    else
      DraftsEqualIff(f.draft, BuildDraft(r.data.value));
      Form(f.draft, BuildDraft(r.data.value), false, Some(Success("Saved")))
  }

  // ---------------------------------------------------------------------------
  // The progress chart

  datatype Metric = Bodyweight | Lifted(lift: Lift, attempt: nat) | Total

  const AllMetrics: seq<Metric> := [
    Bodyweight,
    Lifted(Squat, 1), Lifted(Squat, 2), Lifted(Squat, 3),
    Lifted(Bench, 1), Lifted(Bench, 2), Lifted(Bench, 3),
    Lifted(Deadlift, 1), Lifted(Deadlift, 2), Lifted(Deadlift, 3),
    Total]

  /** The series shown before the user picks any. */
  const DefaultMetrics: seq<Metric> := [Total, Lifted(Squat, 3), Lifted(Bench, 3), Lifted(Deadlift, 3)]

  function MetricName(m: Metric): string {
    match m
    case Bodyweight => "Bodyweight"
    case Total => "Total"
    case Lifted(l, n) =>
      (match l case Squat => "Squat " case Bench => "Bench " case Deadlift => "Deadlift ")
      + (if n == 1 then "1" else if n == 2 then "2" else "3")
  }

  lemma MetricNameInjective(a: Metric, b: Metric)
    requires a in AllMetrics && b in AllMetrics && MetricName(a) == MetricName(b)
    ensures a == b
  {
    var s, t := MetricName(a), MetricName(b);
    assert |s| == |t| && s[0] == t[0] && s[|s| - 1] == t[|t| - 1];
  }

  /** The eleven series have eleven different names, and the defaults are among them. */
  lemma MetricNamesDistinct()
    ensures Distinct(AllMetrics)
    ensures forall i, j :: 0 <= i < j < |AllMetrics| ==> MetricName(AllMetrics[i]) != MetricName(AllMetrics[j])
    ensures forall m :: m in DefaultMetrics ==> m in AllMetrics
  {
    forall i, j | 0 <= i < j < |AllMetrics| ensures MetricName(AllMetrics[i]) != MetricName(AllMetrics[j]) {
      if MetricName(AllMetrics[i]) == MetricName(AllMetrics[j]) {
        MetricNameInjective(AllMetrics[i], AllMetrics[j]);
      }
    }
  }

  /** One competition on the chart: its date label and the value of each series that has one. */
  datatype ChartPoint = ChartPoint(dateLabel: string, values: map<Metric, real>)

  /** The stored number a series reads from a competition, when it is not null. */
  function MetricValue(c: Competition, m: Metric): Option<real> {
    match m
    case Bodyweight => Lower(c.bodyweightKg)
    case Total => ComputeTotal(c)
    case Lifted(l, n) => if 1 <= n <= 3 then Lower(c.attempts.Of(l).Items()[n - 1].kg) else None
  }

  /** The weight entered for attempt `n` of lift `l`. */
  function AttemptKg(c: Competition, l: Lift, n: nat): Option<Number>
    requires 1 <= n <= 3
  {
    c.attempts.Of(l).Items()[n - 1].kg
  }

  /** Every series with a value, and its value. */
  function SeriesValues(c: Competition): map<Metric, real> {
    map m | m in AllMetrics && MetricValue(c, m).Some? :: MetricValue(c, m).value
  }

  /**
   * The series a point carries: the body weight, each attempt's weight (good or not) and
   * the total, each exactly when it is not null and then with that number.
   */
  function PointValues(c: Competition): (r: map<Metric, real>)
    ensures forall m :: m in r ==> m in AllMetrics
    ensures Bodyweight in r <==> c.bodyweightKg.Some?
    ensures Bodyweight in r ==> r[Bodyweight] == Value(c.bodyweightKg.value)
    ensures forall l: Lift, n: nat :: 1 <= n <= 3 ==> (Lifted(l, n) in r <==> AttemptKg(c, l, n).Some?)
    ensures forall l: Lift, n: nat :: 1 <= n <= 3 && Lifted(l, n) in r ==>
              r[Lifted(l, n)] == Value(AttemptKg(c, l, n).value)
    ensures Total in r <==> ComputeTotal(c).Some?
    ensures Total in r ==> r[Total] == ComputeTotal(c).value
  {
    SeriesAttempts(c);
    SeriesFixed(c);
    SeriesValues(c)
  }

  /** The body weight and total series are present exactly when their values are. */
  lemma SeriesFixed(c: Competition)
    ensures forall m :: m in SeriesValues(c) ==> m in AllMetrics
    ensures Bodyweight in SeriesValues(c) <==> c.bodyweightKg.Some?
    ensures Bodyweight in SeriesValues(c) ==> SeriesValues(c)[Bodyweight] == Value(c.bodyweightKg.value)
    ensures Total in SeriesValues(c) <==> ComputeTotal(c).Some?
    ensures Total in SeriesValues(c) ==> SeriesValues(c)[Total] == ComputeTotal(c).value
  {
    assert AllMetrics[0] == Bodyweight && AllMetrics[10] == Total;
    assert MetricValue(c, Bodyweight) == Lower(c.bodyweightKg);
    assert MetricValue(c, Total) == ComputeTotal(c);
  }

  /** Each attempt series is present exactly when its weight is, with that weight. */
  lemma SeriesAttempts(c: Competition)
    ensures forall l: Lift, n: nat :: 1 <= n <= 3 ==> (Lifted(l, n) in SeriesValues(c) <==> AttemptKg(c, l, n).Some?)
    ensures forall l: Lift, n: nat :: 1 <= n <= 3 && Lifted(l, n) in SeriesValues(c) ==>
              SeriesValues(c)[Lifted(l, n)] == Value(AttemptKg(c, l, n).value)
  {
    forall l: Lift, n: nat | 1 <= n <= 3
      ensures Lifted(l, n) in SeriesValues(c) <==> AttemptKg(c, l, n).Some?
      ensures Lifted(l, n) in SeriesValues(c) ==> SeriesValues(c)[Lifted(l, n)] == Value(AttemptKg(c, l, n).value)
    {
      SeriesAttempt(c, l, n);
    }
  }

  lemma SeriesAttempt(c: Competition, l: Lift, n: nat)
    requires 1 <= n <= 3
    ensures Lifted(l, n) in SeriesValues(c) <==> AttemptKg(c, l, n).Some?
    ensures Lifted(l, n) in SeriesValues(c) ==> SeriesValues(c)[Lifted(l, n)] == Value(AttemptKg(c, l, n).value)
  {
    LiftedIn(l, n);
    assert MetricValue(c, Lifted(l, n)) == Lower(AttemptKg(c, l, n));
  }

  lemma LiftedIn(l: Lift, n: nat)
    requires 1 <= n <= 3
    ensures Lifted(l, n) in AllMetrics
  {
    match l
    case Squat => assert Lifted(l, n) == AllMetrics[n];
    case Bench => assert Lifted(l, n) == AllMetrics[3 + n];
    case Deadlift => assert Lifted(l, n) == AllMetrics[6 + n];
  }

  /** A competition's point on the chart; `formatDate` writes the label. */
  function CompetitionPoint(c: Competition, formatDate: string -> string): (p: ChartPoint)
    ensures p.dateLabel == formatDate(c.meetDate)
    ensures forall m :: m in p.values ==> m in AllMetrics
  {
    ChartPoint(formatDate(c.meetDate), PointValues(c))
  }

  /** Non-decreasing meet dates, `dateKey` standing for `new Date(meet_date).getTime()`. */
  predicate SortedByDate(cs: seq<Competition>, dateKey: string -> int) {
    forall i, j :: 0 <= i < j < |cs| ==> dateKey(cs[i].meetDate) <= dateKey(cs[j].meetDate)
  }

  predicate DatedBy(cs: seq<Competition>, dateKey: string -> int, bound: int) {
    forall i :: 0 <= i < |cs| ==> dateKey(cs[i].meetDate) <= bound
  }

  lemma DatedByPermutation(a: seq<Competition>, b: seq<Competition>, x: Competition, dateKey: string -> int, bound: int)
    requires multiset(a) == multiset(b) + multiset{x}
    requires DatedBy(b, dateKey, bound) && dateKey(x.meetDate) <= bound
    ensures DatedBy(a, dateKey, bound)
  {
    forall i | 0 <= i < |a| ensures dateKey(a[i].meetDate) <= bound {
      assert a[i] in multiset(a);
      if a[i] != x {
        assert a[i] in multiset(b);
        var k :| 0 <= k < |b| && b[k] == a[i];
      }
    }
  }

  lemma SortedSnoc(a: seq<Competition>, y: Competition, dateKey: string -> int)
    requires SortedByDate(a, dateKey) && DatedBy(a, dateKey, dateKey(y.meetDate))
    ensures SortedByDate(a + [y], dateKey)
  {
  }

  /** Places `x` after every competition dated no later than it. */
  function InsertByDate(x: Competition, cs: seq<Competition>, dateKey: string -> int): (r: seq<Competition>)
    requires SortedByDate(cs, dateKey)
    ensures SortedByDate(r, dateKey)
    ensures multiset(r) == multiset(cs) + multiset{x}
    ensures |cs| > 0 && dateKey(cs[|cs| - 1].meetDate) <= dateKey(x.meetDate) ==> r == cs + [x]
    decreases |cs|
  {
    if |cs| == 0 then [x]
    else
      var last := cs[|cs| - 1];
      var prefix := cs[..|cs| - 1];
      assert cs == prefix + [last];
      if dateKey(last.meetDate) <= dateKey(x.meetDate) then
        SortedSnoc(cs, x, dateKey);
        cs + [x]
      else
        var front := InsertByDate(x, prefix, dateKey);
        DatedByPermutation(front, prefix, x, dateKey, dateKey(last.meetDate));
        SortedSnoc(front, last, dateKey);
        front + [last]
  }

  /** The chart's order: by meet date, earliest first, equal dates kept in input order. */
  function SortByDate(cs: seq<Competition>, dateKey: string -> int): (r: seq<Competition>)
    ensures SortedByDate(r, dateKey)
    ensures multiset(r) == multiset(cs)
    decreases |cs|
  {
    if |cs| == 0 then []
    else
      assert cs == cs[..|cs| - 1] + [cs[|cs| - 1]];
      InsertByDate(cs[|cs| - 1], SortByDate(cs[..|cs| - 1], dateKey), dateKey)
  }

  /** Dropping the last competition keeps date order, and the last is dated no earlier than the rest. */
  lemma SortedInit(cs: seq<Competition>, dateKey: string -> int)
    requires |cs| > 0 && SortedByDate(cs, dateKey)
    ensures SortedByDate(cs[..|cs| - 1], dateKey)
    ensures |cs| > 1 ==> dateKey(cs[|cs| - 2].meetDate) <= dateKey(cs[|cs| - 1].meetDate)
  {
    var prefix := cs[..|cs| - 1];
    forall i, j | 0 <= i < j < |prefix| ensures dateKey(prefix[i].meetDate) <= dateKey(prefix[j].meetDate) {
      assert prefix[i] == cs[i] && prefix[j] == cs[j];
    }
  }

  /** Competitions already in date order keep their order: the sort is stable there and idempotent. */
  lemma {:induction false} SortByDateSorted(cs: seq<Competition>, dateKey: string -> int)
    requires SortedByDate(cs, dateKey)
    ensures SortByDate(cs, dateKey) == cs
    decreases |cs|
  {
    if |cs| > 0 {
      var prefix, last := cs[..|cs| - 1], cs[|cs| - 1];
      SortedInit(cs, dateKey);
      SortByDateSorted(prefix, dateKey);
      calc {
        SortByDate(cs, dateKey);
        InsertByDate(last, SortByDate(prefix, dateKey), dateKey);
        InsertByDate(last, prefix, dateKey);
        { InsertLatest(last, prefix, dateKey); }
        prefix + [last];
        { assert prefix + [last] == cs; }
        cs;
      }
    }
  }

  /** The competitions dated `k`, in their order in `cs`. */
  function WithDate(cs: seq<Competition>, dateKey: string -> int, k: int): seq<Competition>
    decreases |cs|
  {
    if |cs| == 0 then []
    else
      var last := cs[|cs| - 1];
      WithDate(cs[..|cs| - 1], dateKey, k) + (if dateKey(last.meetDate) == k then [last] else [])
  }

  /**
   * Inserting into a date-ordered list keeps the order among equal dates: the inserted
   * competition comes after every other one with its date.
   */
  lemma {:induction false} InsertByDateStable(x: Competition, cs: seq<Competition>, dateKey: string -> int, k: int)
    requires SortedByDate(cs, dateKey)
    ensures WithDate(InsertByDate(x, cs, dateKey), dateKey, k) ==
            WithDate(cs, dateKey, k) + (if dateKey(x.meetDate) == k then [x] else [])
    decreases |cs|
  {
    if |cs| > 0 {
      var last, prefix := cs[|cs| - 1], cs[..|cs| - 1];
      if dateKey(last.meetDate) <= dateKey(x.meetDate) {
        assert InsertByDate(x, cs, dateKey) == cs + [x];
        WithDateSnoc(cs, x, dateKey, k);
      } else {
        SortedInit(cs, dateKey);
        var front := InsertByDate(x, prefix, dateKey);
        var before := WithDate(prefix, dateKey, k);
        var xs := if dateKey(x.meetDate) == k then [x] else [];
        var ls := if dateKey(last.meetDate) == k then [last] else [];
        calc {
          WithDate(InsertByDate(x, cs, dateKey), dateKey, k);
          { InsertBeforeLast(x, cs, dateKey); }
          WithDate(front + [last], dateKey, k);
          { WithDateSnoc(front, last, dateKey, k); }
          WithDate(front, dateKey, k) + ls;
          { InsertByDateStable(x, prefix, dateKey, k); }
          (before + xs) + ls;
          { assert xs == [] || ls == []; }
          (before + ls) + xs;
          WithDate(cs, dateKey, k) + xs;
        }
      }
    }
  }

  /** A competition dated before the last one is inserted among the others, ahead of it. */
  lemma InsertBeforeLast(x: Competition, cs: seq<Competition>, dateKey: string -> int)
    requires SortedByDate(cs, dateKey)
    requires |cs| > 0 && dateKey(x.meetDate) < dateKey(cs[|cs| - 1].meetDate)
    ensures SortedByDate(cs[..|cs| - 1], dateKey)
    ensures InsertByDate(x, cs, dateKey) == InsertByDate(x, cs[..|cs| - 1], dateKey) + [cs[|cs| - 1]]
  {
    SortedInit(cs, dateKey);
  }

  lemma WithDateSnoc(cs: seq<Competition>, y: Competition, dateKey: string -> int, k: int)
    ensures WithDate(cs + [y], dateKey, k) == WithDate(cs, dateKey, k) + (if dateKey(y.meetDate) == k then [y] else [])
  {
    assert (cs + [y])[..|cs|] == cs;
  }

  /**
   * `Array.prototype.sort` is stable: competitions with the same date keep their input order.
   * For every date, the competitions carrying it appear in the same order before and after.
   */
  lemma {:induction false} SortByDateStable(cs: seq<Competition>, dateKey: string -> int, k: int)
    ensures WithDate(SortByDate(cs, dateKey), dateKey, k) == WithDate(cs, dateKey, k)
    decreases |cs|
  {
    if |cs| > 0 {
      var prefix := cs[..|cs| - 1];
      SortByDateStable(prefix, dateKey, k);
      InsertByDateStable(cs[|cs| - 1], SortByDate(prefix, dateKey), dateKey, k);
    }
  }

  /** A competition dated no earlier than every other goes last. */
  lemma InsertLatest(x: Competition, cs: seq<Competition>, dateKey: string -> int)
    requires SortedByDate(cs, dateKey)
    requires |cs| > 0 ==> dateKey(cs[|cs| - 1].meetDate) <= dateKey(x.meetDate)
    ensures InsertByDate(x, cs, dateKey) == cs + [x]
  {
    if |cs| == 0 {
      assert cs + [x] == [x];
    }
  }

  /** The chart's data: one point per competition, in date order. */
  function ChartData(cs: seq<Competition>, dateKey: string -> int, formatDate: string -> string): (r: seq<ChartPoint>)
    ensures |r| == |cs|
    ensures forall i :: 0 <= i < |r| ==> r[i] == CompetitionPoint(SortByDate(cs, dateKey)[i], formatDate)
  {
    var sorted := SortByDate(cs, dateKey);
    assert |sorted| == |multiset(sorted)| == |cs|;
    seq(|sorted|, i requires 0 <= i < |sorted| => CompetitionPoint(sorted[i], formatDate))
  }

  /** `toggleMetric`: a shown series is removed, a hidden one appended. */
  function ToggleMetric(selected: seq<Metric>, m: Metric): (r: seq<Metric>)
    ensures m in r <==> m !in selected
    ensures m !in selected ==> r == selected + [m]
    ensures forall x :: x != m ==> (x in r <==> x in selected)
    ensures Distinct(selected) ==> Distinct(r)
  {
    if m in selected then Remove(selected, m) else selected + [m]
  }

  /** `filter((x) => x !== m)`. */
  function Remove(s: seq<Metric>, m: Metric): (r: seq<Metric>)
    ensures m !in r
    ensures forall x :: x != m ==> (x in r <==> x in s)
    ensures Distinct(s) ==> Distinct(r)
    ensures |r| <= |s|
  {
    if |s| == 0 then []
    else
      var rest := Remove(s[1..], m);
      if s[0] == m then rest
      else
        assert Distinct(s) ==> s[0] !in s[1..];
        [s[0]] + rest
  }

  /** Removing keeps every other metric as often as it occurred, and `m` not at all. */
  lemma {:induction false} RemoveCounts(s: seq<Metric>, m: Metric)
    ensures forall x :: multiset(Remove(s, m))[x] == if x == m then 0 else multiset(s)[x]
  {
    if |s| > 0 {
      RemoveCounts(s[1..], m);
      assert s == [s[0]] + s[1..];
    }
  }

  /** In a duplicate-free selection, removing `m` cuts it out and keeps the others in order. */
  lemma {:induction false} RemoveKeepsOrder(s: seq<Metric>, m: Metric, i: nat)
    requires Distinct(s) && i < |s| && s[i] == m
    ensures Remove(s, m) == s[..i] + s[i + 1..]
  {
    if i == 0 {
      assert m !in s[1..];
      RemoveAbsent(s[1..], m);
    } else {
      assert s[0] != m;
      RemoveKeepsOrder(s[1..], m, i - 1);
      assert s[1..][..i - 1] == s[1..i];
      assert s[1..][i..] == s[i + 1..];
      assert [s[0]] + s[1..i] == s[..i];
    }
  }

  lemma RemoveAbsent(s: seq<Metric>, m: Metric)
    requires m !in s
    ensures Remove(s, m) == s
  {
  }

  /** Hiding a series that was just shown restores the selection. */
  lemma {:induction false} ToggleTwiceHidden(selected: seq<Metric>, m: Metric)
    requires m !in selected
    ensures ToggleMetric(ToggleMetric(selected, m), m) == selected
  {
    RemoveAppended(selected, m);
  }

  lemma {:induction false} RemoveAppended(s: seq<Metric>, m: Metric)
    requires m !in s
    ensures Remove(s + [m], m) == s
  {
    if |s| == 0 {
      assert s + [m] == [m];
    } else {
      assert (s + [m])[1..] == s[1..] + [m];
      RemoveAppended(s[1..], m);
      assert [s[0]] + s[1..] == s;
    }
  }
}

=== FILE: create_day.dfy ===
/**
 * The "Add Day" dialog (components/create-day-dialog.tsx): the column list the user builds,
 * and the two inserts that create the day and its columns.
 */
module CreateDay {
  import opened Wrappers
  import opened Text
  import opened NumberParse
  import opened Domain
  import BlockCache

  /** The weekday selector's value for "no weekday". */
  const NoWeekday := "__none__"

  datatype Dialog = Dialog(
    dayName: string,
    weekDayIndex: string,
    columns: seq<string>,
    newColumn: string,
    isCreating: bool,
    error: Option<string>)

  /** The state the dialog starts in: the suggested columns and nothing else. */
  function Opened(suggested: seq<string>): Dialog {
    Dialog("", NoWeekday, suggested, "", false, None)
  }

  /**
   * `handleOpenChange(false)`: closing clears the name, weekday, new-column text and error
   * and restores the suggested columns; only a save in flight keeps its flag.
   */
  function Close(d: Dialog, suggested: seq<string>): (r: Dialog)
    ensures r.dayName == "" && r.weekDayIndex == NoWeekday && r.newColumn == "" && r.error.None?
    ensures r.columns == suggested && r.isCreating == d.isCreating
  {
    d.(dayName := "", weekDayIndex := NoWeekday, columns := suggested, newColumn := "", error := None)
  }

  /** Whatever was edited before closing is forgotten: only the save flag tells two closed dialogs apart. */
  lemma CloseForgetsEdits(d1: Dialog, d2: Dialog, suggested: seq<string>)
    ensures Close(d1, suggested) == Close(d2, suggested) <==> d1.isCreating == d2.isCreating
    ensures Close(Close(d1, suggested), suggested) == Close(d1, suggested)
    ensures !d1.isCreating ==> Close(d1, suggested) == Opened(suggested)
  {
  }

  // ---------------------------------------------------------------------------
  // Editing the column list

  /** `addColumn`: a blank entry does nothing; otherwise its trimmed text goes last and the entry clears. */
  function AddColumn(d: Dialog): (r: Dialog)
    ensures AllSpace(d.newColumn) ==> r == d
    ensures !AllSpace(d.newColumn) ==>
              r == d.(columns := d.columns + [Trim(d.newColumn)], newColumn := "") &&
              Trim(d.newColumn) != "" && !IsSpace(r.columns[|d.columns|][0])
  {
    var trimmed := Trim(d.newColumn);
    if trimmed == "" then d else d.(columns := d.columns + [trimmed], newColumn := "")
  }

  /** `removeColumn`: the column at `index` leaves; an index outside the list removes nothing. */
  function RemoveColumn(cols: seq<string>, index: int): (r: seq<string>)
    ensures 0 <= index < |cols| ==> |r| == |cols| - 1
    ensures 0 <= index < |cols| ==> forall i :: 0 <= i < |r| ==> r[i] == (if i < index then cols[i] else cols[i + 1])
    ensures !(0 <= index < |cols|) ==> r == cols
    ensures multiset(r) <= multiset(cols)
  {
    if 0 <= index < |cols| then
      assert cols == cols[..index] + [cols[index]] + cols[index + 1..];
      cols[..index] + cols[index + 1..]
    else cols
  }

  /** Removing the column that was just added gives back the list before it. */
  lemma RemoveAddedColumn(d: Dialog)
    requires !AllSpace(d.newColumn)
    ensures RemoveColumn(AddColumn(d).columns, |d.columns|) == d.columns
  {
    var r := RemoveColumn(AddColumn(d).columns, |d.columns|);
    assert |r| == |d.columns|;
  }

  datatype Direction = Up | Down

  /**
   * `moveColumn`: swaps the column with its neighbour above or below; a move past either
   * end leaves the list as it was.
   */
  function MoveColumn(cols: seq<string>, index: nat, dir: Direction): (r: seq<string>)
    requires index < |cols|
    ensures |r| == |cols| && multiset(r) == multiset(cols)
    ensures (dir == Up && index == 0) || (dir == Down && index == |cols| - 1) ==> r == cols
    ensures dir == Up && index > 0 ==>
              r[index - 1] == cols[index] && r[index] == cols[index - 1] &&
              forall i :: 0 <= i < |cols| && i != index && i != index - 1 ==> r[i] == cols[i]
    ensures dir == Down && index + 1 < |cols| ==>
              r[index + 1] == cols[index] && r[index] == cols[index + 1] &&
              forall i :: 0 <= i < |cols| && i != index && i != index + 1 ==> r[i] == cols[i]
  {
    var target := if dir == Up then index - 1 else index + 1;
    if target < 0 || target >= |cols| then cols
    else
      SwapPermutes(cols, index, target);
      cols[index := cols[target]][target := cols[index]]
  }

  /** Exchanging two entries keeps the same entries. */
  lemma SwapPermutes(s: seq<string>, i: nat, j: nat)
    requires i < |s| && j < |s|
    ensures multiset(s[i := s[j]][j := s[i]]) == multiset(s)
  {
    var t := s[i := s[j]];
    assert multiset(t) == multiset(s) - multiset{s[i]} + multiset{s[j]};
    assert t[j] == s[j];
    assert multiset(t[j := s[i]]) == multiset(t) - multiset{t[j]} + multiset{s[i]};
  }

  /** Moving a column down and then back up restores the list. */
  lemma MoveDownThenUp(cols: seq<string>, index: nat)
    requires index + 1 < |cols|
    ensures MoveColumn(MoveColumn(cols, index, Down), index + 1, Up) == cols
  {
    var r := MoveColumn(MoveColumn(cols, index, Down), index + 1, Up);
    assert forall i :: 0 <= i < |cols| ==> r[i] == cols[i];
  }

  // ---------------------------------------------------------------------------
  // Creating the day

  /** `dayName.trim() || null`. */
  function DayName(s: string): (r: Option<string>)
    ensures r.None? <==> AllSpace(s)
    ensures r.Some? ==> r.value == Trim(s) && !IsSpace(r.value[0]) && !IsSpace(r.value[|r.value| - 1])
  {
    var t := Trim(s);
    if t == "" then None else Some(t)
  }

  /**
   * The weekday sent: none for the "no weekday" choice, otherwise `parseInt(v, 10)`,
   * where NaN goes out as null.
   */
  function WeekDayIndex(v: string): (r: Option<int>)
    ensures v == NoWeekday ==> r.None?
    ensures v != NoWeekday ==> r == ParseInt(v)
  {
    if v == NoWeekday then None else ParseInt(v)
  }

  /** A weekday the selector offers, written as its index, is sent as that index. */
  lemma WeekDayIndexOfChoice(i: nat)
    ensures WeekDayIndex(NatToString(i)) == Some(i)
  {
    var d := Decimal(false, i, "");
    RenderThenParseInt(d);
    assert Render(d) == NatToString(i);
  }

  function DayInsert(d: Dialog, weekId: string, nextDayNumber: int): (r: BlockCache.DayRequest)
    ensures r.weekId == weekId && r.dayNumber == nextDayNumber
    ensures r.name == DayName(d.dayName) && r.weekDayIndex == WeekDayIndex(d.weekDayIndex)
  {
    BlockCache.DayRequest(weekId, nextDayNumber, DayName(d.dayName), WeekDayIndex(d.weekDayIndex))
  }

  /** The column inserts: one per listed column, in order, each with its position as `order`. */
  function ColumnInserts(dayId: string, cols: seq<string>): (r: seq<BlockCache.ColumnRequest>)
    ensures |r| == |cols|
    ensures forall i :: 0 <= i < |cols| ==> r[i].dayId == dayId && r[i].heading == cols[i]
    ensures forall i :: 0 <= i < |r| ==> r[i].order == i
    ensures forall i, j :: 0 <= i < j < |r| ==> 0 <= r[i].order < r[j].order
  {
    seq(|cols|, i requires 0 <= i < |cols| => BlockCache.ColumnRequest(dayId, cols[i], i))
  }

  /**
   * The dialog after submitting, whether it stays open, the day and column inserts sent (None
   * when that insert was never reached) and what `onDayCreated` received.
   */
  datatype Submitted = Submitted(
    dialog: Dialog, open: bool,
    dayRequest: Option<BlockCache.DayRequest>,
    columnRequests: Option<seq<BlockCache.ColumnRequest>>,
    delivered: Option<(Day, seq<Column>)>)

  /**
   * `handleCreate`: an empty column list is refused before any insert; a failed day insert
   * or a failed column insert shows its message; otherwise the dialog closes and resets, and
   * the new day with its created columns is handed on.
   */
  function HandleCreate(d: Dialog, suggested: seq<string>, weekId: string, nextDayNumber: int,
                        dayAnswer: DbResult<Day>, columnAnswer: DbResult<seq<Column>>): (r: Submitted)
    ensures r.dayRequest.Some? <==> |d.columns| > 0
    ensures r.columnRequests.Some? <==> |d.columns| > 0 && !Failed(dayAnswer)
    ensures r.dayRequest.Some? ==>
              var q := r.dayRequest.value;
              q.weekId == weekId && q.dayNumber == nextDayNumber &&
              q.name == DayName(d.dayName) && q.weekDayIndex == WeekDayIndex(d.weekDayIndex)
    ensures r.columnRequests.Some? ==>
              var qs := r.columnRequests.value;
              |qs| == |d.columns| &&
              forall i :: 0 <= i < |qs| ==> qs[i] == BlockCache.ColumnRequest(dayAnswer.data.value.id, d.columns[i], i)
    ensures r.delivered.Some? <==> |d.columns| > 0 && !Failed(dayAnswer) && !Failed(columnAnswer)
    ensures r.delivered.Some? ==>
              r.delivered.value == (dayAnswer.data.value, columnAnswer.data.value) &&
              !r.open && r.dialog == Opened(suggested)
    ensures |d.columns| == 0 ==> r.open && r.dialog == d.(error := Some("Add at least one column."))
    ensures |d.columns| > 0 && Failed(dayAnswer) ==>
              r.open && r.dialog == d.(isCreating := false, error := Some(Reason(dayAnswer, "Failed to create day")))
    ensures |d.columns| > 0 && !Failed(dayAnswer) && Failed(columnAnswer) ==>
              r.open && r.dialog ==
              d.(isCreating := false, error := Some(Reason(columnAnswer, "Day created but failed to create columns")))
  {
    if |d.columns| == 0 then Submitted(d.(error := Some("Add at least one column.")), true, None, None, None)
    else
      var dayRequest := Some(DayInsert(d, weekId, nextDayNumber));
      if Failed(dayAnswer) then
        Submitted(d.(isCreating := false, error := Some(Reason(dayAnswer, "Failed to create day"))),
                  true, dayRequest, None, None)
      else
        var day := dayAnswer.data.value;
        var columnRequests := Some(ColumnInserts(day.id, d.columns));
        if Failed(columnAnswer) then
          Submitted(d.(isCreating := false, error := Some(Reason(columnAnswer, "Day created but failed to create columns"))),
                    true, dayRequest, columnRequests, None)
        else
          Submitted(Close(d.(isCreating := false), suggested), false, dayRequest, columnRequests,
                    Some((day, columnAnswer.data.value)))
  }

  /**
   * A delivered day was asked for in the given week with the suggested number, and its
   * columns were asked for under that day's id: the listed headings, in list order, each
   * with its position as `order`.
   */
  lemma DeliveredFollowsList(d: Dialog, suggested: seq<string>, weekId: string, nextDayNumber: int,
                             dayAnswer: DbResult<Day>, columnAnswer: DbResult<seq<Column>>)
    ensures var r := HandleCreate(d, suggested, weekId, nextDayNumber, dayAnswer, columnAnswer);
            r.delivered.Some? ==>
              var day := r.delivered.value.0;
              r.dayRequest.Some? && r.dayRequest.value.weekId == weekId &&
              r.dayRequest.value.dayNumber == nextDayNumber &&
              r.columnRequests.Some? && |r.columnRequests.value| == |d.columns| &&
              forall i :: 0 <= i < |d.columns| ==>
                r.columnRequests.value[i] == BlockCache.ColumnRequest(day.id, d.columns[i], i)
  {
  }
}

=== FILE: domain.dfy ===
/**
 * The stored entities of the training log (program -> block -> week -> day, and each
 * day's spreadsheet of columns and rows). Server-side bookkeeping fields (ids of the
 * owner, timestamps) are omitted; ids are opaque strings.
 */
module Domain {
  import opened Wrappers

  datatype Block = Block(id: string, programId: string, name: string, order: int)

  datatype Week = Week(id: string, blockId: string, weekNumber: int)

  /** `weekDayIndex` is the optional weekday (0-6) the day forms write alongside a day. */
  datatype Day = Day(id: string, weekId: string, dayNumber: int, name: Option<string>,
                     weekDayIndex: Option<int>)

  /** `heading` is the stored column label (`label` is a Dafny keyword). */
  datatype Column = Column(id: string, dayId: string, heading: string, order: int)

  /** A row's cells: free text keyed by the id of a column of the same day. */
  datatype Row = Row(id: string, dayId: string, order: int, cells: map<string, string>)

  /** Which column labels carry the exercise name, sets, reps and weight in every day. */
  datatype StatsSettings = StatsSettings(exerciseLabel: string, setsLabel: string,
                                         repsLabel: string, weightLabel: string)

  /** `DbResult<T>`: what a table call answers, a row or an error message, either possibly null. */
  datatype DbResult<T> = DbResult(data: Option<T>, error: Option<string>)

  /** `error || !data`: an empty error message is falsy and does not count as a failure. */
  predicate Failed<T>(a: DbResult<T>) {
    (a.error.Some? && a.error.value != "") || a.data.None?
  }

  /** `error ?? fallback`: the message when there is one, even an empty one. */
  function Reason<T>(a: DbResult<T>, fallback: string): (r: string)
    ensures a.error.Some? ==> r == a.error.value
    ensures a.error.None? ==> r == fallback
  {
    a.error.GetOr(fallback)
  }
}

=== FILE: inline_edit.dfy ===
/**
 * The click-to-edit text field used for names (components/inline-edit.tsx): a draft that
 * is saved through a callback on Enter or blur and reverted on Escape.
 */
module InlineEdit {
  import opened Wrappers
  import opened Text

  /** `value` is the text the parent passes in; `draft` is what the field holds. */
  datatype Editor = Editor(value: string, draft: string, editing: bool, saving: bool)

  /** How the `onSave` promise settled. */
  datatype Settled = Resolved | Rejected

  /** The field after a save, and the text `onSave` was called with, if it was called. */
  datatype Saved = Saved(editor: Editor, called: Option<string>)

  /** Whether a save would call `onSave`: the trimmed draft is non-empty and differs from the value. */
  predicate Changed(e: Editor) {
    Trim(e.draft) != "" && Trim(e.draft) != e.value
  }

  /**
   * `handleSave`: a blank or unchanged draft is reverted without a call; otherwise `onSave`
   * gets the trimmed draft once, and a rejection reverts the draft. Either way editing ends.
   */
  function HandleSave(e: Editor, settled: Settled): (r: Saved)
    ensures r.called.Some? <==> Changed(e)
    ensures r.called.Some? ==> r.called.value == Trim(e.draft) && !AllSpace(e.draft)
    ensures !r.editor.editing && r.editor.value == e.value
    ensures !Changed(e) ==> r.editor.draft == e.value && r.editor.saving == e.saving
    ensures Changed(e) ==> !r.editor.saving
    ensures Changed(e) ==> r.editor.draft == (if settled == Rejected then e.value else e.draft)
  {
    var trimmed := Trim(e.draft);
    if trimmed == "" || trimmed == e.value then
      Saved(e.(draft := e.value, editing := false), None)
    else
      var draft := if settled == Rejected then e.value else e.draft;
      Saved(e.(draft := draft, saving := false, editing := false), Some(trimmed))
  }

  /** The effect on `value`: a new value from the parent replaces the draft. */
  function ValueChanged(e: Editor, value: string): (r: Editor)
    ensures r.value == value && r.draft == value
    ensures r.editing == e.editing && r.saving == e.saving
  {
    e.(value := value, draft := value)
  }

  datatype Key = Enter | Escape | Other

  /** `handleKeyDown`: Enter saves, Escape reverts and stops editing without saving, other keys do nothing. */
  function HandleKeyDown(e: Editor, key: Key, settled: Settled): (r: Saved)
    ensures key == Enter ==> r == HandleSave(e, settled)
    ensures key == Escape ==> r.called.None? && r.editor == e.(draft := e.value, editing := false)
    ensures key == Other ==> r == Saved(e, None)
  {
    match key
    case Enter => HandleSave(e, settled)
    case Escape => Saved(e.(draft := e.value, editing := false), None)
    case Other => Saved(e, None)
  }

  /**
   * After Escape the field holds the value again, so a following save (Enter or blur) calls
   * `onSave` exactly when the value itself is not blank and not already trimmed; for a
   * trimmed value it leaves the field as Escape left it.
   */
  lemma EscapeThenSave(e: Editor, settled: Settled)
    ensures var esc := HandleKeyDown(e, Escape, settled).editor;
            (HandleSave(esc, settled).called.Some? <==> Trim(e.value) != "" && Trim(e.value) != e.value) &&
            (Trim(e.value) == e.value ==> HandleSave(esc, settled).editor == esc)
  {
  }

  /**
   * Saving is idempotent once the parent echoes the saved text: after a successful save
   * whose text comes back as the new value, saving again calls nothing.
   */
  lemma SaveThenEchoIsIdle(e: Editor, settled: Settled)
    requires Changed(e)
    ensures var first := HandleSave(e, Resolved);
            var echoed := ValueChanged(first.editor, first.called.value);
            HandleSave(echoed, settled).called.None? &&
            HandleSave(echoed, settled).editor.draft == first.called.value
  {
    TrimIdempotent(e.draft);
  }
}

=== FILE: json.dfy ===
/**
 * `JSON.stringify` of a flat object whose properties hold strings, booleans or null
 * (the form drafts), and a reader for that output. The reader inverts the writer,
 * so two such objects with the same text are the same object.
 */
module Json {
  import opened Wrappers

  datatype Value = Str(s: string) | Bool(b: bool) | Null

  /** A property: its name and its value, in the object's own order. */
  datatype Member = Member(key: string, value: Value)

  // ---------------------------------------------------------------------------
  // Writing

  function HexDigit(d: nat): (c: char)
    requires d < 16
  {
    if d < 10 then ('0' as int + d) as char else ('a' as int + d - 10) as char
  }

  function HexValue(c: char): (r: Option<nat>)
    ensures r.Some? ==> r.value < 16
  {
    if '0' <= c <= '9' then Some(c as int - '0' as int)
    else if 'a' <= c <= 'f' then Some(c as int - 'a' as int + 10)
    else if 'A' <= c <= 'F' then Some(c as int - 'A' as int + 10)
    else None
  }

  lemma HexDigitValue(d: nat)
    requires d < 16
    ensures HexValue(HexDigit(d)) == Some(d)
  {
  }

  /**
   * How `JSON.stringify` writes one character inside a string literal: the quote and the
   * backslash escaped, the five named control characters by their short escapes, the
   * other control characters as `\u00xx` with lower-case hex, everything else as is.
   */
  function EscapeChar(c: char): (r: string)
    ensures |r| > 0 && r[0] != '"'
    ensures r[0] != '\\' ==> r == [c]
  {
    if c == '"' then "\\\""
    else if c == '\\' then "\\\\"
    else if c == '\U{0008}' then "\\b"
    else if c == '\U{000C}' then "\\f"
    else if c == '\n' then "\\n"
    else if c == '\r' then "\\r"
    else if c == '\t' then "\\t"
    else if (c as int) < 0x20 then "\\u00" + [HexDigit(c as int / 16), HexDigit(c as int % 16)]
    else [c]
  }

  function Escape(s: string): string {
    if |s| == 0 then "" else EscapeChar(s[0]) + Escape(s[1..])
  }

  function Quote(s: string): string {
    "\"" + Escape(s) + "\""
  }

  function Write(v: Value): string {
    match v
    case Str(s) => Quote(s)
    case Bool(b) => if b then "true" else "false"
    case Null => "null"
  }

  function WriteMember(m: Member): string {
    Quote(m.key) + ":" + Write(m.value)
  }

  /** The members separated by commas. */
  function WriteMembers(ms: seq<Member>): string {
    if |ms| == 0 then ""
    else if |ms| == 1 then WriteMember(ms[0])
    else WriteMember(ms[0]) + "," + WriteMembers(ms[1..])
  }

  /** `JSON.stringify` of the object with these properties, in this order. */
  function Stringify(ms: seq<Member>): string {
    "{" + WriteMembers(ms) + "}"
  }

  // ---------------------------------------------------------------------------
  // Reading back

  /** The character an escape sequence (the text after the backslash) stands for. */
  function ReadEscape(t: string): (r: Option<(char, string)>)
    ensures r.Some? ==> |r.value.1| < |t|
  {
    if |t| == 0 then None
    else if t[0] == '"' then Some(('"', t[1..]))
    else if t[0] == '\\' then Some(('\\', t[1..]))
    else if t[0] == '/' then Some(('/', t[1..]))
    else if t[0] == 'b' then Some(('\U{0008}', t[1..]))
    else if t[0] == 'f' then Some(('\U{000C}', t[1..]))
    else if t[0] == 'n' then Some(('\n', t[1..]))
    else if t[0] == 'r' then Some(('\r', t[1..]))
    else if t[0] == 't' then Some(('\t', t[1..]))
    else if t[0] == 'u' && |t| >= 5 then
      match (HexValue(t[1]), HexValue(t[2]), HexValue(t[3]), HexValue(t[4]))
      case (Some(a), Some(b), Some(c), Some(d)) =>
        var v := ((a * 16 + b) * 16 + c) * 16 + d;
        if 0xD800 <= v < 0xE000 then None else Some((v as char, t[5..]))
      case _ => None
    else None
  }

  /** The characters of a string literal up to its closing quote, and the text after it. */
  function ReadChars(t: string): (r: Option<(string, string)>)
    ensures r.Some? ==> |r.value.1| < |t|
    decreases |t|
  {
    if |t| == 0 then None
    else if t[0] == '"' then Some(("", t[1..]))
    else if t[0] == '\\' then
      match ReadEscape(t[1..])
      case None => None
      case Some((c, rest)) =>
        match ReadChars(rest)
        case None => None
        case Some((s, after)) => Some(([c] + s, after))
    else
      match ReadChars(t[1..])
      case None => None
      case Some((s, after)) => Some(([t[0]] + s, after))
  }

  function ReadValue(t: string): (r: Option<(Value, string)>)
    ensures r.Some? ==> |r.value.1| < |t|
  {
    if |t| > 0 && t[0] == '"' then
      match ReadChars(t[1..])
      case None => None
      case Some((s, rest)) => Some((Str(s), rest))
    else if |t| >= 4 && t[..4] == "true" then Some((Bool(true), t[4..]))
    else if |t| >= 5 && t[..5] == "false" then Some((Bool(false), t[5..]))
    else if |t| >= 4 && t[..4] == "null" then Some((Null, t[4..]))
    else None
  }

  function ReadMember(t: string): (r: Option<(Member, string)>)
    ensures r.Some? ==> |r.value.1| < |t|
  {
    if |t| > 0 && t[0] == '"' then
      match ReadChars(t[1..])
      case None => None
      case Some((k, rest)) =>
        if |rest| > 0 && rest[0] == ':' then
          match ReadValue(rest[1..])
          case None => None
          case Some((v, after)) => Some((Member(k, v), after))
        else None
    else None
  }

  /** One or more members separated by commas, through the closing brace. */
  function ReadMembers(t: string): (r: Option<(seq<Member>, string)>)
    decreases |t|
  {
    match ReadMember(t)
    case None => None
    case Some((m, rest)) =>
      if |rest| > 0 && rest[0] == ',' then
        match ReadMembers(rest[1..])
        case None => None
        case Some((ms, after)) => Some(([m] + ms, after))
      else if |rest| > 0 && rest[0] == '}' then Some(([m], rest[1..]))
      else None
  }

  /** `JSON.parse` of a flat object of strings, booleans and nulls. */
  function Parse(t: string): Option<seq<Member>> {
    if t == "{}" then Some([])
    else if |t| > 0 && t[0] == '{' then
      match ReadMembers(t[1..])
      case Some((ms, rest)) => if rest == "" then Some(ms) else None
      case None => None
    else None
  }

  // ---------------------------------------------------------------------------
  // Reading what was written

  lemma ReadControlEscape(c: char, t: string)
    requires (c as int) < 0x20
    ensures ReadEscape("u00" + [HexDigit(c as int / 16), HexDigit(c as int % 16)] + t) == Some((c, t))
  {
    var h, l := c as int / 16, c as int % 16;
    var u := "u00" + [HexDigit(h), HexDigit(l)] + t;
    HexDigitValue(h);
    HexDigitValue(l);
    assert u[1] == '0' && u[2] == '0' && u[3] == HexDigit(h) && u[4] == HexDigit(l);
    assert u[5..] == t;
    assert ((0 * 16 + 0) * 16 + h) * 16 + l == c as int;
  }

  lemma {:induction false} ReadEscapedChar(c: char, t: string)
    ensures ReadChars(EscapeChar(c) + t) ==
            (match ReadChars(t)
             case None => None
             case Some((s, after)) => Some(([c] + s, after)))
  {
    var e := EscapeChar(c);
    var u := e + t;
    if e[0] != '\\' {
      assert u[0] == c && u[1..] == t;
    } else {
      assert u[0] == '\\';
      assert u[1..] == e[1..] + t;
      if (c as int) < 0x20 && !(c == '\U{0008}' || c == '\U{000C}' || c == '\n' || c == '\r' || c == '\t') {
        assert e[1..] == "u00" + [HexDigit(c as int / 16), HexDigit(c as int % 16)];
        ReadControlEscape(c, t);
      } else {
        assert |e| == 2 && u[2..] == t;
      }
    }
  }

  /** A written string literal reads back as the same string, and the text after it is untouched. */
  lemma {:induction false} ReadEscaped(s: string, rest: string)
    ensures ReadChars(Escape(s) + "\"" + rest) == Some((s, rest))
  {
    if |s| == 0 {
      assert Escape(s) + "\"" + rest == "\"" + rest;
    } else {
      assert Escape(s) + "\"" + rest == EscapeChar(s[0]) + (Escape(s[1..]) + "\"" + rest);
      ReadEscaped(s[1..], rest);
      ReadEscapedChar(s[0], Escape(s[1..]) + "\"" + rest);
      assert [s[0]] + s[1..] == s;
    }
  }

  lemma ReadQuoted(s: string, rest: string)
    ensures |Quote(s) + rest| > 0 && (Quote(s) + rest)[0] == '"'
    ensures ReadChars((Quote(s) + rest)[1..]) == Some((s, rest))
  {
    assert (Quote(s) + rest)[1..] == Escape(s) + "\"" + rest;
    ReadEscaped(s, rest);
  }

  lemma ReadWritten(v: Value, rest: string)
    ensures ReadValue(Write(v) + rest) == Some((v, rest))
  {
    var t := Write(v) + rest;
    match v
    case Str(s) =>
      ReadQuoted(s, rest);
    case Bool(b) =>
      if b {
        assert t[..4] == "true" && t[4..] == rest;
      } else {
        assert t[3] == 's';
        assert t[..5] == "false" && t[5..] == rest;
      }
    case Null =>
      assert t[0] == 'n';
      assert t[..4] == "null" && t[4..] == rest;
  }

  /** How `ReadMember` succeeds: a quoted key, a colon, then a value. */
  lemma ReadMemberSteps(t: string, k: string, tail: string, v: Value, after: string)
    requires |t| > 0 && t[0] == '"' && ReadChars(t[1..]) == Some((k, tail))
    requires |tail| > 0 && tail[0] == ':' && ReadValue(tail[1..]) == Some((v, after))
    ensures ReadMember(t) == Some((Member(k, v), after))
  {
  }

  lemma ReadWrittenMember(m: Member, rest: string)
    ensures ReadMember(WriteMember(m) + rest) == Some((m, rest))
  {
    var tail := ":" + Write(m.value) + rest;
    WrittenMemberShape(m, rest);
    ReadQuoted(m.key, tail);
    ReadWritten(m.value, rest);
    ReadMemberSteps(Quote(m.key) + tail, m.key, tail, m.value, rest);
  }

  lemma WrittenMemberShape(m: Member, rest: string)
    ensures WriteMember(m) + rest == Quote(m.key) + (":" + Write(m.value) + rest)
    ensures var tail := ":" + Write(m.value) + rest; |tail| > 0 && tail[0] == ':' && tail[1..] == Write(m.value) + rest
  {
    var tail := ":" + Write(m.value) + rest;
    assert tail[1..] == Write(m.value) + rest;
  }

  /** A member followed by a comma: the rest of the list is read after the comma. */
  lemma ReadMembersComma(t: string, m: Member, more: string)
    requires ReadMember(t) == Some((m, "," + more))
    ensures ReadMembers(t) ==
            match ReadMembers(more)
            case None => None
            case Some((ms, after)) => Some(([m] + ms, after))
  {
    assert ("," + more)[0] == ',' && ("," + more)[1..] == more;
  }

  /** A member followed by the closing brace ends the list. */
  lemma ReadMembersClose(t: string, m: Member, rest: string)
    requires ReadMember(t) == Some((m, "}" + rest))
    ensures ReadMembers(t) == Some(([m], rest))
  {
    assert ("}" + rest)[0] == '}' && ("}" + rest)[1..] == rest;
  }

  lemma {:induction false} ReadWrittenMembers(ms: seq<Member>, rest: string)
    requires |ms| > 0
    ensures ReadMembers(WriteMembers(ms) + "}" + rest) == Some((ms, rest))
  {
    WrittenMembersShape(ms, rest);
    if |ms| == 1 {
      var t := WriteMember(ms[0]) + ("}" + rest);
      ReadWrittenMember(ms[0], "}" + rest);
      ReadMembersClose(t, ms[0], rest);
    } else {
      var more := WriteMembers(ms[1..]) + "}" + rest;
      var t := WriteMember(ms[0]) + ("," + more);
      ReadWrittenMember(ms[0], "," + more);
      ReadMembersComma(t, ms[0], more);
      ReadWrittenMembers(ms[1..], rest);
    }
  }

  /** The written list is its first member, then the closing brace or a comma and the others. */
  lemma WrittenMembersShape(ms: seq<Member>, rest: string)
    requires |ms| > 0
    ensures |ms| == 1 ==> WriteMembers(ms) + "}" + rest == WriteMember(ms[0]) + ("}" + rest) && [ms[0]] == ms
    ensures |ms| > 1 ==> WriteMembers(ms) + "}" + rest == WriteMember(ms[0]) + ("," + (WriteMembers(ms[1..]) + "}" + rest)) &&
                         [ms[0]] + ms[1..] == ms
  {
    if |ms| == 1 {
      assert [ms[0]] == ms;
      CloseRegroup(WriteMember(ms[0]), rest);
    } else {
      assert [ms[0]] + ms[1..] == ms;
      CommaRegroup(WriteMember(ms[0]), WriteMembers(ms[1..]), rest);
    }
  }

  lemma CloseRegroup(a: string, rest: string)
    ensures a + "}" + rest == a + ("}" + rest)
  {
  }

  lemma CommaRegroup(a: string, b: string, rest: string)
    ensures a + "," + b + "}" + rest == a + ("," + (b + "}" + rest))
  {
  }

  /** Parsing what `Stringify` wrote gives back the same properties in the same order. */
  lemma ParseStringify(ms: seq<Member>)
    ensures Parse(Stringify(ms)) == Some(ms)
  {
    if |ms| > 0 {
      var w := WriteMembers(ms);
      ReadWrittenMembers(ms, "");
      WrittenMembersStartQuoted(ms);
      Braced(w);
    }
  }

  /** A non-empty member list is written starting with the first key's quote. */
  lemma WrittenMembersStartQuoted(ms: seq<Member>)
    requires |ms| > 0
    ensures |WriteMembers(ms)| > 0 && WriteMembers(ms)[0] == '"'
  {
    assert WriteMember(ms[0])[0] == '"';
  }

  lemma Braced(w: string)
    requires |w| > 0 && w[0] == '"'
    ensures var t := "{" + w + "}"; |t| > 0 && t[0] == '{' && t[1..] == w + "}" + "" && t != "{}"
  {
    var t := "{" + w + "}";
    assert t[1..] == w + "}" + "";
    assert t[1] == '"';
  }

  /** Equal texts come only from equal objects. */
  lemma StringifyInjective(a: seq<Member>, b: seq<Member>)
    ensures Stringify(a) == Stringify(b) <==> a == b
  {
    if Stringify(a) == Stringify(b) {
      ParseStringify(a);
      ParseStringify(b);
    }
  }
}

=== FILE: number_parse.dfy ===
/**
 * JavaScript's number <-> text conversions as the application uses them:
 * `parseFloat` and `parseInt(_, 10)` as longest-prefix scanners returning exact values,
 * `String(x)` for numbers held as decimals, and the `parseFloatOrNull` /
 * `parseIntOrNull` / `numToStr` helpers of the edit forms.
 */
module NumberParse {
  import opened Wrappers
  import opened Text

  /** Length of the run of decimal digits at the start of `s`. */
  function DigitRun(s: string): (n: nat)
    ensures n <= |s|
    ensures forall i :: 0 <= i < n ==> IsDigit(s[i])
    ensures n < |s| ==> !IsDigit(s[n])
  {
    if |s| > 0 && IsDigit(s[0]) then 1 + DigitRun(s[1..]) else 0
  }

  lemma {:induction false} DigitRunAppend(a: string, c: string)
    requires AllDigits(a)
    requires |c| == 0 || !IsDigit(c[0])
    ensures DigitRun(a + c) == |a|
  {
    if |a| > 0 {
      assert (a + c)[1..] == a[1..] + c;
      DigitRunAppend(a[1..], c);
    } else {
      assert a + c == c;
    }
  }

  /** 1 when `t` starts with a `+` or `-` sign, else 0. */
  function SignLength(t: string): (k: nat)
    ensures k <= |t|
  {
    if |t| > 0 && (t[0] == '+' || t[0] == '-') then 1 else 0
  }

  /**
   * The decimal literal at the start of a string, split into its parts:
   * sign, integer digits, fraction digits and the exponent's value.
   */
  datatype Numeral = Numeral(negative: bool, whole: DigitString, frac: DigitString, exponent: int)

  /** `m * 10^e`, exactly. */
  function Scale(m: real, e: int): real {
    if e >= 0 then m * Pow10(e) as real else m / Pow10(-e) as real
  }

  function NumeralValue(n: Numeral): real {
    var m := DigitsValue(n.whole) as real + DigitsValue(n.frac) as real / Pow10(|n.frac|) as real;
    var v := Scale(m, n.exponent);
    if n.negative then -v else v
  }

  /** An ExponentPart (`e` or `E`, an optional sign, at least one digit) at the start of `s`. */
  function ScanExponent(s: string): (r: Option<int>)
    ensures r.Some? ==> |s| > 1 && (s[0] == 'e' || s[0] == 'E')
  {
    if |s| > 0 && (s[0] == 'e' || s[0] == 'E') then
      var k := SignLength(s[1..]);
      var body := s[1 + k..];
      var d := DigitRun(body);
      if d == 0 then None
      else
        var v: int := DigitsValue(body[..d]);
        Some(if k == 1 && s[1] == '-' then -v else v)
    else None
  }

  /**
   * After an optional sign, the text starts with a digit or with a point followed by a
   * digit: exactly the texts on which `parseFloat` does not answer NaN (the literal
   * `Infinity` aside).
   */
  predicate HasNumericPrefix(t: string) {
    var b := t[SignLength(t)..];
    (|b| > 0 && IsDigit(b[0])) || (|b| > 1 && b[0] == '.' && IsDigit(b[1]))
  }

  /** The unsigned decimal literal at the start of `b`: integer digits, fraction digits, exponent. */
  function ScanUnsigned(b: string): (r: Option<(DigitString, DigitString, int)>)
    ensures r.Some? <==> (|b| > 0 && IsDigit(b[0])) || (|b| > 1 && b[0] == '.' && IsDigit(b[1]))
  {
    var w := DigitRun(b);
    var hasDot := w < |b| && b[w] == '.';
    var f := if hasDot then DigitRun(b[w + 1..]) else 0;
    if w + f == 0 then None
    else
      var frac := if hasDot then b[w + 1..w + 1 + f] else "";
      var mEnd := if hasDot then w + 1 + f else w;
      Some((b[..w], frac, ScanExponent(b[mEnd..]).GetOr(0)))
  }

  /** The longest prefix of `t` that is a StrDecimalLiteral, when there is one. */
  function Scan(t: string): (r: Option<Numeral>)
    ensures r.Some? <==> HasNumericPrefix(t)
  {
    var k := SignLength(t);
    match ScanUnsigned(t[k..])
    case None => None
    case Some((w, f, e)) => Some(Numeral(k == 1 && t[0] == '-', w, f, e))
  }

  /** Text that starts with something other than white space is not changed by `TrimStart`. */
  lemma TrimStartNoSpace(s: string)
    requires |s| > 0 && !IsSpace(s[0])
    ensures TrimStart(s) == s
  {
  }

  /** `parseFloat(s)`, with `None` for NaN. */
  function ParseFloat(s: string): (r: Option<real>)
    ensures r.Some? <==> HasNumericPrefix(TrimStart(s))
  {
    match Scan(TrimStart(s))
    case Some(n) => Some(NumeralValue(n))
    case None => None
  }

  /** The value of the digit run at the start of `b`, when there is one. */
  function LeadingDigits(b: string): (r: Option<nat>)
    ensures r.Some? <==> |b| > 0 && IsDigit(b[0])
  {
    var d := DigitRun(b);
    if d == 0 then None else Some(DigitsValue(b[..d]))
  }

  /** `parseInt(s, 10)`, with `None` for NaN: optional sign, then the leading digits. */
  function ParseInt(s: string): (r: Option<int>)
    ensures var t := TrimStart(s); var b := t[SignLength(t)..];
            r.Some? <==> |b| > 0 && IsDigit(b[0])
  {
    var t := TrimStart(s);
    var k := SignLength(t);
    match LeadingDigits(t[k..])
    case None => None
    case Some(v) => Some(if k == 1 && t[0] == '-' then -(v as int) else v)
  }

  // ---------------------------------------------------------------------------
  // Numbers held by the application

  /**
   * A decimal: sign, integer part and fraction digits. (Every finite double has a finite
   * decimal expansion; `Number` below picks the one form `String` writes.)
   */
  datatype Decimal = Decimal(negative: bool, whole: nat, frac: DigitString)

  function Value(d: Decimal): real {
    var m := d.whole as real + DigitsValue(d.frac) as real / Pow10(|d.frac|) as real;
    if d.negative then -m else m
  }

  predicate IsZero(d: Decimal) {
    d.whole == 0 && DigitsValue(d.frac) == 0
  }

  /** The value with its fraction cut off, toward zero. */
  function Truncate(d: Decimal): int {
    if d.negative then -(d.whole as int) else d.whole
  }

  /**
   * The decimals JavaScript's `String` writes out: no trailing zero in the fraction and no
   * minus sign on zero (`String(1.50)` is "1.5" and `String(-0)` is "0").
   */
  predicate Canonical(d: Decimal) {
    (|d.frac| == 0 || d.frac[|d.frac| - 1] != '0') && !(d.negative && IsZero(d))
  }

  /** A number the application stores: for these `Render` below is exactly `String(x)`. */
  type Number = d: Decimal | Canonical(d) witness Decimal(false, 0, "")

  /**
   * The digits of a decimal: `-` (never for zero), the integer digits, then `.` and the
   * fraction if any. On a `Number` this is `String(x)`.
   */
  function Render(d: Decimal): (s: string)
    ensures |s| > 0 && (IsDigit(s[0]) || s[0] == '-')
    ensures forall i :: 0 <= i < |s| ==> IsDigit(s[i]) || s[i] == '-' || s[i] == '.'
  {
    var sign := if d.negative && !IsZero(d) then "-" else "";
    var tail := if |d.frac| > 0 then "." + d.frac else "";
    sign + NatToString(d.whole) + tail
  }

  /** A text that cannot continue a decimal literal written before it. */
  predicate EndsNumeral(rest: string) {
    |rest| == 0 || !(IsDigit(rest[0]) || rest[0] == '.' || rest[0] == 'e' || rest[0] == 'E')
  }

  /** Digits, then an optional point and fraction, then text that cannot extend them. */
  lemma {:induction false} ScanUnsignedPrefix(w: string, frac: string, rest: string)
    requires |w| > 0 && AllDigits(w) && AllDigits(frac) && EndsNumeral(rest)
    ensures ScanUnsigned(w + (if |frac| > 0 then "." + frac else "") + rest) == Some((w, frac, 0))
  {
    var tail := if |frac| > 0 then "." + frac else "";
    var b := w + tail + rest;
    assert b == w + (tail + rest);
    DigitRunAppend(w, tail + rest);
    assert b[..|w|] == w;
    if |frac| > 0 {
      assert b[|w|] == '.';
      assert b[|w| + 1..] == frac + rest;
      DigitRunAppend(frac, rest);
      assert b[|w| + 1..|w| + 1 + |frac|] == frac;
      assert b[|w| + 1 + |frac|..] == rest;
    } else {
      assert b[|w|..] == rest;
    }
  }

  /** A minus sign in front of an unsigned literal negates it; `TrimStart` keeps the text. */
  lemma ScanMinus(b: string)
    requires ScanUnsigned(b).Some?
    ensures var x := ScanUnsigned(b).value;
            TrimStart("-" + b) == "-" + b && Scan("-" + b) == Some(Numeral(true, x.0, x.1, x.2))
  {
    var s := "-" + b;
    assert s[0] == '-' && s[1..] == b;
    TrimStartNoSpace(s);
  }

  /** An unsigned literal starting with a digit is scanned as it is; `TrimStart` keeps it. */
  lemma ScanDigitFirst(b: string)
    requires |b| > 0 && IsDigit(b[0])
    ensures var x := ScanUnsigned(b).value;
            TrimStart(b) == b && Scan(b) == Some(Numeral(false, x.0, x.1, x.2))
  {
    TrimStartNoSpace(b);
  }

  /** `parseFloat(String(x) + rest)` gives back `x` whenever `rest` cannot extend the literal. */
  lemma RenderThenParseFloat(d: Decimal, rest: string)
    requires EndsNumeral(rest)
    ensures ParseFloat(Render(d) + rest) == Some(Value(d))
  {
    var neg := d.negative && !IsZero(d);
    var w := NatToString(d.whole);
    var tail := if |d.frac| > 0 then "." + d.frac else "";
    var b := w + tail + rest;
    Regroup4(if neg then "-" else "", w, tail, rest);
    ScanUnsignedPrefix(w, d.frac, rest);
    assert b[0] == w[0];
    if neg {
      ScanMinus(b);
    } else {
      ScanDigitFirst(b);
      assert "" + b == b;
    }
    NumeralOfDecimal(d);
  }

  lemma Regroup4(sign: string, w: string, tail: string, rest: string)
    ensures sign + w + tail + rest == sign + (w + tail + rest)
  {
  }

  lemma NumeralOfDecimal(d: Decimal)
    ensures NumeralValue(Numeral(d.negative && !IsZero(d), NatToString(d.whole), d.frac, 0)) == Value(d)
  {
    var m := d.whole as real + DigitsValue(d.frac) as real / Pow10(|d.frac|) as real;
    assert Scale(m, 0) == m;
  }

  /** `parseFloat(String(x))` is `x`. */
  lemma RenderRoundTrip(d: Decimal)
    ensures ParseFloat(Render(d)) == Some(Value(d))
  {
    RenderThenParseFloat(d, "");
    assert Render(d) + "" == Render(d);
  }

  /** `parseInt` of a text starting with a digit. */
  lemma ParseIntDigitFirst(b: string)
    requires |b| > 0 && IsDigit(b[0])
    ensures ParseInt(b) == Some(LeadingDigits(b).value)
  {
    TrimStartNoSpace(b);
    assert SignLength(b) == 0 && b[0..] == b;
  }

  /** `parseInt` of a minus sign followed by a text starting with a digit. */
  lemma ParseIntMinus(b: string)
    requires |b| > 0 && IsDigit(b[0])
    ensures ParseInt("-" + b) == Some(-(LeadingDigits(b).value as int))
  {
    var s := "-" + b;
    assert s[0] == '-' && s[1..] == b;
    TrimStartNoSpace(s);
    assert SignLength(s) == 1;
    assert ParseInt(s) == Some(-(LeadingDigits(s[1..]).value as int));
  }

  /** `parseInt(String(x), 10)` truncates `x` toward zero. */
  lemma RenderThenParseInt(d: Decimal)
    ensures ParseInt(Render(d)) == Some(Truncate(d))
  {
    var neg := d.negative && !IsZero(d);
    var b := RenderedMagnitude(d);
    if neg { ParseIntMinus(b); } else { ParseIntDigitFirst(b); }
  }

  /** `String(x)` without its sign: the integer digits lead and read back as the whole part. */
  function RenderedMagnitude(d: Decimal): (b: string)
    ensures |b| > 0 && IsDigit(b[0]) && LeadingDigits(b) == Some(d.whole)
    ensures Render(d) == if d.negative && !IsZero(d) then "-" + b else b
  {
    var w := NatToString(d.whole);
    var tail := if |d.frac| > 0 then "." + d.frac else "";
    DigitRunAppend(w, tail);
    assert (w + tail)[..|w|] == w && (w + tail)[0] == w[0];
    SignRegroup(if d.negative && !IsZero(d) then "-" else "", w, tail);
    w + tail
  }

  lemma SignRegroup(sign: string, w: string, tail: string)
    requires sign == "-" || sign == ""
    ensures sign + w + tail == if sign == "-" then "-" + (w + tail) else w + tail
  {
    if sign == "" {
      assert sign + w == w;
    }
  }

  // ---------------------------------------------------------------------------
  // One text per stored number

  /** The fraction digits' worth. */
  function Fraction(d: Decimal): (f: real)
    ensures 0.0 <= f < 1.0
    ensures f == 0.0 <==> DigitsValue(d.frac) == 0
  {
    DigitsValueBelow(d.frac);
    RatioBelowOne(DigitsValue(d.frac), Pow10(|d.frac|));
    DigitsValue(d.frac) as real / Pow10(|d.frac|) as real
  }

  lemma RatioBelowOne(n: nat, p: nat)
    requires n < p
    ensures 0.0 <= n as real / p as real < 1.0
    ensures n as real / p as real == 0.0 <==> n == 0
  {
    var x := n as real / p as real;
    assert x * p as real == n as real;
  }

  /** Zero is the only number without a sign, and the empty fraction is its only fraction. */
  lemma CanonicalZero(d: Number)
    requires IsZero(d)
    ensures d == Decimal(false, 0, "")
  {
    if |d.frac| > 0 {
      LastDigit(d.frac);
      assert false;
    }
  }

  /** A value is zero exactly when the decimal's digits are all zero. */
  lemma ValueZero(d: Decimal)
    ensures Value(d) == 0.0 <==> IsZero(d)
  {
    var f := Fraction(d);
    assert Value(d) == if d.negative then -(d.whole as real + f) else d.whole as real + f;
  }

  /** Equal fractions without a trailing zero have the same digits. */
  lemma SameFraction(a: Number, b: Number)
    requires Fraction(a) == Fraction(b)
    ensures a.frac == b.frac
  {
    var da, db := DigitsValue(a.frac), DigitsValue(b.frac);
    var pa, pb := Pow10(|a.frac|), Pow10(|b.frac|);
    CrossMultiply(da, pa, db, pb);
    if |a.frac| < |b.frac| {
      ShorterFraction(da, pa, |a.frac|, db, pb, |b.frac|);
      LastDigit(b.frac);
      assert false;
    } else if |b.frac| < |a.frac| {
      ShorterFraction(db, pb, |b.frac|, da, pa, |a.frac|);
      LastDigit(a.frac);
      assert false;
    } else {
      CancelRight(da, db, pa);
      DigitsValueInjective(a.frac, b.frac);
    }
  }

  lemma CrossMultiply(da: nat, pa: nat, db: nat, pb: nat)
    requires pa > 0 && pb > 0
    requires da as real / pa as real == db as real / pb as real
    ensures da * pb == db * pa
  {
    var x := da as real / pa as real;
    assert da as real == x * pa as real;
    assert db as real == x * pb as real;
    assert (da * pb) as real == x * pa as real * pb as real;
    assert (db * pa) as real == x * pb as real * pa as real;
  }

  /** When the shorter fraction is scaled up to the longer one, the longer ends in zero. */
  lemma ShorterFraction(da: nat, pa: nat, ka: nat, db: nat, pb: nat, kb: nat)
    requires ka < kb && pa == Pow10(ka) && pb == Pow10(kb)
    requires da * pb == db * pa
    ensures db % 10 == 0
  {
    var q := Pow10(kb - ka - 1);
    var t := 10 * q;
    Pow10Add(ka, kb - ka);
    assert pb == pa * t;
    Regroup3(da, pa, t);
    CancelRight(da * t, db, pa);
    TimesTenMod(da, q);
  }

  lemma TimesTenMod(x: nat, q: nat)
    ensures (x * (10 * q)) % 10 == 0
  {
    var y := x * q;
    assert x * (10 * q) == 10 * y;
    ModTen(y, 0);
  }

  lemma MulStrict(x: nat, y: nat, p: nat)
    requires x < y && p > 0
    ensures x * p < y * p
  {
  }

  lemma Regroup3(x: nat, y: nat, z: nat)
    ensures x * (y * z) == (x * z) * y
  {
  }

  lemma CancelRight(x: nat, y: nat, p: nat)
    requires p > 0 && x * p == y * p
    ensures x == y
  {
    if x < y {
      MulStrict(x, y, p);
      assert false;
    } else if y < x {
      MulStrict(y, x, p);
      assert false;
    }
  }

  /**
   * Stored numbers with one value are one decimal, so `String` (which `Render` models on
   * them) gives every number one text, and different numbers different texts.
   */
  lemma NumberValueInjective(a: Number, b: Number)
    ensures Value(a) == Value(b) <==> a == b
    ensures Render(a) == Render(b) <==> a == b
  {
    if Value(a) == Value(b) {
      ValueZero(a);
      ValueZero(b);
      if IsZero(a) {
        CanonicalZero(a);
        CanonicalZero(b);
      } else {
        var fa, fb := Fraction(a), Fraction(b);
        assert Value(a) == if a.negative then -(a.whole as real + fa) else a.whole as real + fa;
        assert Value(b) == if b.negative then -(b.whole as real + fb) else b.whole as real + fb;
        assert a.negative == b.negative;
        assert a.whole as real + fa == b.whole as real + fb;
        assert a.whole == b.whole;
        SameFraction(a, b);
      }
    }
    if Render(a) == Render(b) {
      RenderRoundTrip(a);
      RenderRoundTrip(b);
    }
  }

  // ---------------------------------------------------------------------------
  // Form helpers

  /** `parseFloatOrNull`: blank text and text without a numeric prefix give null. */
  function ParseFloatOrNull(v: string): (r: Option<real>)
    ensures r.None? <==> AllSpace(v) || !HasNumericPrefix(TrimStart(v))
  {
    if Trim(v) == "" then None else ParseFloat(v)
  }

  /** `parseIntOrNull`: blank text and text without leading digits give null. */
  function ParseIntOrNull(v: string): (r: Option<int>)
    ensures var t := TrimStart(v); var b := t[SignLength(t)..];
            r.None? <==> AllSpace(v) || !(|b| > 0 && IsDigit(b[0]))
  {
    if Trim(v) == "" then None else ParseInt(v)
  }

  /** `numToStr`: null becomes the empty text, a number its `String` form. */
  function NumToStr(x: Option<Decimal>): (s: string)
    ensures s == "" <==> x.None?
  {
    match x
    case None => ""
    case Some(d) => Render(d)
  }

  /** `String(x)` is never blank: it starts with a digit or a minus sign. */
  lemma RenderNotBlank(d: Decimal)
    ensures Trim(Render(d)) != ""
  {
    var s := Render(d);
    assert !IsSpace(s[0]);
  }

  /** Rendering a stored number into a form field and parsing it back gives the number. */
  lemma NumToStrRoundTrip(x: Option<Decimal>)
    ensures ParseFloatOrNull(NumToStr(x)) == (if x.None? then None else Some(Value(x.value)))
  {
    if x.Some? {
      RenderRoundTrip(x.value);
      RenderNotBlank(x.value);
    }
  }

  /** The same round trip through `parseIntOrNull` truncates toward zero. */
  lemma NumToStrIntRoundTrip(x: Option<Decimal>)
    ensures ParseIntOrNull(NumToStr(x)) == (if x.None? then None else Some(Truncate(x.value)))
  {
    if x.Some? {
      RenderThenParseInt(x.value);
      RenderNotBlank(x.value);
    }
  }
}

=== FILE: profile.dfy ===
/**
 * The profile page (components/profile-page.tsx): the display name and the six
 * personal bests (gym and competition, per lift) edited as text and saved as user metadata.
 */
module Profile {
  import opened Wrappers
  import opened Text
  import opened NumberParse
  import Json

  /** The stored metadata, numbers as they were last written. */
  datatype Metadata = Metadata(
    displayName: string,
    squatGym: Option<Number>, benchGym: Option<Number>, deadliftGym: Option<Number>,
    squatComp: Option<Number>, benchComp: Option<Number>, deadliftComp: Option<Number>)

  /** The metadata sent on save. */
  datatype Saved = Saved(
    displayName: string,
    squatGym: Option<real>, benchGym: Option<real>, deadliftGym: Option<real>,
    squatComp: Option<real>, benchComp: Option<real>, deadliftComp: Option<real>)

  datatype Draft = Draft(
    displayName: string,
    squatGym: string, benchGym: string, deadliftGym: string,
    squatComp: string, benchComp: string, deadliftComp: string)

  /** `buildDraft`: every personal best written with `String`, a missing one as "". */
  function BuildDraft(m: Metadata): (d: Draft)
    ensures d.displayName == m.displayName
    ensures (d.squatGym == "" <==> m.squatGym.None?) && (d.benchGym == "" <==> m.benchGym.None?)
    ensures (d.deadliftGym == "" <==> m.deadliftGym.None?) && (d.squatComp == "" <==> m.squatComp.None?)
    ensures (d.benchComp == "" <==> m.benchComp.None?) && (d.deadliftComp == "" <==> m.deadliftComp.None?)
  {
    Draft(m.displayName, NumToStr(m.squatGym), NumToStr(m.benchGym), NumToStr(m.deadliftGym),
          NumToStr(m.squatComp), NumToStr(m.benchComp), NumToStr(m.deadliftComp))
  }

  /** The metadata `handleSave` sends: the name trimmed, each best read with `parseFloatOrNull`. */
  function SavedOf(d: Draft): Saved {
    Saved(Trim(d.displayName), ParseFloatOrNull(d.squatGym), ParseFloatOrNull(d.benchGym),
          ParseFloatOrNull(d.deadliftGym), ParseFloatOrNull(d.squatComp),
          ParseFloatOrNull(d.benchComp), ParseFloatOrNull(d.deadliftComp))
  }

  function Lower(x: Option<Number>): Option<real> {
    if x.Some? then Some(Value(x.value)) else None
  }

  /** Saving an unedited page writes back the same personal bests and the trimmed name. */
  lemma SavedOfBuildDraft(m: Metadata)
    ensures SavedOf(BuildDraft(m)) ==
            Saved(Trim(m.displayName), Lower(m.squatGym), Lower(m.benchGym), Lower(m.deadliftGym),
                  Lower(m.squatComp), Lower(m.benchComp), Lower(m.deadliftComp))
  {
    NumToStrRoundTrip(m.squatGym);
    NumToStrRoundTrip(m.benchGym);
    NumToStrRoundTrip(m.deadliftGym);
    NumToStrRoundTrip(m.squatComp);
    NumToStrRoundTrip(m.benchComp);
    NumToStrRoundTrip(m.deadliftComp);
  }

  /** The draft as `JSON.stringify` walks it. */
  function DraftMembers(d: Draft): (ms: seq<Json.Member>)
    ensures |ms| == 7
  {
    [Json.Member("display_name", Json.Str(d.displayName)),
     Json.Member("pb_squat_gym", Json.Str(d.squatGym)),
     Json.Member("pb_bench_gym", Json.Str(d.benchGym)),
     Json.Member("pb_deadlift_gym", Json.Str(d.deadliftGym)),
     Json.Member("pb_squat_comp", Json.Str(d.squatComp)),
     Json.Member("pb_bench_comp", Json.Str(d.benchComp)),
     Json.Member("pb_deadlift_comp", Json.Str(d.deadliftComp))]
  }

  /** `draftsEqual`. */
  function DraftsEqual(a: Draft, b: Draft): bool {
    Json.Stringify(DraftMembers(a)) == Json.Stringify(DraftMembers(b))
  }

  lemma DraftsEqualIff(a: Draft, b: Draft)
    ensures DraftsEqual(a, b) <==> a == b
  {
    Json.StringifyInjective(DraftMembers(a), DraftMembers(b));
    if DraftsEqual(a, b) {
      var x, y := DraftMembers(a), DraftMembers(b);
      assert x[0] == y[0] && x[1] == y[1] && x[2] == y[2] && x[3] == y[3];
      assert x[4] == y[4] && x[5] == y[5] && x[6] == y[6];
    }
  }

  /** Save is offered when not saving and something changed. */
  predicate SaveEnabled(isSaving: bool, draft: Draft, original: Draft) {
    !(isSaving || DraftsEqual(draft, original))
  }

  lemma SaveEnabledIff(isSaving: bool, draft: Draft, original: Draft)
    ensures SaveEnabled(isSaving, draft, original) <==> !isSaving && draft != original
  {
    DraftsEqualIff(draft, original);
  }

  datatype Message = Success(text: string) | Failure(text: string)

  datatype Page = Page(draft: Draft, original: Draft, isSaving: bool, message: Option<Message>)

  function Open(m: Metadata): (p: Page)
    ensures !SaveEnabled(p.isSaving, p.draft, p.original)
  {
    DraftsEqualIff(BuildDraft(m), BuildDraft(m));
    Page(BuildDraft(m), BuildDraft(m), false, None)
  }

  /**
   * The end of `handleSave` as written: the original draft is held in state that is
   * never set again, so a successful save leaves it as it was.
   */
  function AfterSaveAsWritten(p: Page, error: Option<string>): (q: Page)
    ensures q.draft == p.draft && q.original == p.original && !q.isSaving
    ensures q.message == Some(if error.Some? then Failure(error.value) else Success("Saved"))
  {
    if error.Some? then Page(p.draft, p.original, false, Some(Failure(error.value)))
    else Page(p.draft, p.original, false, Some(Success("Saved")))
  }

  /** After saving an edit successfully the page as written still offers Save for the same draft. */
  lemma AsWrittenDirtyAfterSave(p: Page)
    requires p.draft != p.original
    ensures var q := AfterSaveAsWritten(p, None);
            q.message == Some(Success("Saved")) && SaveEnabled(q.isSaving, q.draft, q.original)
  {
    SaveEnabledIff(false, p.draft, p.original);
  }

  /** The end of `handleSave` with the saved draft taken as the new original on success. */
  function AfterSave(p: Page, error: Option<string>): (q: Page)
    ensures q.draft == p.draft && !q.isSaving
    ensures q.message == Some(if error.Some? then Failure(error.value) else Success("Saved"))
    ensures error.Some? ==> q.original == p.original
    ensures error.None? ==> !SaveEnabled(q.isSaving, q.draft, q.original)
  {
    if error.Some? then Page(p.draft, p.original, false, Some(Failure(error.value)))
    else
      DraftsEqualIff(p.draft, p.draft);
      Page(p.draft, p.draft, false, Some(Success("Saved")))
  }
}

=== FILE: text.dfy ===
/**
 * Character and string helpers shared by the whole model: JavaScript's white space
 * (as `String.prototype.trim` and `parseFloat` understand it), decimal digits, and
 * the code-unit order that `Array.prototype.sort` uses on strings.
 */
module Text {

  /** JavaScript WhiteSpace and LineTerminator code points. */
  predicate IsSpace(c: char) {
    || c == ' ' || c == '\t' || c == '\n' || c == '\r'
    || c == '\U{000B}' || c == '\U{000C}' || c == '\U{00A0}' || c == '\U{1680}'
    || ('\U{2000}' <= c <= '\U{200A}')
    || c == '\U{2028}' || c == '\U{2029}' || c == '\U{202F}' || c == '\U{205F}'
    || c == '\U{3000}' || c == '\U{FEFF}'
  }

  predicate AllSpace(s: string) {
    forall i :: 0 <= i < |s| ==> IsSpace(s[i])
  }

  /** Number of white-space characters at the start of `s`. */
  function LeadingSpaces(s: string): (n: nat)
    ensures n <= |s|
    ensures forall i :: 0 <= i < n ==> IsSpace(s[i])
    ensures n < |s| ==> !IsSpace(s[n])
  {
    if |s| > 0 && IsSpace(s[0]) then 1 + LeadingSpaces(s[1..]) else 0
  }

  /** Number of white-space characters at the end of `s`. */
  function TrailingSpaces(s: string): (n: nat)
    ensures n <= |s|
    ensures forall i :: |s| - n <= i < |s| ==> IsSpace(s[i])
    ensures n < |s| ==> !IsSpace(s[|s| - n - 1])
  {
    if |s| > 0 && IsSpace(s[|s| - 1]) then 1 + TrailingSpaces(s[..|s| - 1]) else 0
  }

  /** Drops leading white space (the scan `parseFloat` and `parseInt` start with). */
  function TrimStart(s: string): (r: string)
    ensures |r| > 0 ==> !IsSpace(r[0])
    ensures |r| <= |s| && r == s[|s| - |r|..]
    ensures forall i :: 0 <= i < |s| - |r| ==> IsSpace(s[i])
  {
    s[LeadingSpaces(s)..]
  }

  /** `String.prototype.trim`: `s` without its leading and trailing white space. */
  function Trim(s: string): (r: string)
    ensures |r| > 0 ==> !IsSpace(r[0]) && !IsSpace(r[|r| - 1])
    ensures r == "" <==> AllSpace(s)
    ensures LeadingSpaces(s) + |r| <= |s|
    ensures |r| > 0 ==> r == s[LeadingSpaces(s)..LeadingSpaces(s) + |r|]
    ensures forall i :: 0 <= i < |s| && (i < LeadingSpaces(s) || LeadingSpaces(s) + |r| <= i) ==> IsSpace(s[i])
  {
    var t := TrimStart(s);
    var r := t[..|t| - TrailingSpaces(t)];
    r
  }

  /** Trimming is idempotent: a trimmed string trims to itself. */
  lemma TrimIdempotent(s: string)
    ensures Trim(Trim(s)) == Trim(s)
  {
    var r := Trim(s);
    if |r| > 0 {
      assert LeadingSpaces(r) == 0;
      assert TrimStart(r) == r;
      assert TrailingSpaces(r) == 0;
    }
  }

  // ---------------------------------------------------------------------------
  // Decimal digits

  predicate IsDigit(c: char) {
    '0' <= c <= '9'
  }

  predicate AllDigits(s: string) {
    forall i :: 0 <= i < |s| ==> IsDigit(s[i])
  }

  /** A string made only of decimal digits (possibly empty). */
  type DigitString = s: string | AllDigits(s) witness ""

  function DigitValue(c: char): nat
    requires IsDigit(c)
  {
    (c as int) - ('0' as int)
  }

  function DigitChar(d: nat): (c: char)
    requires d < 10
    ensures IsDigit(c) && DigitValue(c) == d
  {
    ('0' as int + d) as char
  }

  function Pow10(k: nat): (p: nat)
    ensures p >= 1
  {
    if k == 0 then 1 else 10 * Pow10(k - 1)
  }

  /** The number a digit string denotes in base ten (0 for the empty string). */
  function DigitsValue(s: string): nat
    requires AllDigits(s)
  {
    if |s| == 0 then 0 else 10 * DigitsValue(s[..|s| - 1]) + DigitValue(s[|s| - 1])
  }

  /** Digits of `a` are worth `10^|b|` times more once `b` is written after them. */
  lemma {:induction false} DigitsValueAppend(a: string, b: string)
    requires AllDigits(a) && AllDigits(b)
    ensures AllDigits(a + b)
    ensures DigitsValue(a + b) == DigitsValue(a) * Pow10(|b|) + DigitsValue(b)
  {
    if |b| == 0 {
      assert a + b == a;
    } else {
      var b' := b[..|b| - 1];
      DigitsValueAppend(a, b');
      assert (a + b)[..|a + b| - 1] == a + b';
      assert (a + b)[|a + b| - 1] == b[|b| - 1];
      var last := DigitValue(b[|b| - 1]);
      assert DigitsValue(a + b) == 10 * DigitsValue(a + b') + last;
      assert DigitsValue(b) == 10 * DigitsValue(b') + last;
      ShiftOneDigit(DigitsValue(a), DigitsValue(b'), Pow10(|b'|), last);
    }
  }

  /** Appending one digit multiplies the place value of the head by ten. */
  lemma ShiftOneDigit(da: nat, db: nat, p: nat, last: nat)
    ensures 10 * (da * p + db) + last == da * (10 * p) + (10 * db + last)
  {
    assert 10 * (da * p) == da * (10 * p);
  }

  /** `k` digits denote less than `10^k`. */
  lemma {:induction false} DigitsValueBelow(s: string)
    requires AllDigits(s)
    ensures DigitsValue(s) < Pow10(|s|)
  {
    if |s| > 0 {
      DigitsValueBelow(s[..|s| - 1]);
    }
  }

  /** The last digit of a non-empty digit string is its value modulo ten. */
  lemma LastDigit(s: string)
    requires AllDigits(s) && |s| > 0
    ensures DigitsValue(s) % 10 == DigitValue(s[|s| - 1])
  {
    var q, d := DigitsValue(s[..|s| - 1]), DigitValue(s[|s| - 1]);
    ModTen(q, d);
  }

  lemma ModTen(q: nat, d: nat)
    requires d < 10
    ensures (10 * q + d) % 10 == d
  {
  }

  /** Two digit strings of one length with one value are the same string. */
  lemma {:induction false} DigitsValueInjective(s: string, t: string)
    requires AllDigits(s) && AllDigits(t) && |s| == |t|
    requires DigitsValue(s) == DigitsValue(t)
    ensures s == t
  {
    if |s| > 0 {
      var n := |s| - 1;
      LastDigit(s);
      LastDigit(t);
      assert DigitValue(s[n]) == DigitValue(t[n]);
      DigitsValueInjective(s[..n], t[..n]);
      assert s == s[..n] + [s[n]] && t == t[..n] + [t[n]];
    }
  }

  /** `10^(k + j) = 10^k * 10^j`. */
  lemma {:induction false} Pow10Add(k: nat, j: nat)
    ensures Pow10(k + j) == Pow10(k) * Pow10(j)
  {
    if j > 0 {
      Pow10Add(k, j - 1);
      assert Pow10(k + j) == 10 * Pow10(k + j - 1);
    }
  }

  /** The decimal rendering of a natural number, without leading zeros. */
  function NatToString(n: nat): (s: string)
    ensures |s| > 0 && AllDigits(s)
    ensures DigitsValue(s) == n
    ensures s[0] == '0' ==> s == "0"
    decreases n
  {
    if n < 10 then [DigitChar(n)]
    else
      var p := NatToString(n / 10);
      var s := p + [DigitChar(n % 10)];
      assert s[..|s| - 1] == p;
      s
  }

  /** The decimal rendering of an integer, as a JavaScript template literal prints it. */
  function IntToString(i: int): (s: string)
    ensures |s| > 0
    ensures i < 0 <==> s[0] == '-'
    ensures i >= 0 ==> AllDigits(s) && DigitsValue(s) == i
    ensures i < 0 ==> AllDigits(s[1..]) && DigitsValue(s[1..]) == -i
  {
    if i < 0 then
      var s := "-" + NatToString(-i);
      assert s[1..] == NatToString(-i);
      s
    else NatToString(i)
  }

  // ---------------------------------------------------------------------------
  // Lexicographic order by character code, as the default `sort()` compares strings

  predicate Lt(a: string, b: string) {
    |b| > 0 && (|a| == 0 || a[0] < b[0] || (a[0] == b[0] && Lt(a[1..], b[1..])))
  }

  lemma {:induction false} LtIrreflexive(a: string)
    ensures !Lt(a, a)
  {
    if |a| > 0 { LtIrreflexive(a[1..]); }
  }

  lemma {:induction false} LtTransitive(a: string, b: string, c: string)
    requires Lt(a, b) && Lt(b, c)
    ensures Lt(a, c)
  {
    if |a| > 0 && a[0] == b[0] && b[0] == c[0] {
      LtTransitive(a[1..], b[1..], c[1..]);
    }
  }

  lemma {:induction false} LtTotal(a: string, b: string)
    requires a != b
    ensures Lt(a, b) || Lt(b, a)
  {
    if |a| > 0 && |b| > 0 && a[0] == b[0] {
      assert a == [a[0]] + a[1..] && b == [b[0]] + b[1..];
      LtTotal(a[1..], b[1..]);
    }
  }

  predicate StrictlySorted(s: seq<string>) {
    forall i, j :: 0 <= i < j < |s| ==> Lt(s[i], s[j])
  }

  predicate Distinct<T(==)>(s: seq<T>) {
    forall i, j :: 0 <= i < j < |s| ==> s[i] != s[j]
  }

  lemma StrictlySortedIsDistinct(s: seq<string>)
    requires StrictlySorted(s)
    ensures Distinct(s)
  {
    forall i, j | 0 <= i < j < |s| ensures s[i] != s[j] {
      LtIrreflexive(s[i]);
    }
  }

  /** Inserts a new string into a strictly sorted list at its place. */
  function InsertSorted(x: string, s: seq<string>): (r: seq<string>)
    requires StrictlySorted(s) && x !in s
    ensures StrictlySorted(r)
    ensures multiset(r) == multiset(s) + multiset{x}
  {
    if |s| == 0 then [x]
    else if Lt(x, s[0]) then
      forall j | 0 < j < |s| ensures Lt(x, s[j]) { LtTransitive(x, s[0], s[j]); }
      [x] + s
    else
      LtTotal(x, s[0]);
      var t := InsertSorted(x, s[1..]);
      BelowAll(s[0], s[1..], x, t);
      SortedCons(s[0], t);
      assert s == [s[0]] + s[1..];
      [s[0]] + t
  }

  /** A string below every entry of a list and below `x` is below every entry of any reordering of both. */
  lemma BelowAll(a: string, rest: seq<string>, x: string, t: seq<string>)
    requires forall k :: 0 <= k < |rest| ==> Lt(a, rest[k])
    requires Lt(a, x) && multiset(t) == multiset(rest) + multiset{x}
    ensures forall j :: 0 <= j < |t| ==> Lt(a, t[j])
  {
    forall j | 0 <= j < |t| ensures Lt(a, t[j]) {
      assert t[j] in multiset(t);
      if t[j] != x {
        assert t[j] in multiset(rest);
        var k :| 0 <= k < |rest| && rest[k] == t[j];
      }
    }
  }

  lemma SortedCons(a: string, t: seq<string>)
    requires StrictlySorted(t) && forall j :: 0 <= j < |t| ==> Lt(a, t[j])
    ensures StrictlySorted([a] + t)
  {
    forall i, j | 0 <= i < j < |[a] + t| ensures Lt(([a] + t)[i], ([a] + t)[j]) {
      assert ([a] + t)[j] == t[j - 1];
      if i > 0 {
        assert ([a] + t)[i] == t[i - 1];
      }
    }
  }

  /** Sorts a list of distinct strings (the default `Array.prototype.sort` on strings). */
  function SortStrings(s: seq<string>): (r: seq<string>)
    requires Distinct(s)
    ensures StrictlySorted(r) && Distinct(r)
    ensures multiset(r) == multiset(s)
  {
    if |s| == 0 then []
    else
      DistinctSplit(s);
      var t := SortStrings(s[1..]);
      assert s[0] !in multiset(t);
      var r := InsertSorted(s[0], t);
      StrictlySortedIsDistinct(r);
      r
  }

  /** The head of a list without repeats is not in its tail, and the tail has no repeats. */
  lemma DistinctSplit<T>(s: seq<T>)
    requires Distinct(s) && |s| > 0
    ensures Distinct(s[1..]) && s[0] !in multiset(s[1..])
    ensures multiset(s) == multiset(s[1..]) + multiset{s[0]}
  {
    assert s == [s[0]] + s[1..];
  }
}

=== FILE: volume.dfy ===
/**
 * Weekly training volume (components/stats-detail.tsx): the tolerant number reader
 * `parseNumber` and `computeVolumeData`, which sums sets x reps x weight per exercise
 * and week over a program's block -> week -> day hierarchy.
 */
module Volume {
  import opened Wrappers
  import opened Text
  import opened NumberParse
  import opened Domain

  // ---------------------------------------------------------------------------
  // parseNumber

  /** The characters `parseNumber` keeps: digits, `.`, `,` and `-`. */
  predicate Kept(c: char) {
    IsDigit(c) || c == '.' || c == ',' || c == '-'
  }

  /** `value.replace(/[^0-9.,-]/g, "")`. */
  function KeepNumeric(s: string): (r: string)
    ensures |r| <= |s|
    ensures forall i :: 0 <= i < |r| ==> Kept(r[i])
    ensures (forall i :: 0 <= i < |s| ==> Kept(s[i])) ==> r == s
    ensures (forall i :: 0 <= i < |s| ==> !Kept(s[i])) ==> r == ""
  {
    if |s| == 0 then ""
    else if Kept(s[0]) then [s[0]] + KeepNumeric(s[1..])
    else KeepNumeric(s[1..])
  }

  lemma {:induction false} KeepNumericAppend(a: string, b: string)
    ensures KeepNumeric(a + b) == KeepNumeric(a) + KeepNumeric(b)
  {
    if |a| == 0 {
      assert a + b == b;
    } else {
      assert (a + b)[1..] == a[1..] + b;
      KeepNumericAppend(a[1..], b);
    }
  }

  /** `.replace(",", ".")`: with a string pattern only the first comma becomes a point. */
  function ReplaceFirstComma(s: string): (r: string)
    ensures |r| == |s|
    ensures forall i :: 0 <= i < |s| ==>
              r[i] == (if s[i] == ',' && ',' !in s[..i] then '.' else s[i])
  {
    if |s| == 0 then ""
    else if s[0] == ',' then "." + s[1..]
    else
      var t := ReplaceFirstComma(s[1..]);
      assert forall i :: 1 <= i <= |s| ==> s[..i] == [s[0]] + s[1..][..i - 1];
      [s[0]] + t
  }

  /** The text `parseNumber` hands to `parseFloat`. */
  function Clean(s: string): string {
    ReplaceFirstComma(KeepNumeric(s))
  }

  /**
   * `parseNumber`: absent or empty text reads as 0; otherwise the cleaned text is read
   * by `parseFloat`, and a text without a numeric prefix reads as 0 instead of NaN.
   */
  function ParseNumber(v: Option<string>): (r: real)
    ensures v.None? || v == Some("") ==> r == 0.0
    ensures v.Some? && !HasNumericPrefix(Clean(v.value)) ==> r == 0.0
    ensures v.Some? && HasNumericPrefix(Clean(v.value)) ==> Some(r) == ParseFloat(Clean(v.value))
  {
    if v.None? || v.value == "" then 0.0
    else
      var c := Clean(v.value);
      if |c| > 0 then assert !IsSpace(c[0]); TrimStartNoSpace(c); ParseFloat(c).GetOr(0.0)
      else ParseFloat(c).GetOr(0.0)
  }

  /** Replacing the first comma of a text whose head has none. */
  lemma {:induction false} ReplaceFirstCommaAt(p: string, f: string)
    requires ',' !in p
    ensures ReplaceFirstComma(p + "," + f) == p + "." + f
  {
    if |p| == 0 {
      SplitAround(p, ",", f);
    } else {
      SplitAround(p, ",", f);
      SplitAround(p, ".", f);
      ReplaceFirstCommaAt(p[1..], f);
    }
  }

  /** `p + mid + f` taken apart at its first character. */
  lemma SplitAround(p: string, mid: string, f: string)
    requires |mid| == 1
    ensures |p| == 0 ==> p + mid + f == [mid[0]] + f && (p + mid + f)[0] == mid[0] && (p + mid + f)[1..] == f
    ensures |p| > 0 ==> (p + mid + f)[0] == p[0] && (p + mid + f)[1..] == p[1..] + mid + f &&
                        p + mid + f == [p[0]] + (p[1..] + mid + f)
  {
    if |p| == 0 {
      assert p + mid + f == [mid[0]] + f;
    } else {
      assert (p + mid + f)[1..] == p[1..] + mid + f;
    }
  }

  /** A text made only of kept characters and without a comma passes `Clean` unchanged. */
  lemma CleanKeepsPlain(s: string)
    requires forall i :: 0 <= i < |s| ==> IsDigit(s[i]) || s[i] == '-' || s[i] == '.'
    ensures Clean(s) == s
  {
    assert KeepNumeric(s) == s;
    ReplaceFirstCommaAt(s, "") by {
      assert ',' !in s by {
        forall i | 0 <= i < |s| ensures s[i] != ',' { }
      }
    }
    forall i | 0 <= i < |s| ensures ReplaceFirstComma(s)[i] == s[i] {
      assert s[i] != ',';
    }
  }

  /** A number written by `String(x)`, followed by a unit or other text without digits, `.`, `,` or `-`, reads as `x`. */
  lemma ParseNumberOfRendered(d: Decimal, junk: string)
    requires forall i :: 0 <= i < |junk| ==> !Kept(junk[i])
    ensures ParseNumber(Some(Render(d) + junk)) == Value(d)
  {
    var s := Render(d);
    KeepNumericAppend(s, junk);
    assert KeepNumeric(s) == s;
    assert KeepNumeric(s + junk) == s;
    CleanKeepsPlain(s);
    RenderThenParseFloat(d, "");
    assert s + "" == s;
  }

  /** `x` written with a decimal comma instead of a point. */
  function RenderComma(d: Decimal): string {
    var sign := if d.negative && !IsZero(d) then "-" else "";
    var tail := if |d.frac| > 0 then "," + d.frac else "";
    sign + NatToString(d.whole) + tail
  }

  lemma CleanRenderComma(d: Decimal)
    ensures Clean(RenderComma(d)) == Render(d)
  {
    var sign := if d.negative && !IsZero(d) then "-" else "";
    var p := sign + NatToString(d.whole);
    if |d.frac| > 0 {
      assert RenderComma(d) == p + "," + d.frac;
      assert Render(d) == p + "." + d.frac;
      assert forall i :: 0 <= i < |p| ==> p[i] == '-' || IsDigit(p[i]);
      assert KeepNumeric(p + "," + d.frac) == p + "," + d.frac;
      assert ',' !in p;
      ReplaceFirstCommaAt(p, d.frac);
    } else {
      assert RenderComma(d) == Render(d);
      CleanKeepsPlain(Render(d));
    }
  }

  /** A number written with a decimal comma reads as the same number. */
  lemma ParseNumberDecimalComma(d: Decimal)
    ensures ParseNumber(Some(RenderComma(d))) == Value(d)
  {
    CleanRenderComma(d);
    RenderThenParseFloat(d, "");
    assert Render(d) + "" == Render(d);
  }

  /** Cell text holding no digit reads as 0. */
  lemma ParseNumberNoNumber(v: string)
    requires forall i :: 0 <= i < |v| ==> !IsDigit(v[i])
    ensures ParseNumber(Some(v)) == 0.0
  {
    KeepNumericNoDigit(v);
    var c := Clean(v);
    assert forall i :: 0 <= i < |c| ==> !IsDigit(c[i]);
    var b := c[SignLength(c)..];
    assert forall i :: 0 <= i < |b| ==> !IsDigit(b[i]);
    assert !HasNumericPrefix(c);
  }

  lemma {:induction false} KeepNumericNoDigit(v: string)
    requires forall i :: 0 <= i < |v| ==> !IsDigit(v[i])
    ensures forall i :: 0 <= i < |KeepNumeric(v)| ==> !IsDigit(KeepNumeric(v)[i])
  {
    if |v| > 0 {
      KeepNumericNoDigit(v[1..]);
    }
  }

  /** Only the first comma is the decimal separator: "1,5,3" reads as 1.5. */
  lemma ParseNumberSecondComma()
    ensures ParseNumber(Some("1,5,3")) == 1.5
  {
    var d := Decimal(false, 1, "5");
    CleanSecondComma();
    OneAndAHalf();
    RenderThenParseFloat(d, ",3");
  }

  lemma CleanSecondComma()
    ensures Clean("1,5,3") == "1.5" + ",3"
  {
    var s := "1,5,3";
    assert forall i :: 0 <= i < |s| ==> Kept(s[i]);
    ReplaceFirstCommaAt("1", "5,3");
    SecondCommaPieces();
  }

  lemma SecondCommaPieces()
    ensures "1" + "," + "5,3" == "1,5,3" && "1" + "." + "5,3" == "1.5" + ",3"
  {
  }

  lemma OneAndAHalf()
    ensures Render(Decimal(false, 1, "5")) == "1.5"
    ensures Value(Decimal(false, 1, "5")) == 1.5
  {
    assert NatToString(1) == "1";
    assert "5"[..0] == "";
    assert DigitsValue("5") == 5;
    assert Pow10(1) == 10;
  }

  // ---------------------------------------------------------------------------
  // The program hierarchy and the week labels

  datatype DayData = DayData(day: Day, columns: seq<Column>, rows: seq<Row>)
  datatype WeekData = WeekData(week: Week, days: seq<DayData>)
  datatype BlockData = BlockData(block: Block, weeks: seq<WeekData>)

  /** `B<block order + 1>W<week number>`, the x-axis label of a week. */
  function WeekLabel(blockOrder: int, weekNumber: int): string {
    "B" + IntToString(blockOrder + 1) + "W" + IntToString(weekNumber)
  }

  lemma IntToStringInjective(i: int, j: int)
    requires IntToString(i) == IntToString(j)
    ensures i == j
  {
    var s := IntToString(i);
    if i < 0 {
      assert j < 0;
      assert DigitsValue(s[1..]) == -i == -j;
    }
  }

  /** The position of the first `W` in a label. */
  function FirstW(s: string): (k: nat)
    ensures k <= |s|
    ensures forall i :: 0 <= i < k ==> s[i] != 'W'
    ensures k < |s| ==> s[k] == 'W'
  {
    if |s| == 0 then 0 else if s[0] == 'W' then 0 else 1 + FirstW(s[1..])
  }

  lemma {:induction false} FirstWAfter(a: string, b: string)
    requires forall i :: 0 <= i < |a| ==> a[i] != 'W'
    ensures FirstW(a + "W" + b) == |a|
  {
    if |a| > 0 {
      assert (a + "W" + b)[1..] == a[1..] + "W" + b;
      FirstWAfter(a[1..], b);
    } else {
      assert (a + "W" + b)[0] == 'W';
    }
  }

  lemma NoW(i: int)
    ensures forall k :: 0 <= k < |IntToString(i)| ==> IntToString(i)[k] != 'W'
  {
    var s := IntToString(i);
    forall k | 0 <= k < |s| ensures s[k] != 'W' {
      if i >= 0 {
        assert IsDigit(s[k]);
      } else if k > 0 {
        assert IsDigit(s[1..][k - 1]);
      }
    }
  }

  lemma SplitAtW(x1: string, y1: string, x2: string, y2: string)
    requires forall i :: 0 <= i < |x1| ==> x1[i] != 'W'
    requires forall i :: 0 <= i < |x2| ==> x2[i] != 'W'
    requires x1 + "W" + y1 == x2 + "W" + y2
    ensures x1 == x2 && y1 == y2
  {
    var t := x1 + "W" + y1;
    FirstWAfter(x1, y1);
    FirstWAfter(x2, y2);
    assert x1 == t[..|x1|];
    assert x2 == t[..|x2|];
    assert y1 == t[|x1| + 1..];
    assert y2 == t[|x2| + 1..];
  }

  lemma DropB(x: string, y: string)
    ensures ("B" + x + "W" + y)[1..] == x + "W" + y
  {
  }

  /** Distinct (block order, week number) pairs get distinct labels. */
  lemma WeekLabelInjective(o1: int, n1: int, o2: int, n2: int)
    requires WeekLabel(o1, n1) == WeekLabel(o2, n2)
    ensures o1 == o2 && n1 == n2
  {
    var x1, y1 := IntToString(o1 + 1), IntToString(n1);
    var x2, y2 := IntToString(o2 + 1), IntToString(n2);
    NoW(o1 + 1);
    NoW(o2 + 1);
    DropB(x1, y1);
    DropB(x2, y2);
    SplitAtW(x1, y1, x2, y2);
    IntToStringInjective(o1 + 1, o2 + 1);
    IntToStringInjective(n1, n2);
  }

  /** The label of every week, blocks and weeks in the order given. */
  function WeekLabels(blocks: seq<BlockData>): (r: seq<string>)
    ensures |r| == WeekCount(blocks)
  {
    if |blocks| == 0 then []
    else BlockLabels(blocks[0]) + WeekLabels(blocks[1..])
  }

  function BlockLabels(b: BlockData): (r: seq<string>)
    ensures |r| == |b.weeks|
    ensures forall i :: 0 <= i < |r| ==> r[i] == WeekLabel(b.block.order, b.weeks[i].week.weekNumber)
  {
    WeekLabelsOf(b.block.order, b.weeks)
  }

  /** The labels of the given weeks of a block with this order. */
  function WeekLabelsOf(order: int, weeks: seq<WeekData>): (r: seq<string>)
    ensures |r| == |weeks|
    ensures forall i :: 0 <= i < |r| ==> r[i] == WeekLabel(order, weeks[i].week.weekNumber)
  {
    if |weeks| == 0 then [] else [WeekLabel(order, weeks[0].week.weekNumber)] + WeekLabelsOf(order, weeks[1..])
  }

  function WeekCount(blocks: seq<BlockData>): nat {
    if |blocks| == 0 then 0 else |blocks[0].weeks| + WeekCount(blocks[1..])
  }

  // ---------------------------------------------------------------------------
  // What each row contributes

  /** The position of the first column with the given label. */
  function FindColumn(cols: seq<Column>, heading: string): (r: Option<nat>)
    ensures r.None? <==> forall i :: 0 <= i < |cols| ==> cols[i].heading != heading
    ensures r.Some? ==> r.value < |cols| && cols[r.value].heading == heading
    ensures r.Some? ==> forall j :: 0 <= j < r.value ==> cols[j].heading != heading
  {
    if |cols| == 0 then None
    else if cols[0].heading == heading then Some(0)
    else match FindColumn(cols[1..], heading)
      case None => None
      case Some(k) => Some(k + 1)
  }

  /** The ids of the exercise, sets, reps and weight columns of a day. */
  datatype StatColumns = StatColumns(exercise: string, sets: string, reps: string, weight: string)

  function DayStatColumns(cols: seq<Column>, settings: StatsSettings): (r: Option<StatColumns>)
    ensures r.Some? <==>
              (exists i :: 0 <= i < |cols| && cols[i].heading == settings.exerciseLabel) &&
              (exists i :: 0 <= i < |cols| && cols[i].heading == settings.setsLabel) &&
              (exists i :: 0 <= i < |cols| && cols[i].heading == settings.repsLabel) &&
              (exists i :: 0 <= i < |cols| && cols[i].heading == settings.weightLabel)
  {
    match (FindColumn(cols, settings.exerciseLabel), FindColumn(cols, settings.setsLabel),
           FindColumn(cols, settings.repsLabel), FindColumn(cols, settings.weightLabel))
    case (Some(e), Some(s), Some(r), Some(w)) =>
      Some(StatColumns(cols[e].id, cols[s].id, cols[r].id, cols[w].id))
    case _ => None
  }

  function Cell(row: Row, id: string): Option<string> {
    if id in row.cells then Some(row.cells[id]) else None
  }

  /** sets x reps x weight, each read by `parseNumber`. */
  function RowVolume(row: Row, sc: StatColumns): real {
    ParseNumber(Cell(row, sc.sets)) * ParseNumber(Cell(row, sc.reps)) * ParseNumber(Cell(row, sc.weight))
  }

  /** One row's volume for one exercise in the week with the given label. */
  datatype Contribution = Contribution(exercise: string, weekLabel: string, volume: real)

  /** A row counts when its exercise cell is present and not blank and its volume is positive. */
  function RowContribution(row: Row, sc: StatColumns, weekLabel: string): (r: Option<Contribution>)
    ensures r.Some? ==> r.value.exercise != "" && r.value.weekLabel == weekLabel && r.value.volume > 0.0
    ensures r.Some? ==> Cell(row, sc.exercise).Some? && r.value.exercise == Trim(Cell(row, sc.exercise).value) &&
                        r.value.volume == RowVolume(row, sc)
    ensures r.None? <==> Cell(row, sc.exercise).None? || Trim(Cell(row, sc.exercise).value) == ""
                         || RowVolume(row, sc) <= 0.0
  {
    match Cell(row, sc.exercise)
    case None => None
    case Some(text) =>
      var exercise := Trim(text);
      var v := RowVolume(row, sc);
      if exercise == "" || v <= 0.0 then None else Some(Contribution(exercise, weekLabel, v))
  }

  predicate Valid(cs: seq<Contribution>, labels: seq<string>) {
    forall i :: 0 <= i < |cs| ==> cs[i].exercise != "" && cs[i].volume > 0.0 && cs[i].weekLabel in labels
  }

  lemma ValidCons(c: Contribution, rest: seq<Contribution>, labels: seq<string>)
    requires c.exercise != "" && c.volume > 0.0 && c.weekLabel in labels && Valid(rest, labels)
    ensures Valid([c] + rest, labels)
  {
    var r := [c] + rest;
    assert forall i :: 1 <= i < |r| ==> r[i] == rest[i - 1];
  }

  lemma ValidAppend(a: seq<Contribution>, b: seq<Contribution>, la: seq<string>, lb: seq<string>)
    requires Valid(a, la) && Valid(b, lb)
    ensures Valid(a + b, la + lb)
  {
    var r := a + b;
    forall i | 0 <= i < |r|
      ensures r[i].exercise != "" && r[i].volume > 0.0 && r[i].weekLabel in la + lb
    {
      if i < |a| { assert r[i] == a[i]; } else { assert r[i] == b[i - |a|]; }
    }
  }

  function RowsContributions(rows: seq<Row>, sc: StatColumns, weekLabel: string): (r: seq<Contribution>)
    ensures |r| <= |rows|
    ensures Valid(r, [weekLabel])
  {
    if |rows| == 0 then []
    else
      var rest := RowsContributions(rows[1..], sc, weekLabel);
      var h := RowContribution(rows[0], sc, weekLabel);
      if h.None? then rest
      else
        ValidCons(h.value, rest, [weekLabel]);
        [h.value] + rest
  }

  /** A day lacking any of the four columns contributes nothing. */
  function DayContributions(d: DayData, settings: StatsSettings, weekLabel: string): (r: seq<Contribution>)
    ensures Valid(r, [weekLabel])
    ensures DayStatColumns(d.columns, settings).None? ==> r == []
  {
    match DayStatColumns(d.columns, settings)
    case None => []
    case Some(sc) => RowsContributions(d.rows, sc, weekLabel)
  }

  function DaysContributions(days: seq<DayData>, settings: StatsSettings, weekLabel: string): (r: seq<Contribution>)
    ensures Valid(r, [weekLabel])
  {
    if |days| == 0 then [] else DayContributions(days[0], settings, weekLabel) + DaysContributions(days[1..], settings, weekLabel)
  }

  function WeeksContributions(order: int, weeks: seq<WeekData>, settings: StatsSettings): (r: seq<Contribution>)
    ensures Valid(r, WeekLabelsOf(order, weeks))
  {
    if |weeks| == 0 then []
    else
      var weekLabel := WeekLabel(order, weeks[0].week.weekNumber);
      var head := DaysContributions(weeks[0].days, settings, weekLabel);
      var rest := WeeksContributions(order, weeks[1..], settings);
      ValidAppend(head, rest, [weekLabel], WeekLabelsOf(order, weeks[1..]));
      head + rest
  }

  /** Every counted row of the program, in traversal order. */
  function Contributions(blocks: seq<BlockData>, settings: StatsSettings): (r: seq<Contribution>)
    ensures Valid(r, WeekLabels(blocks))
  {
    if |blocks| == 0 then []
    else
      var b := blocks[0];
      var head := WeeksContributions(b.block.order, b.weeks, settings);
      var rest := Contributions(blocks[1..], settings);
      ValidAppend(head, rest, BlockLabels(b), WeekLabels(blocks[1..]));
      head + rest
  }

  // ---------------------------------------------------------------------------
  // Summing per exercise and week

  /** Reference sum: the volume of every contribution to exercise `e` in the week labelled `l`. */
  function SumFor(cs: seq<Contribution>, e: string, l: string): real
    decreases |cs|
  {
    if |cs| == 0 then 0.0
    else
      var c := cs[|cs| - 1];
      SumFor(cs[..|cs| - 1], e, l) + (if c.exercise == e && c.weekLabel == l then c.volume else 0.0)
  }

  predicate Mentions(cs: seq<Contribution>, e: string, l: string) {
    exists i :: 0 <= i < |cs| && cs[i].exercise == e && cs[i].weekLabel == l
  }

  predicate Names(cs: seq<Contribution>, e: string) {
    exists i :: 0 <= i < |cs| && cs[i].exercise == e
  }

  lemma {:induction false} SumForUnmentioned(cs: seq<Contribution>, e: string, l: string)
    requires !Mentions(cs, e, l)
    ensures SumFor(cs, e, l) == 0.0
    decreases |cs|
  {
    if |cs| > 0 {
      var p := cs[..|cs| - 1];
      assert forall i :: 0 <= i < |p| ==> p[i] == cs[i];
      SumForUnmentioned(p, e, l);
      assert !(cs[|cs| - 1].exercise == e && cs[|cs| - 1].weekLabel == l);
    }
  }

  lemma {:induction false} SumForPositive(cs: seq<Contribution>, e: string, l: string)
    requires forall i :: 0 <= i < |cs| ==> cs[i].volume > 0.0
    requires Mentions(cs, e, l)
    ensures SumFor(cs, e, l) > 0.0
    decreases |cs|
  {
    var p := cs[..|cs| - 1];
    var c := cs[|cs| - 1];
    if c.exercise == e && c.weekLabel == l {
      SumForNonNegative(p, e, l);
    } else {
      var i :| 0 <= i < |cs| && cs[i].exercise == e && cs[i].weekLabel == l;
      assert i < |p| && p[i] == cs[i];
      SumForPositive(p, e, l);
    }
  }

  lemma {:induction false} SumForNonNegative(cs: seq<Contribution>, e: string, l: string)
    requires forall i :: 0 <= i < |cs| ==> cs[i].volume > 0.0
    ensures SumFor(cs, e, l) >= 0.0
    decreases |cs|
  {
    if |cs| > 0 {
      SumForNonNegative(cs[..|cs| - 1], e, l);
    }
  }

  /** `exerciseVolumes`: per exercise, per week label, the summed volume; `order` lists the exercises as first met. */
  datatype Table = Table(volumes: map<string, map<string, real>>, order: seq<string>)

  predicate Has(t: Table, e: string, l: string) {
    e in t.volumes && l in t.volumes[e]
  }

  function VolumeAt(t: Table, e: string, l: string): real
    requires Has(t, e, l)
  {
    t.volumes[e][l]
  }

  /** The record after adding the contributions in order, one `+=` per counted row. */
  function Accumulate(cs: seq<Contribution>): (t: Table)
    ensures Distinct(t.order)
    ensures forall e :: e in t.volumes <==> e in t.order
    decreases |cs|
  {
    if |cs| == 0 then Table(map[], [])
    else
      var t := Accumulate(cs[..|cs| - 1]);
      var c := cs[|cs| - 1];
      if c.exercise in t.volumes then
        var inner := t.volumes[c.exercise];
        var sofar := if c.weekLabel in inner then inner[c.weekLabel] else 0.0;
        Table(t.volumes[c.exercise := inner[c.weekLabel := sofar + c.volume]], t.order)
      else
        var o := t.order + [c.exercise];
        assert forall i :: 0 <= i < |t.order| ==> o[i] == t.order[i];
        Table(t.volumes[c.exercise := map[c.weekLabel := c.volume]], o)
  }

  lemma NamesLast(cs: seq<Contribution>, e: string)
    requires |cs| > 0
    ensures Names(cs, e) <==> Names(cs[..|cs| - 1], e) || cs[|cs| - 1].exercise == e
  {
    var p := cs[..|cs| - 1];
    assert forall i :: 0 <= i < |p| ==> p[i] == cs[i];
    if Names(cs, e) && cs[|cs| - 1].exercise != e {
      var i :| 0 <= i < |cs| && cs[i].exercise == e;
      assert p[i] == cs[i];
    }
  }

  lemma MentionsLast(cs: seq<Contribution>, e: string, l: string)
    requires |cs| > 0
    ensures Mentions(cs, e, l) <==>
            Mentions(cs[..|cs| - 1], e, l) || (cs[|cs| - 1].exercise == e && cs[|cs| - 1].weekLabel == l)
  {
    var p := cs[..|cs| - 1];
    assert forall i :: 0 <= i < |p| ==> p[i] == cs[i];
    if Mentions(cs, e, l) && !(cs[|cs| - 1].exercise == e && cs[|cs| - 1].weekLabel == l) {
      var i :| 0 <= i < |cs| && cs[i].exercise == e && cs[i].weekLabel == l;
      assert p[i] == cs[i];
    }
  }

  /** The record holds exactly the exercises and the (exercise, week) pairs that occur. */
  lemma {:induction false} AccumulateKeys(cs: seq<Contribution>)
    ensures forall e :: e in Accumulate(cs).volumes <==> Names(cs, e)
    ensures forall e, l :: Has(Accumulate(cs), e, l) <==> Mentions(cs, e, l)
    decreases |cs|
  {
    if |cs| > 0 {
      AccumulateKeys(cs[..|cs| - 1]);
      forall e ensures e in Accumulate(cs).volumes <==> Names(cs, e) {
        NamesLast(cs, e);
      }
      forall e, l ensures Has(Accumulate(cs), e, l) <==> Mentions(cs, e, l) {
        MentionsLast(cs, e, l);
      }
    }
  }

  /** Each entry of the record is the reference sum of its exercise and week. */
  lemma {:induction false} AccumulateSums(cs: seq<Contribution>)
    ensures forall e, l :: Has(Accumulate(cs), e, l) ==> VolumeAt(Accumulate(cs), e, l) == SumFor(cs, e, l)
    decreases |cs|
  {
    if |cs| > 0 {
      var p := cs[..|cs| - 1];
      var c := cs[|cs| - 1];
      AccumulateSums(p);
      AccumulateKeys(p);
      var t0 := Accumulate(p);
      var t := Accumulate(cs);
      forall e, l | Has(t, e, l) ensures VolumeAt(t, e, l) == SumFor(cs, e, l) {
        if c.exercise == e && c.weekLabel == l && !Has(t0, e, l) {
          SumForUnmentioned(p, e, l);
        }
      }
    }
  }

  // ---------------------------------------------------------------------------
  // The sums read straight off the hierarchy

  /** What one row adds to exercise `e`: sets x reps x weight when its trimmed exercise cell is `e` and that product is positive. */
  function RowVolumeFor(row: Row, sc: StatColumns, e: string): real {
    if e != "" && Cell(row, sc.exercise).Some? && Trim(Cell(row, sc.exercise).value) == e && RowVolume(row, sc) > 0.0
    then RowVolume(row, sc) else 0.0
  }

  function RowsVolumeFor(rows: seq<Row>, sc: StatColumns, e: string): real {
    if |rows| == 0 then 0.0 else RowVolumeFor(rows[0], sc, e) + RowsVolumeFor(rows[1..], sc, e)
  }

  /** A day's volume for `e`: nothing when one of the four headings is missing. */
  function DayVolumeFor(d: DayData, settings: StatsSettings, e: string): real {
    match DayStatColumns(d.columns, settings)
    case None => 0.0
    case Some(sc) => RowsVolumeFor(d.rows, sc, e)
  }

  function DaysVolumeFor(days: seq<DayData>, settings: StatsSettings, e: string): real {
    if |days| == 0 then 0.0 else DayVolumeFor(days[0], settings, e) + DaysVolumeFor(days[1..], settings, e)
  }

  /** The volume for `e` of the weeks of a block with this order whose label is `l`. */
  function WeeksVolumeFor(order: int, weeks: seq<WeekData>, settings: StatsSettings, e: string, l: string): real {
    if |weeks| == 0 then 0.0
    else
      var head := if WeekLabel(order, weeks[0].week.weekNumber) == l then DaysVolumeFor(weeks[0].days, settings, e) else 0.0;
      head + WeeksVolumeFor(order, weeks[1..], settings, e, l)
  }

  /**
   * The volume of exercise `e` in the weeks labelled `l`, over the whole program: the sum of
   * sets x reps x weight over the rows of those weeks' days that have all four columns, whose
   * trimmed exercise cell is `e` and whose product is positive.
   */
  function ProgramVolume(blocks: seq<BlockData>, settings: StatsSettings, e: string, l: string): real {
    if |blocks| == 0 then 0.0
    else WeeksVolumeFor(blocks[0].block.order, blocks[0].weeks, settings, e, l) + ProgramVolume(blocks[1..], settings, e, l)
  }

  lemma {:induction false} SumForAppend(a: seq<Contribution>, b: seq<Contribution>, e: string, l: string)
    ensures SumFor(a + b, e, l) == SumFor(a, e, l) + SumFor(b, e, l)
    decreases |b|
  {
    if |b| == 0 {
      assert a + b == a;
    } else {
      var b0 := b[..|b| - 1];
      assert (a + b)[..|a + b| - 1] == a + b0;
      assert (a + b)[|a + b| - 1] == b[|b| - 1];
      SumForAppend(a, b0, e, l);
    }
  }

  lemma SumForSingle(c: Contribution, e: string, l: string)
    ensures SumFor([c], e, l) == if c.exercise == e && c.weekLabel == l then c.volume else 0.0
  {
    assert [c][..0] == [];
  }

  /** A list of rows contributes to the pair (`e`, `l`) exactly its rows' volume for `e`, when `l` is their week's label. */
  lemma {:induction false} RowsContributionsSum(rows: seq<Row>, sc: StatColumns, weekLabel: string, e: string, l: string)
    ensures SumFor(RowsContributions(rows, sc, weekLabel), e, l) ==
            if l == weekLabel then RowsVolumeFor(rows, sc, e) else 0.0
  {
    if |rows| > 0 {
      var rest := RowsContributions(rows[1..], sc, weekLabel);
      var h := RowContribution(rows[0], sc, weekLabel);
      RowsContributionsSum(rows[1..], sc, weekLabel, e, l);
      if h.Some? {
        SumForAppend([h.value], rest, e, l);
        SumForSingle(h.value, e, l);
      }
    }
  }

  lemma {:induction false} DaysContributionsSum(days: seq<DayData>, settings: StatsSettings, weekLabel: string, e: string, l: string)
    ensures SumFor(DaysContributions(days, settings, weekLabel), e, l) ==
            if l == weekLabel then DaysVolumeFor(days, settings, e) else 0.0
  {
    if |days| > 0 {
      var d := days[0];
      SumForAppend(DayContributions(d, settings, weekLabel), DaysContributions(days[1..], settings, weekLabel), e, l);
      DaysContributionsSum(days[1..], settings, weekLabel, e, l);
      match DayStatColumns(d.columns, settings)
      case None =>
      case Some(sc) => RowsContributionsSum(d.rows, sc, weekLabel, e, l);
    }
  }

  lemma {:induction false} WeeksContributionsSum(order: int, weeks: seq<WeekData>, settings: StatsSettings, e: string, l: string)
    ensures SumFor(WeeksContributions(order, weeks, settings), e, l) == WeeksVolumeFor(order, weeks, settings, e, l)
  {
    if |weeks| > 0 {
      var weekLabel := WeekLabel(order, weeks[0].week.weekNumber);
      SumForAppend(DaysContributions(weeks[0].days, settings, weekLabel), WeeksContributions(order, weeks[1..], settings), e, l);
      DaysContributionsSum(weeks[0].days, settings, weekLabel, e, l);
      WeeksContributionsSum(order, weeks[1..], settings, e, l);
    }
  }

  /** The counted rows of the program add up, per exercise and label, to the volume read off the hierarchy. */
  lemma {:induction false} ContributionsSum(blocks: seq<BlockData>, settings: StatsSettings, e: string, l: string)
    ensures SumFor(Contributions(blocks, settings), e, l) == ProgramVolume(blocks, settings, e, l)
  {
    if |blocks| > 0 {
      var b := blocks[0];
      SumForAppend(WeeksContributions(b.block.order, b.weeks, settings), Contributions(blocks[1..], settings), e, l);
      WeeksContributionsSum(b.block.order, b.weeks, settings, e, l);
      ContributionsSum(blocks[1..], settings, e, l);
    }
  }

  /** A pair has a counted row iff its volume read off the hierarchy is positive. */
  lemma ContributionsMention(blocks: seq<BlockData>, settings: StatsSettings, e: string, l: string)
    ensures Mentions(Contributions(blocks, settings), e, l) <==> ProgramVolume(blocks, settings, e, l) > 0.0
  {
    var cs := Contributions(blocks, settings);
    ContributionsSum(blocks, settings, e, l);
    if Mentions(cs, e, l) {
      SumForPositive(cs, e, l);
    } else {
      SumForUnmentioned(cs, e, l);
    }
  }

  // ---------------------------------------------------------------------------
  // The chart data

  /** One x-axis point: the week's label and the volume of each exercise trained that week. */
  datatype WeekPoint = WeekPoint(weekLabel: string, volumes: map<string, real>)

  datatype VolumeData = VolumeData(points: seq<WeekPoint>, exercises: seq<string>)

  /** The point of every week label, reading the summed record; only listed exercises appear. */
  function Points(labels: seq<string>, t: Table, exercises: seq<string>): (r: seq<WeekPoint>)
    ensures |r| == |labels|
    ensures forall i :: 0 <= i < |r| ==> r[i].weekLabel == labels[i]
    ensures forall i, e :: 0 <= i < |r| ==> (e in r[i].volumes <==> e in exercises && Has(t, e, labels[i]))
    ensures forall i, e :: 0 <= i < |r| && e in r[i].volumes ==> Has(t, e, labels[i]) && r[i].volumes[e] == VolumeAt(t, e, labels[i])
  {
    seq(|labels|, i requires 0 <= i < |labels| =>
      WeekPoint(labels[i], map e | e in exercises && Has(t, e, labels[i]) :: VolumeAt(t, e, labels[i])))
  }

  /** The chart data of a list of counted rows and the week labels. */
  function Summarise(cs: seq<Contribution>, labels: seq<string>): (r: VolumeData)
    requires forall i :: 0 <= i < |cs| ==> cs[i].volume > 0.0
    ensures |r.points| == |labels| && forall i :: 0 <= i < |labels| ==> r.points[i].weekLabel == labels[i]
    ensures StrictlySorted(r.exercises)
    ensures forall e :: e in r.exercises <==> Names(cs, e)
    ensures forall i, e :: 0 <= i < |r.points| ==> (e in r.points[i].volumes <==> Mentions(cs, e, labels[i]))
    ensures forall i, e :: 0 <= i < |r.points| && e in r.points[i].volumes ==>
              r.points[i].volumes[e] == SumFor(cs, e, labels[i]) && r.points[i].volumes[e] > 0.0
  {
    var t := Accumulate(cs);
    AccumulateKeys(cs);
    AccumulateSums(cs);
    var exercises := SortStrings(t.order);
    SortedOrder(t);
    var points := Points(labels, t, exercises);
    assert forall i, e :: 0 <= i < |points| && e in points[i].volumes ==> points[i].volumes[e] > 0.0 by {
      forall i, e | 0 <= i < |points| && e in points[i].volumes ensures points[i].volumes[e] > 0.0 {
        SumForPositive(cs, e, labels[i]);
      }
    }
    VolumeData(points, exercises)
  }

  /**
   * `computeVolumeData`: one point per week in hierarchy order, carrying only the
   * exercises with volume that week, and every exercise name once, sorted.
   */
  function ComputeVolumeData(blocks: seq<BlockData>, settings: StatsSettings): (r: VolumeData)
    ensures var labels := WeekLabels(blocks);
            |r.points| == |labels| &&
            forall i :: 0 <= i < |labels| ==> r.points[i].weekLabel == labels[i]
    ensures StrictlySorted(r.exercises)
    ensures var cs := Contributions(blocks, settings);
            forall e :: e in r.exercises <==> Names(cs, e)
    ensures var labels, cs := WeekLabels(blocks), Contributions(blocks, settings);
            forall i, e :: 0 <= i < |r.points| ==>
              (e in r.points[i].volumes <==> Mentions(cs, e, labels[i]))
    ensures var labels, cs := WeekLabels(blocks), Contributions(blocks, settings);
            forall i, e :: 0 <= i < |r.points| && e in r.points[i].volumes ==>
              r.points[i].volumes[e] == SumFor(cs, e, labels[i]) && r.points[i].volumes[e] > 0.0
    ensures var labels := WeekLabels(blocks);
            forall e :: e in r.exercises <==> exists i :: 0 <= i < |labels| && ProgramVolume(blocks, settings, e, labels[i]) > 0.0
    ensures var labels := WeekLabels(blocks);
            forall i, e :: 0 <= i < |r.points| ==>
              (e in r.points[i].volumes <==> ProgramVolume(blocks, settings, e, labels[i]) > 0.0)
    ensures var labels := WeekLabels(blocks);
            forall i, e :: 0 <= i < |r.points| && e in r.points[i].volumes ==>
              r.points[i].volumes[e] == ProgramVolume(blocks, settings, e, labels[i])
  {
    ProgramVolumeAgrees(blocks, settings);
    Summarise(Contributions(blocks, settings), WeekLabels(blocks))
  }

  /** The counted rows and the volumes read off the hierarchy agree on every pair, and every counted row is of a walked week. */
  lemma ProgramVolumeAgrees(blocks: seq<BlockData>, settings: StatsSettings)
    ensures var cs := Contributions(blocks, settings);
            forall e, l :: (Mentions(cs, e, l) <==> ProgramVolume(blocks, settings, e, l) > 0.0) &&
                           SumFor(cs, e, l) == ProgramVolume(blocks, settings, e, l)
    ensures var cs, labels := Contributions(blocks, settings), WeekLabels(blocks);
            forall e :: Names(cs, e) <==> exists i :: 0 <= i < |labels| && Mentions(cs, e, labels[i])
  {
    var cs := Contributions(blocks, settings);
    forall e, l ensures (Mentions(cs, e, l) <==> ProgramVolume(blocks, settings, e, l) > 0.0) &&
                        SumFor(cs, e, l) == ProgramVolume(blocks, settings, e, l) {
      ContributionsMention(blocks, settings, e, l);
      ContributionsSum(blocks, settings, e, l);
    }
    NamesInLabels(cs, WeekLabels(blocks));
  }

  /** When every contribution is of a listed week, an exercise is named iff it is mentioned for a listed week. */
  lemma NamesInLabels(cs: seq<Contribution>, labels: seq<string>)
    requires Valid(cs, labels)
    ensures forall e :: Names(cs, e) <==> exists i :: 0 <= i < |labels| && Mentions(cs, e, labels[i])
  {
    forall e | Names(cs, e) ensures exists i :: 0 <= i < |labels| && Mentions(cs, e, labels[i]) {
      var j :| 0 <= j < |cs| && cs[j].exercise == e;
      var i :| 0 <= i < |labels| && labels[i] == cs[j].weekLabel;
      assert Mentions(cs, e, labels[i]);
    }
  }

  /** A day with Exercise, Sets, Reps and Weight columns and two rows of Squat, 3 x 5 at 100 (the second name padded with spaces). */
  function SquatDay(): DayData {
    var cols := [Column("ce", "d", "Exercise", 0), Column("cs", "d", "Sets", 1),
                 Column("cr", "d", "Reps", 2), Column("cw", "d", "Weight", 3)];
    DayData(Day("d", "w", 1, None, None), cols, [SquatRow("r1", 0, "Squat"), SquatRow("r2", 1, " Squat ")])
  }

  function SquatRow(id: string, order: int, name: string): Row {
    Row(id, "d", order, map["ce" := name, "cs" := "3", "cr" := "5", "cw" := "100"])
  }

  /** The program of the first block (order 0), whose week 1 holds the Squat day. */
  function SquatProgram(): seq<BlockData> {
    [BlockData(Block("b", "p", "Block 1", 0), [WeekData(Week("w", "b", 1), [SquatDay()])])]
  }

  function SquatSettings(): StatsSettings {
    StatsSettings("Exercise", "Sets", "Reps", "Weight")
  }

  /** The two Squat rows add up to 3000 in week B1W1, and nothing else is charted. */
  lemma TwoSquatRows()
    ensures var r := ComputeVolumeData(SquatProgram(), SquatSettings());
            r.exercises == ["Squat"] && |r.points| == 1 && r.points[0].weekLabel == "B1W1" &&
            r.points[0].volumes == map["Squat" := 3000.0]
  {
    SquatLabels();
    forall e ensures ProgramVolume(SquatProgram(), SquatSettings(), e, "B1W1") == if e == "Squat" then 3000.0 else 0.0 {
      SquatVolume(e);
    }
    OneExerciseOneWeek(SquatProgram(), SquatSettings(), "Squat", "B1W1", 3000.0);
  }

  /** A one-week program in which only exercise `e0` has volume charts one point holding just that exercise. */
  lemma OneExerciseOneWeek(blocks: seq<BlockData>, settings: StatsSettings, e0: string, l0: string, v: real)
    requires WeekLabels(blocks) == [l0] && v > 0.0
    requires forall e :: ProgramVolume(blocks, settings, e, l0) == if e == e0 then v else 0.0
    ensures var r := ComputeVolumeData(blocks, settings);
            r.exercises == [e0] && |r.points| == 1 && r.points[0].weekLabel == l0 && r.points[0].volumes == map[e0 := v]
  {
    OneExerciseListed(blocks, settings, e0, l0, v);
    OneExercisePoint(blocks, settings, e0, l0, v);
  }

  lemma OneExercisePoint(blocks: seq<BlockData>, settings: StatsSettings, e0: string, l0: string, v: real)
    requires WeekLabels(blocks) == [l0] && v > 0.0
    requires forall e :: ProgramVolume(blocks, settings, e, l0) == if e == e0 then v else 0.0
    ensures var r := ComputeVolumeData(blocks, settings);
            |r.points| == 1 && r.points[0].weekLabel == l0 && r.points[0].volumes == map[e0 := v]
  {
    var r := ComputeVolumeData(blocks, settings);
    var m := r.points[0].volumes;
    assert WeekLabels(blocks)[0] == l0;
    forall e ensures e in m <==> e == e0 {
      assert ProgramVolume(blocks, settings, e, WeekLabels(blocks)[0]) == if e == e0 then v else 0.0;
    }
    assert m[e0] == ProgramVolume(blocks, settings, e0, WeekLabels(blocks)[0]);
    OnlyKey(m, e0, v);
  }

  /** A map whose only key is `k`, holding `v`, is `map[k := v]`. */
  lemma OnlyKey(m: map<string, real>, k: string, v: real)
    requires (forall e :: e in m <==> e == k) && k in m && m[k] == v
    ensures m == map[k := v]
  {
  }

  lemma OneExerciseListed(blocks: seq<BlockData>, settings: StatsSettings, e0: string, l0: string, v: real)
    requires WeekLabels(blocks) == [l0] && v > 0.0
    requires forall e :: ProgramVolume(blocks, settings, e, l0) == if e == e0 then v else 0.0
    ensures ComputeVolumeData(blocks, settings).exercises == [e0]
  {
    var ex := ComputeVolumeData(blocks, settings).exercises;
    forall e ensures e in ex <==> e == e0 {
      assert WeekLabels(blocks)[0] == l0;
    }
    StrictlySortedIsDistinct(ex);
    OnlyElement(ex, e0);
  }

  /** A duplicate-free list holding exactly `x` is `[x]`. */
  lemma OnlyElement(s: seq<string>, x: string)
    requires Distinct(s) && forall e :: e in s <==> e == x
    ensures s == [x]
  {
    assert x in s;
    var k := if |s| > 1 then 1 else 0;
    assert s[0] in s && s[k] in s;
    assert |s| <= 1;
  }

  lemma SquatLabels()
    ensures WeekLabels(SquatProgram()) == ["B1W1"]
  {
    FirstWeekLabel();
    assert BlockLabels(SquatProgram()[0]) == ["B1W1"];
  }

  /** The program's volume in week B1W1: 3000 for Squat, nothing for any other name. */
  lemma SquatVolume(e: string)
    ensures ProgramVolume(SquatProgram(), SquatSettings(), e, "B1W1") == if e == "Squat" then 3000.0 else 0.0
  {
    var day := SquatDay();
    SquatDayVolume(e);
    var weeks := SquatProgram()[0].weeks;
    FirstWeekLabel();
    assert DaysVolumeFor(weeks[0].days, SquatSettings(), e) == DayVolumeFor(day, SquatSettings(), e);
    assert WeeksVolumeFor(0, weeks, SquatSettings(), e, "B1W1") == DayVolumeFor(day, SquatSettings(), e);
  }

  lemma SquatDayVolume(e: string)
    ensures DayVolumeFor(SquatDay(), SquatSettings(), e) == if e == "Squat" then 3000.0 else 0.0
  {
    var sc := StatColumns("ce", "cs", "cr", "cw");
    var a, b := SquatRow("r1", 0, "Squat"), SquatRow("r2", 1, " Squat ");
    PlainSquatRow(e);
    PaddedSquatRow(e);
    assert DayVolumeFor(SquatDay(), SquatSettings(), e) == RowsVolumeFor([a, b], sc, e) by {
      SquatColumns();
    }
    RowsVolumeForTwo(a, b, sc, e);
  }

  lemma PlainSquatRow(e: string)
    ensures RowVolumeFor(SquatRow("r1", 0, "Squat"), StatColumns("ce", "cs", "cr", "cw"), e) ==
            if e == "Squat" then 1500.0 else 0.0
  {
    TrimPlain("Squat");
    SquatRowVolume("r1", 0, "Squat", e);
  }

  lemma PaddedSquatRow(e: string)
    ensures RowVolumeFor(SquatRow("r2", 1, " Squat "), StatColumns("ce", "cs", "cr", "cw"), e) ==
            if e == "Squat" then 1500.0 else 0.0
  {
    TrimSquat();
    SquatRowVolume("r2", 1, " Squat ", e);
  }

  lemma TrimSquat()
    ensures Trim(" Squat ") == "Squat"
  {
    TrimPadded("Squat");
    assert " " + "Squat" + " " == " Squat ";
  }

  lemma RowsVolumeForTwo(a: Row, b: Row, sc: StatColumns, e: string)
    ensures RowsVolumeFor([a, b], sc, e) == RowVolumeFor(a, sc, e) + RowVolumeFor(b, sc, e)
  {
    assert [b][1..] == [];
    assert RowsVolumeFor([b], sc, e) == RowVolumeFor(b, sc, e);
    assert [a, b][1..] == [b];
  }

  lemma FirstWeekLabel()
    ensures WeekLabel(0, 1) == "B1W1"
  {
    assert IntToString(1) == "1";
  }

  lemma SquatColumns()
    ensures DayStatColumns(SquatDay().columns, SquatSettings()) == Some(StatColumns("ce", "cs", "cr", "cw"))
  {
    FourColumns(SquatDay().columns, SquatSettings());
  }

  /** Four columns carrying the four configured headings, in that order, are the day's stat columns. */
  lemma FourColumns(cols: seq<Column>, settings: StatsSettings)
    requires |cols| == 4
    requires cols[0].heading == settings.exerciseLabel && cols[1].heading == settings.setsLabel
    requires cols[2].heading == settings.repsLabel && cols[3].heading == settings.weightLabel
    requires Distinct([settings.exerciseLabel, settings.setsLabel, settings.repsLabel, settings.weightLabel])
    ensures DayStatColumns(cols, settings) == Some(StatColumns(cols[0].id, cols[1].id, cols[2].id, cols[3].id))
  {
    var hs := [settings.exerciseLabel, settings.setsLabel, settings.repsLabel, settings.weightLabel];
    forall k | 0 <= k < 4 ensures FindColumn(cols, hs[k]) == Some(k) {
      var r := FindColumn(cols, hs[k]);
      assert cols[k].heading == hs[k];
      assert forall j :: 0 <= j < 4 ==> cols[j].heading == hs[j];
    }
    assert FindColumn(cols, hs[0]) == Some(0);
    assert FindColumn(cols, hs[1]) == Some(1);
    assert FindColumn(cols, hs[2]) == Some(2);
    assert FindColumn(cols, hs[3]) == Some(3);
  }

  /** A Squat row whose name trims to "Squat" adds 1500 to Squat and nothing to other names. */
  lemma SquatRowVolume(id: string, order: int, name: string, e: string)
    requires Trim(name) == "Squat"
    ensures RowVolumeFor(SquatRow(id, order, name), StatColumns("ce", "cs", "cr", "cw"), e) ==
            if e == "Squat" then 1500.0 else 0.0
  {
    var row, sc := SquatRow(id, order, name), StatColumns("ce", "cs", "cr", "cw");
    assert Cell(row, "ce") == Some(name);
    assert Cell(row, "cs") == Some("3");
    assert Cell(row, "cr") == Some("5");
    assert Cell(row, "cw") == Some("100");
    ParseCells();
    assert RowVolume(row, sc) == 1500.0;
  }

  lemma ParseCells()
    ensures ParseNumber(Some("3")) == 3.0 && ParseNumber(Some("5")) == 5.0 && ParseNumber(Some("100")) == 100.0
  {
    ParseDigit(3);
    ParseDigit(5);
    ParseHundred();
  }

  lemma ParseDigit(n: nat)
    requires n < 10
    ensures ParseNumber(Some([DigitChar(n)])) == n as real
  {
    assert NatToString(n) == [DigitChar(n)];
    ParseWhole(n);
  }

  lemma ParseHundred()
    ensures ParseNumber(Some("100")) == 100.0
  {
    assert NatToString(100) == "100" by {
      assert NatToString(1) == "1";
      assert NatToString(10) == "10";
    }
    ParseWhole(100);
  }

  /** A cell holding the plain digits of a whole number reads as that number. */
  lemma ParseWhole(n: nat)
    ensures ParseNumber(Some(NatToString(n))) == n as real
  {
    var d := Decimal(false, n, "");
    var x := NatToString(n);
    assert "" + x + "" == x;
    assert Render(d) == x;
    assert Value(d) == n as real;
    ParseNumberOfRendered(d, "");
    assert Render(d) + "" == Render(d);
  }

  /** A text with no white space at either end trims to itself. */
  lemma TrimPlain(s: string)
    requires |s| > 0 && !IsSpace(s[0]) && !IsSpace(s[|s| - 1])
    ensures Trim(s) == s
  {
    assert LeadingSpaces(s) == 0;
    assert TrimStart(s) == s;
    assert TrailingSpaces(s) == 0;
  }

  /** One space at each end is trimmed away. */
  lemma TrimPadded(s: string)
    requires |s| > 0 && !IsSpace(s[0]) && !IsSpace(s[|s| - 1])
    ensures Trim(" " + s + " ") == s
  {
    var p := " " + s + " ";
    assert p[1..] == s + " ";
    assert LeadingSpaces(s + " ") == 0;
    assert TrimStart(p) == s + " ";
    assert (s + " ")[..|s|] == s;
    assert TrailingSpaces(s) == 0;
    assert TrailingSpaces(s + " ") == 1;
  }

  // ---------------------------------------------------------------------------
  // The point object as the chart receives it

  /** A property of the chart's point object: the week label text or an exercise's volume. */
  datatype Field = Text(text: string) | Num(num: real)

  /**
   * The point as written in the source: the object `{ label }`, then one property per
   * listed exercise with volume that week, so an exercise called `label` overwrites it.
   */
  function PointObject(l: string, t: Table, exercises: seq<string>): (m: map<string, Field>)
    ensures "label" in m
    ensures forall e :: e in m && e != "label" ==> e in exercises && Has(t, e, l) && m[e] == Num(VolumeAt(t, e, l))
    ensures forall e :: e in exercises && Has(t, e, l) ==> e in m && m[e] == Num(VolumeAt(t, e, l))
    ensures !("label" in exercises && Has(t, "label", l)) ==> m["label"] == Text(l)
    decreases |exercises|
  {
    if |exercises| == 0 then map["label" := Text(l)]
    else
      var m := PointObject(l, t, exercises[..|exercises| - 1]);
      var e := exercises[|exercises| - 1];
      assert forall x :: x in exercises <==> x in exercises[..|exercises| - 1] || x == e;
      if Has(t, e, l) then m[e := Num(VolumeAt(t, e, l))] else m
  }

  /** `dataPoints` exactly as the source assembles them. */
  function AsWrittenDataPoints(blocks: seq<BlockData>, settings: StatsSettings): seq<map<string, Field>> {
    var t := Accumulate(Contributions(blocks, settings));
    PointObjects(WeekLabels(blocks), t, SortStrings(t.order))
  }

  /** The point object of every week label. */
  function PointObjects(labels: seq<string>, t: Table, exercises: seq<string>): (r: seq<map<string, Field>>)
    ensures |r| == |labels| && forall i :: 0 <= i < |labels| ==> r[i] == PointObject(labels[i], t, exercises)
  {
    seq(|labels|, i requires 0 <= i < |labels| => PointObject(labels[i], t, exercises))
  }

  lemma SortedOrder(t: Table)
    requires Distinct(t.order)
    ensures forall e :: e in SortStrings(t.order) <==> e in t.order
  {
    forall e ensures e in SortStrings(t.order) <==> e in t.order {
      assert e in SortStrings(t.order) <==> e in multiset(SortStrings(t.order));
      assert e in t.order <==> e in multiset(t.order);
    }
  }

  /**
   * A week in which an exercise named `label` was trained loses its x-axis label in the
   * source's point: the property holds that exercise's volume instead of the week's text.
   */
  lemma AsWrittenLabelClobbered(blocks: seq<BlockData>, settings: StatsSettings, i: nat)
    requires i < |WeekLabels(blocks)|
    requires Mentions(Contributions(blocks, settings), "label", WeekLabels(blocks)[i])
    ensures i < |AsWrittenDataPoints(blocks, settings)|
    ensures "label" in AsWrittenDataPoints(blocks, settings)[i]
    ensures AsWrittenDataPoints(blocks, settings)[i]["label"] != Text(WeekLabels(blocks)[i])
    ensures ComputeVolumeData(blocks, settings).points[i].weekLabel == WeekLabels(blocks)[i]
  {
    var cs := Contributions(blocks, settings);
    var t := Accumulate(cs);
    var l := WeekLabels(blocks)[i];
    AccumulateKeys(cs);
    LabelListed(t, l);
    AsWrittenPointAt(blocks, settings, i);
  }

  /**
   * A concrete case: one row of an exercise called `label`, 3 kg for one rep in week B1W1.
   * The source's point for B1W1 carries the number 3 where the week's text belongs.
   */
  lemma LabelClobberedExample()
    ensures var t := Accumulate([Contribution("label", "B1W1", 3.0)]);
            PointObject("B1W1", t, SortStrings(t.order))["label"] == Num(3.0)
  {
    var t := Accumulate([Contribution("label", "B1W1", 3.0)]);
    AccumulateKeys([Contribution("label", "B1W1", 3.0)]);
    AccumulateSums([Contribution("label", "B1W1", 3.0)]);
    assert t.order == ["label"];
    assert SortStrings(t.order) == ["label"];
    assert VolumeAt(t, "label", "B1W1") == 3.0;
  }

  /** An exercise named `label` with volume that week is among the sorted names. */
  lemma LabelListed(t: Table, l: string)
    requires Distinct(t.order) && (forall e :: e in t.volumes <==> e in t.order)
    requires Has(t, "label", l)
    ensures "label" in SortStrings(t.order)
  {
    SortedOrder(t);
  }

  /** The source's point of week `i` is the point object built from the summed record. */
  lemma AsWrittenPointAt(blocks: seq<BlockData>, settings: StatsSettings, i: nat)
    requires i < |WeekLabels(blocks)|
    ensures var t := Accumulate(Contributions(blocks, settings));
            i < |AsWrittenDataPoints(blocks, settings)| &&
            AsWrittenDataPoints(blocks, settings)[i] == PointObject(WeekLabels(blocks)[i], t, SortStrings(t.order))
  {
  }

  /** Apart from the `label` property, the source's point and the modelled point agree. */
  lemma AsWrittenAgreesElsewhere(blocks: seq<BlockData>, settings: StatsSettings, i: nat, e: string)
    requires i < |WeekLabels(blocks)| && e != "label"
    ensures i < |AsWrittenDataPoints(blocks, settings)|
    ensures var m, p := AsWrittenDataPoints(blocks, settings)[i], ComputeVolumeData(blocks, settings).points[i];
            (e in m <==> e in p.volumes) && (e in m ==> m[e] == Num(p.volumes[e]))
  {
    var cs := Contributions(blocks, settings);
    var t := Accumulate(cs);
    AccumulateKeys(cs);
    AccumulateSums(cs);
    SortedOrder(t);
    AsWrittenPointAt(blocks, settings, i);
  }
}

=== FILE: wrappers.dfy ===
/** Optional values: the model's stand-in for JavaScript's `null` / `undefined`. */
module Wrappers {

  datatype Option<+T> = None | Some(value: T) {

    /** The wrapped value, or `default` when absent (JavaScript's `x ?? default`). */
    function GetOr(default: T): T {
      match this
      case Some(v) => v
      case None => default
    }
  }
}
